=== FILE: README.md ===
# Joya booking core in Dafny

This project models the core of Joya, a Node/Express and MongoDB
hotel-booking web application, and proves properties of that model.

The main core is the booking lifecycle. A booking is held as
`pending_payment` for 24 hours while the guest pays through Stripe. The
payment webhook then confirms it. A booking can also be cancelled, and a
lapsed hold is expired by a sweep that runs before each checkout and on a
timer. Around that lifecycle sit smaller cores:

- the access guards of the middleware;
- the host-application workflow (apply, approve, reject);
- the wishlist;
- the password-reset code and its one-minute resend limit;
- rating aggregation;
- search analytics with a bounded queue of failed queries;
- search pagination and suggestions;
- synonym expansion of queries;
- the Joi request validators;
- the listing index's regex escape and the image-preview URL.

Modelling choices:

- **Booking store.** `BookingModel.BookingStore` is a class holding the
  collection as a sequence in insertion order; a booking's id is its index.
  Controllers are methods that modify the store.
- **Users and analytics.** A user document is the class
  `UserModel.UserAccount`, whose fields the controllers assign. The
  analytics object is the class `SearchAnalytics.Analytics`.
- **Pure helpers.** Pure rules are functions: guards, validators, pricing,
  the sweep's effect, pagination and string handling.
- **Time.** Booking dates are whole day numbers. Timestamps are integer
  milliseconds, and `now` is always a parameter.
- **Outside services.** Stripe is an oracle: the signature check's outcome,
  the created session (or its failure) and the verified event are
  parameters. Lookups of other documents are parameters too: the user
  holding an email, whether a listing exists, the review authors.
- **Randomness.** `Math.random()` is a parameter in [0, 1).

Behaviours of the code that the model keeps as written:

- **Conflict check.** The availability query (controllers/payment.js:48-57)
  finds a booking that starts or ends inside the requested stay, but not
  one that strictly contains it (see Findings).
- **Webhook.** After its idempotency check on `confirmed`
  (controllers/payment.js:155-159) the webhook confirms the booking of the
  session whatever its status, cancelled and expired included.
- **Cancelling.** Both cancel paths (controllers/booking.js:81-91,
  controllers/payment.js:227-240) set cancelled from any status.
- **`confirmBooking`.** On a lapsed hold it sets expired and saves
  (controllers/booking.js:54-57); the pre-save hook then keeps `expiresAt`.
  The invariant proved (`BookingModel.WellFormed`) therefore lets an
  expired booking keep its deadline.
- **Unknown session.** A completed session that no booking carries is
  answered 404 (controllers/payment.js:150-153).

## Model

| member | source | states |
|---|---|---|
| BookingModel.StatusName | models/booking.js:19-23 | every status is stored as one of the four enumeration strings |
| BookingModel.StatusNamesDistinct | models/booking.js:19-23 | distinct statuses have distinct stored names |
| BookingModel.NewDocument | models/booking.js:8-35 | status defaults to pending_payment; `expiresAt` defaults to now + 24h for a pending booking and to null otherwise; createdAt is now |
| BookingModel.PreSave | models/booking.js:39-46 | a new pending booking gets now + 24h; any save of a confirmed or cancelled booking clears `expiresAt`; expired and already-saved pending bookings are left as they are; no other field changes |
| BookingModel.CancelRecord | controllers/booking.js:90-91 | setting cancelled and saving gives a cancelled booking with no deadline, whatever the status before |
| BookingModel.IsExpired | models/booking.js:49-55 | `isExpired`: pending_payment, a deadline set, and now strictly past it |
| BookingModel.SweepMatches | models/booking.js:61-64 | the sweep's filter: status string pending_payment and a deadline before now |
| BookingModel.SweepOne | models/booking.js:60-69 | a matching booking takes the sweep's update; any other is left as it is |
| BookingModel.ExpireRecord | models/booking.js:60-68 | the sweep's update sets expired and clears the deadline |
| BookingModel.Swept | models/booking.js:58-71 | the sweep maps each booking on its own and keeps the store's length |
| BookingModel.CountMatches | models/booking.js:58-71 | the modified count never exceeds the number of bookings |
| BookingModel.SweepMatchesIsIsExpired | models/booking.js:49-71 | the sweep's query filter selects exactly the bookings `isExpired` holds for (pending, deadline set, now strictly past it) |
| BookingModel.SweptChangesExactlyMatches | models/booking.js:58-71 | the sweep changes a booking iff it matches the filter, and then only its status and deadline |
| BookingModel.SweptHasNoMatches | models/booking.js:58-71 | nothing the sweep leaves matches it again at the same time |
| BookingModel.SweepIdempotent | models/booking.js:58-71 | a second sweep at the same time changes nothing and counts 0 |
| BookingModel.NoneExpiredAfterSweep | models/booking.js:49-71 | after a sweep at `now`, no booking is `isExpired` at `now` |
| BookingModel.ZeroCountMeansUnchanged | models/booking.js:58-71 | a modified count of zero means the store is unchanged |
| BookingModel.SweptWellFormed | models/booking.js:39-71 | the sweep keeps the per-booking invariant: dates in order, a guest, a pending booking has a deadline, a confirmed or cancelled one has none |
| BookingModel.PreSaveWellFormed | models/booking.js:39-46 | a record with dates in order, a guest, and a deadline on an unpaid hold that is not new comes out of the hook well formed, whatever status was assigned before the save |
| BookingModel.BookingStore.constructor | models/booking.js:79 | the collection starts empty and satisfies the store invariant |
| BookingModel.BookingStore.Insert | models/booking.js:39-46 | a new document runs the hook with `isNew` and is appended at the next id; a store of well-formed bookings stays so when the document has dates in order and a guest |
| BookingModel.BookingStore.Save | models/booking.js:39-46 | saving a loaded document runs the hook and replaces that record only; a store of well-formed bookings stays so when the record could be saved well formed |
| BookingModel.BookingStore.ExpireOldBookings | models/booking.js:58-71 | the store becomes the swept store, the result is the number of matching bookings, and a store of well-formed bookings stays so |
| PaymentController.ErrorStatus | controllers/payment.js:13-63 | a missing listing answers 404 and a provider failure 500 |
| PaymentController.AnyMissing | controllers/payment.js:13 | a field is missing when absent; `!guests` also holds for 0 |
| PaymentController.Nights | controllers/payment.js:29-33 | the nights between two day numbers: their difference, which `Math.ceil` of whole days leaves exact |
| PaymentController.CheckoutPlan | controllers/payment.js:13-46 | a request passes iff all fields are present and truthy, guests are in 1..6, the listing exists and nights are in 1..14; each error is answered iff every earlier check passed and its own failed, so a missing field comes before the guest range, the guest range before the listing (404), the listing before checkout-after-checkin, and that before the 14-night limit; the price is the listing's price × nights |
| PaymentController.UnitAmount | controllers/payment.js:94 | the line-item amount is the total in paise rounded to the nearest integer |
| PaymentController.UnitAmountOfWholeRupees | controllers/payment.js:94 | a whole-rupee total is exactly 100 paise per rupee |
| PaymentController.ConflictsWith | controllers/payment.js:50-57 | the conflict query on one booking: same listing, neither cancelled nor expired, starting in [checkIn, checkOut) or ending in (checkIn, checkOut] |
| PaymentController.HasConflict | controllers/payment.js:50-59 | some booking of the store meets the conflict query |
| PaymentController.ConflictImpliesOverlap | controllers/payment.js:50-57 | a conflict the query reports is a real half-open overlap |
| PaymentController.ConflictIffOverlapWithoutContainment | controllers/payment.js:50-57 | the query finds exactly the overlaps where the existing stay does not strictly contain the new one |
| PaymentController.BackToBackNeverConflicts | controllers/payment.js:50-57 | stays that meet at a date never conflict |
| PaymentController.ContainmentIsMissed | controllers/payment.js:50-57 | an active stay on days 1..10 is not found for a request of days 3..5 |
| PaymentController.LapsedHoldNeverBlocks | controllers/payment.js:49-57 | after the sweep a lapsed hold neither conflicts nor overlaps |
| PaymentController.Hold | controllers/payment.js:66-76 | the new hold is pending with a 24-hour deadline and the computed price |
| PaymentController.CreateCheckoutSession | controllers/payment.js:10-120 | an invalid request changes nothing; otherwise the store is swept; a conflict is refused; else one pending hold with the computed price is appended, a session for it is requested, and its id is saved on the hold, or left unset when the provider fails; well-formed bookings stay well formed |
| PaymentController.PlannedHoldIsWellFormed | controllers/payment.js:66-76 | the hold of a valid request is well formed and has 1..6 guests |
| PaymentController.ThreeNightsExample | controllers/payment.js:44-46 | three nights at 1000 cost 3000, that is 300000 paise |
| PaymentController.TwentyNightsRefused | controllers/payment.js:38-43 | a 20-night request is refused |
| PaymentController.FindBySession | controllers/payment.js:146-153 | the lookup finds the first booking with that session id, or reports that none has it |
| PaymentController.ConfirmPaid | controllers/payment.js:162-165 | the webhook's update confirms, records the payment intent and clears the deadline |
| PaymentController.WebhookStatus | controllers/payment.js:137-197 | a bad signature answers 400, an unknown session 404, and every acknowledgement 200 |
| PaymentController.WebhookUnknownSession | controllers/payment.js:150-153 | a completed session that no booking carries answers 404 and changes nothing |
| PaymentController.WebhookAlreadyConfirmed | controllers/payment.js:155-159 | a completed session whose booking is already confirmed is acknowledged and changes nothing |
| PaymentController.WebhookEffect | controllers/payment.js:124-198 | the reply is 400 exactly for a bad signature; every reply but the acknowledgement leaves the store as it was; the store keeps its length |
| PaymentController.StripeWebhook | controllers/payment.js:124-198 | the webhook's reply and store are those of `WebhookEffect`, and well-formed bookings stay well formed |
| PaymentController.WebhookIgnoresUnverifiedAndOtherEvents | controllers/payment.js:129-141 | a bad signature answers 400 and another event type is acknowledged; neither changes the store |
| PaymentController.WebhookConfirmsAnyUnconfirmed | controllers/payment.js:146-169 | a completed session is acknowledged and confirms its booking from any status but confirmed, records the intent and clears the deadline, and touches no other booking |
| PaymentController.WebhookIdempotent | controllers/payment.js:156-165 | delivering the same event twice has the reply and effect of one delivery |
| PaymentController.FindBySessionUnchangedBySameId | controllers/payment.js:146-153 | the lookup depends only on the session ids |
| PaymentController.WebhookWellFormed | controllers/payment.js:156-165 | the webhook keeps every booking well formed |
| PaymentController.PaymentCancel | controllers/payment.js:227-250 | an unknown id changes nothing; otherwise that booking is cancelled from any status and nothing else changes; well-formed bookings stay well formed |
| BookingController.BookedDates | controllers/booking.js:10-18 | the ranges are exactly those of the listing's bookings that are neither cancelled nor expired |
| BookingController.Shown | controllers/booking.js:10-13 | the bookings the form's query selects: this listing's, neither cancelled nor expired |
| BookingController.ConflictIsShown | controllers/booking.js:10-18 | every booking the checkout's conflict query would find appears among the booked dates |
| BookingController.ConfirmTransition | controllers/booking.js:55-72 | a lapsed hold becomes expired and keeps its deadline; a cancelled or expired booking is refused unchanged; anything else becomes confirmed with no deadline |
| BookingController.ConfirmBooking | controllers/booking.js:44-79 | an unknown id changes nothing; otherwise only that booking takes its transition; well-formed bookings stay well formed |
| BookingController.CancelBooking | controllers/booking.js:81-98 | an unknown id changes nothing; otherwise that booking is cancelled from any status; well-formed bookings stay well formed |
| BookingController.ConfirmingLapsedHoldKeepsDeadline | controllers/booking.js:55-63 | confirming a lapsed hold leaves it expired with its deadline still set |
| BookingController.NoTransitionBackToPending | controllers/booking.js:44-98 | neither confirm nor cancel leaves a booking pending_payment |
| BookingController.ConfirmIdempotent | controllers/booking.js:65-72 | confirming a confirmed booking again changes nothing |
| BookingController.CancelFromAnyStatus | controllers/booking.js:85-91 | cancelling succeeds from every status and clears the deadline |
| BookingController.TransitionsWellFormed | controllers/booking.js:44-98 | confirm and cancel keep a booking well formed |
| BookingCleanup.CleanupExpiredBookings | utils/bookingCleanup.js:7-18 | the result and effect are those of the sweep; a store error is passed on with nothing changed; well-formed bookings stay well formed |
| BookingCleanup.StatsFor | utils/bookingCleanup.js:23-59 | expiringSoon ≤ expiringInThreeHours ≤ total, and all are zero over no bookings |
| BookingCleanup.ExpirationStats | utils/bookingCleanup.js:23-59 | the statistics as written keep expiringSoon ≤ expiringInThreeHours ≤ total |
| BookingCleanup.ExpirationStatsAlwaysZero | utils/bookingCleanup.js:31 | matching the status "pending" makes every statistic zero |
| BookingCleanup.PendingHoldStats | utils/bookingCleanup.js:23-59 | the corrected statistics keep the same ordering of the three counts |
| BookingCleanup.PendingHoldStatsCountsHolds | utils/bookingCleanup.js:31-54 | the corrected total is the number of pending_payment bookings |
| Middleware.CheckBookingOwnership | middleware.js:98-116 | passes iff the lookup succeeds and the booking exists and belongs to the requester, or the requester is an admin; every refusal and every caught lookup error redirects to /listings |
| Middleware.RequireRole | middleware.js:147-160 | unauthenticated goes to /login, a role not allowed goes to /, and it passes iff the role is allowed |
| Middleware.IsDocOwner | middleware.js:162-176 | passes iff the lookup succeeds and the document exists and is the requester's, or the requester is an admin; a refusal redirects back; an uncaught lookup error answers 500 |
| Middleware.IsOwner | middleware.js:196-204 | a missing listing fails with 500; it passes iff the requester owns the listing (no admin bypass); otherwise it redirects to the listing |
| Middleware.IsHost | middleware.js:178-184 | passes iff the requester's role is host |
| Middleware.IsReviewAuthor | middleware.js:206-214 | passes iff the requester wrote the review; another user is redirected to the listing's page; a missing review is the crash that Left out describes |
| Middleware.CanApplyAsHost | middleware.js:186-194 | passes iff the role is user, or host with a rejected application; everyone else, admins included, goes to /dashboard |
| Middleware.IsAlreadyReviewed | middleware.js:215-225 | blocks iff one of the listing's reviews is the requester's |
| Middleware.StoreRedirectUrl | middleware.js:135-145 | records the URL only for a GET to a path not excluded when none is stored, and never overwrites a stored one |
| Middleware.StoreRedirectUrlIdempotent | middleware.js:135-145 | recording twice is recording once |
| Middleware.ExcludedPathNeverRecorded | middleware.js:129-145 | an excluded path is never recorded |
| Middleware.IsLoggedIn | middleware.js:118-127 | an authenticated request passes; otherwise it goes to /login, and a GET remembers its URL |
| Middleware.FileFilter | middleware.js:227-237 | accepts exactly image/jpeg, image/png and image/jpg |
| Middleware.CheckRequiredFile | middleware.js:239-244 | fails with 400 iff the file is missing or empty |
| Middleware.CheckOptionalFile | middleware.js:246-251 | fails with 400 iff a file is present and empty |
| Middleware.IsOwnerIsDocOwnerWithoutAdmin | middleware.js:162-204 | `isOwner` passing implies `isDocOwner` passing; the converse holds for a non-admin |
| Middleware.AdminBypassesOwnershipNotApplication | middleware.js:98-194 | an admin passes the booking and document ownership checks but cannot apply as host |
| Middleware.RequiredFileCheckIsStricter | middleware.js:239-251 | whatever passes the required-file check passes the optional one; a present file passing the optional one passes both |
| Wishlist.ReplyStatus | controllers/wishlist.js:5-102 | answers 200 exactly for added and removed |
| Wishlist.RemoveAll | controllers/wishlist.js:47-51 | `$pull` removes every occurrence of the id and keeps every other element as often as it occurred (the multiset loses exactly the id) |
| Wishlist.RemoveAllAppend | controllers/wishlist.js:47-51 | pulling from a concatenation pulls from each part, so the remaining ids keep their order |
| Wishlist.RemoveAllAbsent | controllers/wishlist.js:47-51 | removing an absent id leaves the list as it is |
| Wishlist.RemoveAllNoDuplicates | controllers/wishlist.js:47-51 | removing keeps a duplicate-free list duplicate-free |
| Wishlist.Toggle | controllers/wishlist.js:75-95 | a present id is pulled (every occurrence removed, the rest in order) with "removed"; an absent one is appended with "added" |
| Wishlist.ToggleTwiceRestores | controllers/wishlist.js:75-95 | toggling an absent id twice restores the list |
| Wishlist.ToggleNoDuplicates | controllers/wishlist.js:75-95 | toggling keeps a duplicate-free list duplicate-free |
| Wishlist.AddToWishlist | controllers/wishlist.js:5-38 | an unknown listing answers 404 and a present id 400, both with no change; otherwise the id is appended; no other field changes and no duplicate appears |
| Wishlist.RemoveFromWishlist | controllers/wishlist.js:41-58 | every occurrence is removed and the call succeeds even for an absent id |
| Wishlist.ToggleWishlist | controllers/wishlist.js:61-102 | an unknown listing changes nothing; otherwise the list and reply are the toggle's |
| HostApplication.ReplyTarget | controllers/host.js:4-73 | each refusal redirects where the handler sends it |
| HostApplication.RenderApplyForm | controllers/host.js:4-15 | the form is shown iff the email is verified |
| HostApplication.Application | controllers/host.js:43-53 | the new host record is pending, not a host yet, with the given details, the file as avatar and now as the application time |
| HostApplication.SubmitApplication | controllers/host.js:17-73 | an unverified email, a missing file or an unknown user are refused with the user record unchanged; otherwise the host record is replaced by the application, the role becomes host, and no other field changes |
| HostApplication.SubmittedCannotReapply | controllers/host.js:43-56 | after submitting, `canApplyAsHost` refuses until the application is rejected |
| Admin.ListAllApplications | controllers/admin.js:5-20 | the list holds exactly the users with a pending, approved or rejected application |
| Admin.ApprovedHost | controllers/admin.js:39-42 | after approval the status is approved, approvedAt is now and isHost is set; the application date, name, phone, Aadhaar number, avatar and verification flag are the applicant's |
| Admin.RejectedHost | controllers/admin.js:75-76 | after rejection the status is rejected and isHost is clear; approvedAt and the applicant's details are kept |
| Admin.ApproveApplication | controllers/admin.js:23-56 | an unknown user or an application that is not pending changes nothing; otherwise the application is approved, the role becomes host, and no other field changes |
| Admin.RejectApplication | controllers/admin.js:59-91 | an unknown user or an application that is not pending changes nothing; otherwise it is rejected, and every other field, the role included, is left as it was |
| Admin.DecisionsAndReapplication | controllers/admin.js:39-77 | an approved host cannot apply again; a rejected one can |
| Admin.RejectAsWritten | controllers/admin.js:75-77 | rejection as written sets rejected, clears isHost and keeps the role |
| Admin.RejectedApplicantPassesIsHost | controllers/admin.js:75-77 | a rejected applicant still passes `isHost` |
| Admin.RejectIntended | controllers/admin.js:75-77 | the corrected rejection gives role user, status rejected and isHost clear, keeping approvedAt and the applicant's details |
| Admin.RejectIntendedRevokesHosting | controllers/admin.js:75-77 | after the corrected rejection `isHost` refuses and the user may apply again |
| Admin.AdminEmailRecovery | controllers/admin.js:94-126 | an email held by another user is refused with the user record unchanged; otherwise the email is set and verified, the verification token and expiry are cleared, and no other field changes |
| UserModel.UserAccount.constructor | models/user.js:5-45 | a new user has role user, the default host sub-document (not a host, status none, not verified), an empty wishlist and `isEmailVerified` true |
| Common.Ceil | utils/jwtHelper.js:69 | `Math.ceil` gives the least integer not below its argument; the cooldown and the page count both use it |
| Common.Take | routes/search.js:186-189 | `slice(0, n)`: the first n elements, or all of them, as a prefix |
| Common.SliceIndex | utils/searchAnalytics.js:107 | the position `slice` uses: a negative argument counts from the end, clamped to the length |
| Common.Slice | utils/searchAnalytics.js:102 | `slice(start, end)` never lengthens; from 0 it is a prefix of length `min(end, length)` |
| Common.Reverse | utils/searchAnalytics.js:107 | `reverse()`: same length, element i is the i-th from the end |
| Common.Lower | utils/searchAnalytics.js:45 | `toLowerCase()`: same length, each character lowered |
| Common.Trim | utils/searchAnalytics.js:43-45 | `trim()` is the slice of the input between its leading and trailing whitespace: everything cut is whitespace, and the result starts and ends with a non-whitespace character or is empty |
| Common.TrimIsSlice | utils/searchAnalytics.js:43-45 | cutting the leading and then the trailing whitespace leaves a contiguous slice of the input |
| Common.TrimDropsTrailingWhitespace | utils/searchAnalytics.js:43-45 | every character after that slice is whitespace |
| Common.TrimSplits | utils/searchAnalytics.js:43-45 | the two facts together: the slice, and whitespace on both sides of it |
| Common.Contains | routes/search.js:195 | `includes`: the text occurs at some position |
| Common.DecimalString | utils/jwtHelper.js:12 | `toString()` of a natural number: at least one character, all decimal digits |
| Common.IndexOf | routes/search.js:193 | the first position of a value that occurs, which is the position `new Set` keeps |
| JwtHelper.CanResendOTP | utils/jwtHelper.js:54-58 | a resend is allowed iff at least 60 s have passed |
| JwtHelper.GetRemainingCooldown | utils/jwtHelper.js:65-70 | the remaining cooldown is never negative, is 0 iff a resend is allowed, is at most 60 for a past issue time, and is the ceiling of the seconds left |
| JwtHelper.CooldownNonIncreasing | utils/jwtHelper.js:65-70 | the remaining cooldown never grows as time passes |
| JwtHelper.GenerateOTP | utils/jwtHelper.js:11-13 | the code has six decimal digits and denotes 100000..999999 |
| UserController.AfterSignup | controllers/user.js:21 | a new user goes to the stored return URL when there is one, else to /listings |
| UserController.Signup | controllers/user.js:8-29 | a password mismatch or a used email creates no user; otherwise one fresh user with the given id, username, email and password, role user, the default host sub-document, an empty wishlist, `isEmailVerified` true and no reset or verification code |
| UserController.Update | controllers/user.js:46-62 | a wrong current password or a mismatch leaves the user record unchanged; otherwise the password is set and no other field changes |
| UserController.InCooldown | controllers/user.js:76-81 | the rate limit: a truthy expiry still in the future whose code was issued less than a minute ago |
| UserController.CooldownIsOneMinute | controllers/user.js:76-88 | for a code issued at t, the 429 rule holds iff less than a minute has passed, which is exactly when `canResendOTP` refuses |
| UserController.CodeReplyStatus | controllers/user.js:68-100 | only an issued code answers 200 |
| UserController.GetCode | controllers/user.js:68-100 | an unknown user answers 404; within the rate limit it answers 429 with the user record unchanged; otherwise a six-digit code in 100000..999999 is stored, expiring ten minutes from now, and no other field changes |
| UserController.ForgotCheck | controllers/user.js:111-124 | the reset succeeds iff a code is stored and equals the one supplied, the expiry has not passed, and the two passwords agree |
| UserController.Forgot | controllers/user.js:102-134 | on success the password is set and the code and expiry are cleared, and no other field changes; otherwise the user record is unchanged |
| UserController.CodeNotReusable | controllers/user.js:126-129 | once cleared, no code is accepted |
| UserController.IssuedCodeWorksForTenMinutes | controllers/user.js:90-124 | an issued code resets the password until its expiry and is refused as expired after it |
| Review.GetAvgRating | utils/review.js:1-5 | the average is 0 for no reviews, otherwise average × count = sum |
| Review.SumBounds | utils/review.js:3-4 | bounds on each rating bound the sum |
| Review.AvgInRange | utils/review.js:1-5 | ratings in 1..5 average in 1..5 |
| Review.AvgExample | tests/basic.test.js:11-16 | ratings 5, 4 and 3 average 4 |
| Review.GetStarBreakdown | utils/review.js:7-17 | the keys are exactly 1..5, all zero for a missing list; each count is the number of reviews with that rating |
| Review.BreakdownAddsUp | utils/review.js:7-17 | the five counts add up to the number of whole-star ratings, so other ratings are ignored |
| Review.BreakdownExample | tests/comprehensive.test.js:47-61 | ratings 5, 5, 4, 3, 1 break down as 2, 1, 1, 0, 1 |
| SearchAnalytics.BumpCounts | utils/searchAnalytics.js:52-55 | counting `q` adds one to its count and to the total and leaves every other count as it was |
| SearchAnalytics.BumpKeys | utils/searchAnalytics.js:52-55 | counting `q` adds it to the keys and keeps them unique; a missing key is appended at the end with count 1 |
| SearchAnalytics.Bump | utils/searchAnalytics.js:52-55 | the popularity object with one more count for the query, a new key appended with count 1 (its counts and keys are stated by `BumpCounts` and `BumpKeys`) |
| SearchAnalytics.Blank | utils/searchAnalytics.js:43 | a query is ignored when missing or blank once trimmed |
| SearchAnalytics.Normalize | utils/searchAnalytics.js:45 | the counted key is the trimmed, lower-cased query, never longer than it |
| SearchAnalytics.InsertByCount | utils/searchAnalytics.js:99-104 | insertion adds exactly one element |
| SearchAnalytics.InsertKeepsSorted | utils/searchAnalytics.js:99-104 | insertion keeps the list sorted by decreasing count |
| SearchAnalytics.SortByCount | utils/searchAnalytics.js:99-104 | the sort is a permutation sorted by decreasing count |
| SearchAnalytics.Analytics.constructor | utils/searchAnalytics.js:8-18 | analytics start with no searches, no popular or failed queries and no trends, satisfying the invariant |
| SearchAnalytics.LogKeepsInvariant | utils/searchAnalytics.js:42-97 | one logged query keeps the analytics invariant: unique keys, counts summing to the total, the queue within 100, each day's count the number of its queries |
| SearchAnalytics.Analytics.LogSearch | utils/searchAnalytics.js:42-97 | a blank query changes nothing; otherwise the total, the query's count and today's trend each grow by one; a query with no results joins the queue, which keeps its last 100 entries; the invariant is kept |
| SearchAnalytics.Analytics.GetPopularSearches | utils/searchAnalytics.js:99-104 | at most `limit` entries, sorted by decreasing count, drawn from the popular queries; no entry left out has a larger count than an entry returned |
| SearchAnalytics.Analytics.GetNoResultsQueries | utils/searchAnalytics.js:106-108 | for a positive limit, the newest `limit` entries, newest first |
| SearchAnalytics.Analytics.GetSearchTrends | utils/searchAnalytics.js:110-127 | one entry for each of the `days` days ending today, the recorded trend or a zero record |
| SearchAnalytics.Analytics.GetSuggestions | utils/searchAnalytics.js:129-150 | at most five recorded queries, each related to the lower-cased query; with the invariant, in decreasing popularity, and a related query left out means five were returned, none less popular than it |
| SearchAnalytics.TopRelated | utils/searchAnalytics.js:129-150 | at most five suggestions |
| SearchAnalytics.TopRelatedAreRelated | utils/searchAnalytics.js:133-143 | every suggestion is a popular query that contains the lower-cased query or is contained in it |
| SearchAnalytics.TopRelatedAreMostPopular | utils/searchAnalytics.js:146-149 | suggestions come in decreasing popularity, and a related query left out is no more popular than any shown |
| SearchAnalytics.KeepLast | utils/searchAnalytics.js:67-71 | the queue is cut to its newest 100 entries |
| SearchAnalytics.TrendBump | utils/searchAnalytics.js:74-87 | today's trend is created empty when missing, then counted once with the query appended |
| SearchAnalytics.LogTwiceCountsTwice | utils/searchAnalytics.js:52-55 | logging the same query twice adds two to its count and two to the total |
| SearchAnalytics.KeepLastKeepsNewest | utils/searchAnalytics.js:58-71 | the newest failed query is always kept |
| SearchAnalytics.PopularSearchesArePermutation | utils/searchAnalytics.js:99-104 | with a limit covering all entries, the result holds every entry once |
| SearchAnalytics.NoResultsLimitZeroReturnsAll | utils/searchAnalytics.js:106-108 | a limit of 0 returns the whole queue reversed |
| SearchAnalytics.NewestNoResults | utils/searchAnalytics.js:106-108 | the corrected getter returns the newest `limit` entries, none for a limit of 0 or less |
| SearchAnalytics.NewestNoResultsAgreesForPositiveLimits | utils/searchAnalytics.js:106-108 | for positive limits the corrected getter equals the original |
| SearchRoute.BuildFilter | routes/search.js:27-58 | the text filter is set iff the trimmed `q` is non-empty; the category iff it is given and not "all"; location and country, trimmed, iff given; the price bounds as given; facilities as given |
| SearchRoute.BuildSort | routes/search.js:61-79 | price_low sorts by price ascending and price_high descending, after the text score when there is a text query; newest sorts by id descending; the default is the text score, or newest without a text query |
| SearchRoute.TextFirst | routes/search.js:61-63 | the text score sorts first exactly when `q` is truthy and not blank once trimmed |
| SearchRoute.TotalPages | routes/search.js:124-126 | for a positive limit, the page count is the least number of pages that holds the total; a zero limit gives Infinity, or NaN for no results |
| SearchRoute.CeilDivBounds | routes/search.js:124-126 | the ceiling of total / limit bounds the total between its pages |
| SearchRoute.Paginate | routes/search.js:82-84 | skip = (page − 1) × limit; hasNext iff page < totalPages; hasPrev iff page > 1 |
| SearchRoute.HasNextIffMoreItems | routes/search.js:124-126 | for a positive limit, hasNext iff items remain beyond this page |
| SearchRoute.Below | routes/search.js:125 | `pageNum < totalPages` on a page count that may be infinite or NaN: true below a finite count, always true against Infinity, never against NaN |
| SearchRoute.SkipPastEnd | routes/search.js:82-126 | on the last page the skip plus the limit covers the total; the first page skips nothing and has no previous page |
| SearchRoute.ProcessHits | routes/search.js:97-121 | each listing gets its average rating; with `minRating` set, exactly the listings whose average is below it are dropped |
| SearchRoute.ProcessHitsIsProcessEach | routes/search.js:97-121 | processing is each hit's own contribution, in the order of the hits |
| SearchRoute.ProcessEachAppend | routes/search.js:97-121 | the contributions of a concatenation are those of each part, in order |
| SearchRoute.ProcessHitsAppend | routes/search.js:97-121 | `map` then `filter` distributes over concatenation, so the survivors keep the sort order of the hits |
| SearchRoute.Dedup | routes/search.js:193 | `new Set` keeps each value once, with the same values, in the order of their first occurrence |
| SearchRoute.FilterContaining | routes/search.js:194-196 | keeps exactly the values containing the query, ignoring case; on a list without repeats, in the list's order |
| SearchRoute.Candidates | routes/search.js:174-184 | at most 3 titles, 3 locations, 2 countries and 2 facilities are gathered |
| SearchRoute.Suggestions | routes/search.js:165-204 | empty for a missing query, one shorter than 2 characters once trimmed, or a failed lookup; otherwise the first eight distinct candidates containing the query, ignoring case, in the order the candidates first list them: a matching candidate is left out only when eight are shown, all listed before it |
| SearchRoute.FirstMatches | routes/search.js:193-197 | the distinct matching candidates, cut to eight, keep the candidates' first-occurrence order, and any matching candidate left out comes after all eight |
| SearchRoute.PrefixComesFirst | routes/search.js:197 | `slice(0, n)` of an ordered list keeps the order and leaves out only later values, and only when n are kept |
| SearchRoute.FilterContainingAppend | routes/search.js:194-196 | the filter of two lists joined is the two filters joined, so it keeps every match in order |
| SearchRoute.DedupKeepsFirst | routes/search.js:185-197 | a repeated value does not change the deduplicated list, so the first appearance decides the order |
| SearchSynonyms.Join | utils/searchSynonyms.js:32-39 | joining words whose first is non-empty gives a non-empty string |
| SearchSynonyms.WholeWordAt | utils/searchSynonyms.js:34-35 | `\\b${key}\\b` matches at a position: the key is there, with no word character just before or just after it |
| SearchSynonyms.ContainsWord | utils/searchSynonyms.js:34-35 | the key occurs as a whole word somewhere in the lower-cased query |
| SearchSynonyms.Expansion | utils/searchSynonyms.js:32-39 | the text appended by the first n keys of the table, in table order (stated by `ExpansionEmptyIffNoKey`) |
| SearchSynonyms.ExpandQuery | utils/searchSynonyms.js:25-42 | a falsy query is returned unchanged; otherwise each key found as a whole word in the lower-cased original adds its synonyms, in table order |
| SearchSynonyms.ExpansionEmptyIffNoKey | utils/searchSynonyms.js:32-41 | nothing is appended iff no key occurs as a whole word |
| SearchSynonyms.ExpandedStartsWithQuery | utils/searchSynonyms.js:28-41 | the result starts with the query and equals it when no key matches |
| SearchSynonyms.PartialWordDoesNotMatch | utils/searchSynonyms.js:32-35 | "cheap" inside "cheapest" does not match |
| SearchSynonyms.KeyBetweenSpacesMatches | utils/searchSynonyms.js:32-35 | a key between spaces always matches |
| Common.TrimEmptyIffBlank | utils/searchAnalytics.js:43 | `trim()` gives the empty string iff every character is JavaScript whitespace, which is when a query is ignored |
| Common.DecimalStringRoundTrip | utils/jwtHelper.js:11-13 | the decimal text of a number reads back as that number |
| Schema.RequiredString | schema.js:6-7 | a required string passes iff present and non-empty |
| Schema.BoundedString | schema.js:47-50 | a length-bounded string passes iff present with its length within the bounds |
| Schema.DigitString | schema.js:104-117 | a digit-pattern field passes iff it is exactly n ASCII digits |
| Schema.Confirm | schema.js:42-44 | `confirm` passes iff it equals the password |
| Schema.CheckInRule | schema.js:66-85 | the check-in passes iff its day is tomorrow or later |
| Schema.GuestsRule | schema.js:90-94 | guests pass iff an integer in 1..6 |
| Schema.ValidateBooking | schema.js:65-96 | a booking passes iff check-in is on a later day than today, check-out is after check-in, guests are an integer in 1..6, and a given dateRange is non-empty; a past or same-day check-in is the "tomorrow or later" error |
| Schema.ValidBookingIsInTheFuture | schema.js:66-89 | a booking that passes starts and ends after now |
| Schema.ValidateReview | schema.js:25-30 | a review passes iff its rating is in 1..5 and its comment is non-empty |
| Schema.OneOf | schema.js:8-10 | a listed-value field passes iff its value is in the list |
| Schema.FacilitiesRule | schema.js:11-18 | facilities pass iff a non-empty array of listed facilities or one listed facility |
| Schema.ValidateListing | schema.js:4-23 | a listing passes iff title, description, location and country are non-empty, the category is listed, the facilities pass and the price is at least 0 |
| Schema.EmailRule | schema.js:34 | an email passes iff non-empty and well formed |
| Schema.ValidateReset | schema.js:32-45 | a reset passes iff username and a well-formed email are given, the code is exactly six digits, the password has at least 6 characters and `confirm` equals it |
| Schema.DigitsValueBound | schema.js:36 | n decimal digits denote a number below 10^n |
| Schema.ValidCodeIsSixDigitNumber | schema.js:35-40 | an accepted code denotes 0..999999 |
| Schema.GeneratedCodePassesPattern | schema.js:35-40 | every generated code satisfies the six-digit pattern |
| Schema.ValidateSignup | schema.js:47-55 | a signup passes iff the username has 3..20 characters, the email is well formed, the password has at least 6 characters and `confirm` equals it; the mismatch error is reported exactly when only `confirm` is wrong |
| Schema.ValidateUpdatePassword | schema.js:57-63 | a password update passes iff the current password is given, the new one has at least 6 characters and `confirm` equals it |
| Schema.ValidateHostApplication | schema.js:98-118 | an application passes iff the full name has 2..50 characters, the phone 10 digits and the Aadhaar number 12 digits |
| Schema.ValidListingAccepted | tests/comprehensive.test.js:144-159 | the test suite's listing passes |
| Schema.InvalidListingRejected | tests/comprehensive.test.js:161-171 | the test suite's invalid listing fails on its empty title |
| Schema.ValidReviewAccepted | tests/comprehensive.test.js:173-183 | the test suite's review passes |
| Schema.ValidSignupAccepted | tests/comprehensive.test.js:185-196 | the test suite's signup passes |
| ListingController.Escape | controllers/listing.js:25 | escaping never shortens the query |
| ListingController.Literal | controllers/listing.js:25-26 | a source of literals and escaped specials matches a string no longer than itself |
| ListingController.EscapeIsLiteral | controllers/listing.js:25-26 | the escaped query, read as a regular expression, matches exactly the query's characters, which also makes unescaping a round trip |
| ListingController.EscapePlainUnchanged | controllers/listing.js:25 | a query without special characters is unchanged |
| ListingController.EscapeInjective | controllers/listing.js:25 | different queries escape differently |
| ListingController.BuildIndexFilter | controllers/listing.js:21-31 | the pattern is set iff `q` is truthy and then reads back as `q`; the category is set iff truthy |
| ListingController.SelectsIff | controllers/listing.js:24-31 | a listing is found iff its title, location or country starts with `q` ignoring case, and its category is the requested one |
| ListingController.Find | controllers/listing.js:32 | the query returns exactly the store's listings the filter selects |
| ListingController.Index | controllers/listing.js:21-41 | the listings found, each with `avgRating` set to its reviews' average and nothing else changed |
| ListingController.ShownListingsAreSelected | controllers/listing.js:32-35 | each listing shown is a selected listing of the store, with an average in 1..5 when its ratings are |
| ListingController.FindSubstring | controllers/listing.js:99-103 | the position found is the first occurrence, or there is none |
| ListingController.PreviewUrl | controllers/listing.js:99-103 | the first "/upload" is replaced and a URL without one is unchanged |
| ListingController.PreviewInsertsTransformation | controllers/listing.js:99-103 | the preview is the URL with "/w_250,f_auto,q_auto" inserted right after its first "/upload", or the URL itself when it has none |
| ListingController.RemovingTransformationRestores | controllers/listing.js:99-103 | the preview is 20 characters longer, agrees with the URL up to the insertion, and cutting the inserted text out gives the URL back |
| ListingController.PreviewExample | controllers/listing.js:99-103 | of two "/upload", only the first is rewritten |

## Left out

- Stripe, e-mail, Cloudinary, Mapbox, Passport and sessions are outside the model. Their outcomes are parameters, and the webhook's confirmation e-mail, which always fails and is swallowed, has no effect.
- The race between the conflict query and the insert of a new hold cannot be shown by a sequential model. Concurrent checkouts for the same dates can both succeed.
- The `setInterval` timer of `scheduleCleanup` and the TTL index of the booking collection are not modelled.
- Date parsing, time zones and `setHours`/`setDate` are out. Dates are day numbers, with one fixed time zone, and each trend day is an integer.
- Middleware.IsDocOwner, Middleware.IsOwner, Middleware.IsReviewAuthor and Middleware.IsAlreadyReviewed: these async guards have no `try`. `isOwner`, `isReviewAuthor` and `isAlreadyReviewed` read a property of `null` when the document is missing (middleware.js:196-225), and `isDocOwner` rejects when its lookup fails (middleware.js:165). The model answers each such rejected promise `Fail(500)`, taking it to reach the error handler, which the Express version in use does not guarantee.
- PaymentController.StripeWebhook: a store error while finding or saving the booking is answered 500 by the handler's `catch` (controllers/payment.js:190-193); the store never fails in the model.
- PaymentController.CheckoutPlan: `guests` is an integer; a fractional value such as 2.5, which passes the range check of controllers/payment.js:18-20, is not modelled.
- Schema.ValidateBooking, Schema.ValidateListing, Schema.ValidateReview, Schema.ValidateSignup, Schema.ValidateUpdatePassword, Schema.ValidateReset, Schema.ValidateHostApplication: return the first error only, where the middleware joins every error's message (`abortEarly: false`); whether a form passes is the same.
- SearchRoute.BuildFilter: `new RegExp(location.trim(), "i")` and the same for country (routes/search.js:44-50) throw a SyntaxError on a value that is not a valid pattern, such as `(`. The route's `catch` then answers 500 (routes/search.js:153-160). The model always returns a filter and matches these fields as text.
- SearchRoute.BuildFilter: takes the facilities already as a list; the wrapping of a single value in a list and the skipping of an empty string (routes/search.js:53-57) happen before the call.
- Admin.ListAllApplications, Admin.ApproveApplication, Admin.RejectApplication, Admin.AdminEmailRecovery, HostApplication.SubmitApplication, PaymentController.CreateCheckoutSession, PaymentController.PaymentCancel, BookingController.ConfirmBooking, Wishlist.AddToWishlist, Wishlist.RemoveFromWishlist, Wishlist.ToggleWishlist: the store never fails in the model. A store error, such as the CastError `findById` raises for a malformed id, reaches each handler's `catch` (controllers/admin.js:15, 51, 86, 122; controllers/host.js:65; controllers/payment.js:117-120, 245; controllers/wishlist.js:32, 52, 96). That `catch` redirects with a flash message or answers 500, where the model answers as for a missing record. So a malformed `listingId` at checkout (controllers/payment.js:23) is a 500 there and `ListingNotFound` (404) here. The confirm route has no ownership guard (routes/booking.js:31-35), so a malformed booking id there goes through `wrapAsync` to the error handler as a 500, where the model answers `BookingNotFound`. The payment success page (controllers/payment.js:199-224) only renders a view and is not modelled.
- Schema.BoundedString, Schema.ValidateSignup, Schema.ValidateReset, Schema.ValidateUpdatePassword, Schema.ValidateHostApplication, SearchRoute.Suggestions: a string's length is its number of Unicode characters. Joi's `.min`/`.max` (schema.js:41, 48, 50, 59, 99) and `.length` (routes/search.js:169) count UTF-16 code units. So a character outside the Basic Multilingual Plane, such as an emoji, counts once here and twice there. An 11-emoji username passes the 20-character limit here and fails it there, and a one-emoji query is too short here but long enough there.
- Floating point is out: prices, ratings and averages are exact reals. `Math.round` is exact rounding of a real. The analytics' running averages of result counts are not modelled.
- Mongoose's strict mode would drop fields that models/user.js does not declare (`resetCode`, `resetCodeExpires`, the email-verification fields). The model treats them as stored, as the controllers expect.
- Passwords are compared as stored strings; hashing, and `User.register`'s username-taken error, are not modelled.
- `parseInt`/`parseFloat` of query parameters are out. Prices and `minRating` arrive parsed, and a value that does not parse is absent.
- The suggestions route uses case-insensitive regular expressions; the model uses case-insensitive substring tests. An invalid expression is the `lookupFailed` parameter.
- Joi's conversion of numeric strings, its refusal of unknown keys and its email grammar are out; whether an email is well formed is a parameter.
- `toLowerCase` and case-insensitive matching cover ASCII letters only.
- `Object.entries` order of integer-like keys and prototype keys such as `__proto__` in `popularQueries` are not modelled. Keys keep insertion order.
- `loadAnalytics`/`saveAnalytics` file I/O is not modelled.
- SearchAnalytics.Analytics.GetPopularSearches: states the size, the order by count and that nothing left out is more popular, but not that ties keep insertion order, though the sort is stable.
- SearchAnalytics.TopRelated: the order of equally popular suggestions is not stated.
- Schema.FacilitiesRule: a failing value is reported as `alternatives.match`; Joi may instead name the error of the alternative whose type matched.
- ListingController.Literal: gives no meaning to a bare special character or to an escape of a non-special one, which the escaped query never contains.

## Findings

| source | as written | input that shows it | evidently intended | confidence | as-written member | corrected member |
|---|---|---|---|---|---|---|
| controllers/payment.js:50-57 | the conflict query matches a stay starting in [checkIn, checkOut) or ending in (checkIn, checkOut] | an active stay on days 1..10 and a request for days 3..5 | any half-open overlap of an active stay blocks the request | not executed; high | PaymentController.ContainmentIsMissed | PaymentController.ConflictIffOverlapWithoutContainment |
| utils/bookingCleanup.js:31 | statistics match status "pending", which no booking has | any store, e.g. one pending_payment hold expiring in 30 minutes | count the pending_payment holds | not executed; high | BookingCleanup.ExpirationStatsAlwaysZero | BookingCleanup.PendingHoldStatsCountsHolds |
| controllers/admin.js:75-77 | rejection keeps the role host | a pending applicant (role host) rejected by an admin still passes `isHost` | a rejected applicant loses host access | not executed; medium | Admin.RejectedApplicantPassesIsHost | Admin.RejectIntendedRevokesHosting |
| utils/searchAnalytics.js:106-108 | `slice(-limit)` with limit 0 is `slice(0)` | `getNoResultsQueries(0)` on a queue of 100 returns all 100 | a limit of 0 returns nothing | not executed; low | SearchAnalytics.NoResultsLimitZeroReturnsAll | SearchAnalytics.NewestNoResults |

=== FILE: admin.dfy ===
/**
 * The administrator's side of the host application (controllers/admin.js):
 * the list of applications, approval and rejection of a pending application,
 * and the email recovery.
 */
module Admin {
  import opened Common
  import opened UserModel
  import Middleware
  import HostApplication

  /** A user shows in the admin dashboard once they have applied. */
  predicate HasApplied(h: HostInfo) {
    h.status == Pending || h.status == Approved || h.status == Rejected
  }

  /** `listAllApplications`: the users whose host status is pending, approved or rejected, in store order. */
  function ListAllApplications(users: seq<UserAccount>): (r: seq<UserAccount>)
    reads users
    ensures forall k :: 0 <= k < |r| ==> r[k] in users && r[k].host.status != NoApplication
    ensures forall i :: 0 <= i < |users| && users[i].host.status != NoApplication ==> users[i] in r
    ensures |r| <= |users|
  {
    if users == [] then []
    else
      var init := ListAllApplications(users[..|users| - 1]);
      var last := users[|users| - 1];
      assert users == users[..|users| - 1] + [last];
      if HasApplied(last.host) then init + [last] else init
  }

  datatype AdminReply = UserNotFound | NotPending | ApplicationApproved | ApplicationRejected | EmailTaken | EmailUpdated

  /** The applicant's own details, which neither decision touches. */
  predicate SameApplicant(a: HostInfo, b: HostInfo) {
    && a.appliedAt == b.appliedAt && a.fullName == b.fullName && a.phone == b.phone
    && a.aadhaar == b.aadhaar && a.avatar == b.avatar && a.isVerified == b.isVerified
  }

  /** The host sub-document after approval: approved now, a host. */
  function ApprovedHost(h: HostInfo, now: int): (r: HostInfo)
    ensures r.status == HostStatus.Approved && r.approvedAt == Some(now) && r.isHost
    ensures SameApplicant(r, h)
  {
    h.(status := HostStatus.Approved, approvedAt := Some(now), isHost := true)
  }

  /** The host sub-document after rejection: rejected, not a host. */
  function RejectedHost(h: HostInfo): (r: HostInfo)
    ensures r.status == HostStatus.Rejected && !r.isHost
    ensures r.approvedAt == h.approvedAt && SameApplicant(r, h)
  {
    h.(status := HostStatus.Rejected, isHost := false)
  }

  /** `approveApplication`: only a pending application is approved; the user becomes a host. */
  method ApproveApplication(u: UserAccount?, now: int) returns (reply: AdminReply)
    modifies u
    ensures u == null ==> reply == UserNotFound
    ensures u != null && old(u.host.status) != Pending ==> reply == NotPending && unchanged(u)
    ensures u != null && old(u.host.status) == Pending ==>
      reply == ApplicationApproved && u.host == ApprovedHost(old(u.host), now) && u.role == Host
    ensures u != null ==> unchanged(u`username, u`email, u`wishlist, u`isEmailVerified, u`password)
    ensures u != null ==> unchanged(u`resetCode, u`resetCodeExpires, u`emailVerificationToken, u`emailVerificationExpires)
  {
    if u == null {
      return UserNotFound;
    }
    if u.host.status != Pending {
      return NotPending;
    }
    u.host := ApprovedHost(u.host, now);
    u.role := Host;
    reply := ApplicationApproved;
  }

  /** `rejectApplication`: only a pending application is rejected; the role is left as it was. */
  method RejectApplication(u: UserAccount?) returns (reply: AdminReply)
    modifies u
    ensures u == null ==> reply == UserNotFound
    ensures u != null && old(u.host.status) != Pending ==> reply == NotPending && unchanged(u)
    ensures u != null && old(u.host.status) == Pending ==> reply == ApplicationRejected && u.host == RejectedHost(old(u.host))
    ensures u != null ==> unchanged(u`username, u`email, u`role, u`wishlist, u`isEmailVerified, u`password)
    ensures u != null ==> unchanged(u`resetCode, u`resetCodeExpires, u`emailVerificationToken, u`emailVerificationExpires)
  {
    if u == null {
      return UserNotFound;
    }
    if u.host.status != Pending {
      return NotPending;
    }
    u.host := RejectedHost(u.host);
    reply := ApplicationRejected;
  }

  /** Approval leaves an application the guard refuses; rejection leaves one it admits again. */
  lemma DecisionsAndReapplication(id: UserId, h: HostInfo, now: int)
    requires h.status == Pending
    ensures Middleware.CanApplyAsHost(Middleware.Requester(id, Host, ApprovedHost(h, now).status)) != Middleware.Next
    ensures Middleware.CanApplyAsHost(Middleware.Requester(id, Host, RejectedHost(h).status)) == Middleware.Next
  {
  }

  /**
   * Rejection as written, on `(role, host)`. A pending application always
   * carries role host (the submission set it), and rejection keeps it.
   */
  function RejectAsWritten(role: Role, h: HostInfo): (out: (Role, HostInfo))
    requires h.status == Pending
    ensures out.1.status == HostStatus.Rejected && !out.1.isHost
    ensures out.0 == role
  {
    (role, RejectedHost(h))
  }

  /** A rejected applicant still passes `isHost`, the guard of the listing-creation routes. */
  lemma RejectedApplicantPassesIsHost(id: UserId, h: HostInfo)
    requires h.status == Pending
    ensures var (role, h') := RejectAsWritten(Host, h);
            Middleware.IsHost(Some(Middleware.Requester(id, role, h'.status))) == Middleware.Next
  {
  }

  /** Rejection as the code's own comment intends: the applicant is a plain user again. */
  function RejectIntended(role: Role, h: HostInfo): (out: (Role, HostInfo))
    requires h.status == Pending
    ensures out.0 == User
    ensures out.1.status == HostStatus.Rejected && !out.1.isHost
    ensures out.1.approvedAt == h.approvedAt && SameApplicant(out.1, h)
  {
    (User, RejectedHost(h))
  }

  /** After the intended rejection the user fails `isHost` and may apply again. */
  lemma RejectIntendedRevokesHosting(id: UserId, role: Role, h: HostInfo)
    requires h.status == Pending
    ensures var (role', h') := RejectIntended(role, h);
            && Middleware.IsHost(Some(Middleware.Requester(id, role', h'.status))) != Middleware.Next
            && Middleware.CanApplyAsHost(Middleware.Requester(id, role', h'.status)) == Middleware.Next
  {
  }

  /**
   * `adminEmailRecovery`. `holder` is the id of the user that already has
   * `newEmail`, if any. Another holder refuses the change; otherwise the email
   * is set and verified and the verification token and its expiry are cleared.
   */
  method AdminEmailRecovery(u: UserAccount?, newEmail: string, holder: Option<UserId>) returns (reply: AdminReply)
    modifies u
    ensures u == null ==> reply == UserNotFound
    ensures u != null && holder.Some? && holder.value != u.id ==>
      reply == EmailTaken && unchanged(u)
    ensures u != null && (holder.None? || holder.value == u.id) ==>
      && reply == EmailUpdated
      && u.email == newEmail && u.isEmailVerified
      && u.emailVerificationToken.None? && u.emailVerificationExpires.None?
    ensures u != null ==> unchanged(u`username, u`role, u`host, u`wishlist, u`password, u`resetCode, u`resetCodeExpires)
  {
    if u == null {
      return UserNotFound;
    }
    if holder.Some? && holder.value != u.id {
      return EmailTaken;
    }
    u.email := newEmail;
    u.isEmailVerified := true;
    u.emailVerificationToken := None;
    u.emailVerificationExpires := None;
    reply := EmailUpdated;
  }
}

=== FILE: booking_cleanup.dfy ===
/**
 * The periodic sweep's wrapper and the expiration statistics
 * (utils/bookingCleanup.js: `cleanupExpiredBookings`, `getExpirationStats`).
 */
module BookingCleanup {
  import opened Common
  import opened BookingModel

  /**
   * `cleanupExpiredBookings`: the sweep's count and effect; a store error
   * (`storeFails`) is rethrown with nothing changed.
   */
  method CleanupExpiredBookings(store: BookingStore, now: int, storeFails: bool) returns (r: Result<nat, string>)
    modifies store
    ensures storeFails ==> r.Failure? && store.bookings == old(store.bookings)
    ensures !storeFails ==>
      && r == Success(CountMatches(old(store.bookings), now))
      && store.bookings == Swept(old(store.bookings), now)
    ensures old(store.Valid()) ==> store.Valid()
  {
    if storeFails {
      return Failure("store unavailable");
    }
    var count := store.ExpireOldBookings(now);
    r := Success(count);
  }

  datatype Stats = Stats(total: nat, expiringSoon: nat, expiringInThreeHours: nat)

  /** `{status: statusName, expiresAt: {$exists: true}}`; every document has the field, null or not. */
  predicate StatsMatch(b: Booking, statusName: string) {
    StatusName(b.status) == statusName
  }

  /** `$lt: ["$expiresAt", bound]` in an aggregation: null sorts before every date. */
  predicate DeadlineBefore(expiresAt: Option<int>, bound: int) {
    expiresAt.None? || expiresAt.value < bound
  }

  /** The `$group` of the aggregation over the documents with the given status string. */
  function StatsFor(s: seq<Booking>, now: int, statusName: string): (st: Stats)
    ensures st.expiringSoon <= st.expiringInThreeHours <= st.total <= |s|
    ensures s == [] ==> st == Stats(0, 0, 0)
  {
    if s == [] then Stats(0, 0, 0)
    else
      var rest := StatsFor(s[..|s| - 1], now, statusName);
      var b := s[|s| - 1];
      if !StatsMatch(b, statusName) then rest
      else Stats(rest.total + 1,
                 rest.expiringSoon + (if DeadlineBefore(b.expiresAt, now + HOUR_MS) then 1 else 0),
                 rest.expiringInThreeHours + (if DeadlineBefore(b.expiresAt, now + 3 * HOUR_MS) then 1 else 0))
  }

  /** `getExpirationStats` as written: it matches the status string "pending". */
  function ExpirationStats(s: seq<Booking>, now: int): (st: Stats)
    ensures st.expiringSoon <= st.expiringInThreeHours <= st.total
  {
    StatsFor(s, now, "pending")
  }

  /** "pending" is not a booking status, so the statistics are always zero. */
  lemma {:induction false} ExpirationStatsAlwaysZero(s: seq<Booking>, now: int)
    ensures ExpirationStats(s, now) == Stats(0, 0, 0)
  {
    if s != [] {
      ExpirationStatsAlwaysZero(s[..|s| - 1], now);
    }
  }

  /** The statistics over the unpaid holds, which the function is evidently meant to report. */
  function PendingHoldStats(s: seq<Booking>, now: int): (st: Stats)
    ensures st.expiringSoon <= st.expiringInThreeHours <= st.total
  {
    StatsFor(s, now, StatusName(PendingPayment))
  }

  /** The holds are counted: the total is the number of pending_payment bookings. */
  lemma {:induction false} PendingHoldStatsCountsHolds(s: seq<Booking>, now: int)
    ensures PendingHoldStats(s, now).total == CountWhere(s, (b: Booking) => b.status == PendingPayment)
  {
    if s != [] {
      PendingHoldStatsCountsHolds(s[..|s| - 1], now);
      StatusNamesDistinct(s[|s| - 1].status, PendingPayment);
    }
  }
}

=== FILE: booking_controller.dfy ===
/**
 * Manual transitions and the booked-dates projection (controllers/booking.js):
 * `renderNewForm`'s `bookedDates`, `confirmBooking` and `cancelBooking`.
 */
module BookingController {
  import opened Common
  import opened BookingModel
  import PaymentController

  /** One entry of `bookedDates`: `{from: checkIn, to: checkOut}` as day numbers. */
  datatype DateRange = DateRange(from: int, to: int)

  /** The bookings `renderNewForm` queries: this listing's, neither cancelled nor expired. */
  predicate Shown(b: Booking, listing: ListingId) {
    b.listing == listing && !Releases(b.status)
  }

  /** `bookedDates`: the shown bookings' ranges, in store order. */
  function BookedDates(s: seq<Booking>, listing: ListingId): (r: seq<DateRange>)
    ensures |r| <= |s|
    ensures forall k :: 0 <= k < |r| ==>
      exists i :: 0 <= i < |s| && Shown(s[i], listing) && r[k] == DateRange(s[i].checkIn, s[i].checkOut)
    ensures forall i :: 0 <= i < |s| && Shown(s[i], listing) ==> DateRange(s[i].checkIn, s[i].checkOut) in r
  {
    if s == [] then []
    else
      var init := BookedDates(s[..|s| - 1], listing);
      var last := s[|s| - 1];
      assert forall i :: 0 <= i < |s| - 1 ==> s[..|s| - 1][i] == s[i];
      if Shown(last, listing) then init + [DateRange(last.checkIn, last.checkOut)] else init
  }

  /**
   * Every booking the server's conflict query would find is shown in the form:
   * its range is among `bookedDates` and meets the requested range the same way.
   */
  lemma ConflictIsShown(s: seq<Booking>, listing: ListingId, checkIn: int, checkOut: int)
    requires PaymentController.HasConflict(s, listing, checkIn, checkOut)
    ensures exists d :: d in BookedDates(s, listing) && ((checkIn <= d.from < checkOut) || (checkIn < d.to <= checkOut))
  {
    var i :| 0 <= i < |s| && PaymentController.ConflictsWith(s[i], listing, checkIn, checkOut);
    assert DateRange(s[i].checkIn, s[i].checkOut) in BookedDates(s, listing);
  }

  // ------------------------------------------------------------ confirm

  datatype ConfirmReply = BookingNotFound | HoldExpired | CannotConfirm(status: Status) | ConfirmedOk

  /**
   * `confirmBooking` on a loaded booking: a lapsed hold is marked expired (the
   * hook keeps its deadline) and not confirmed; a cancelled or expired booking
   * is refused unchanged; anything else becomes confirmed with no deadline.
   */
  function ConfirmTransition(b: Booking, now: int): (out: (Booking, ConfirmReply))
    ensures IsExpired(b, now) ==> out == (b.(status := Expired), HoldExpired)
    ensures !IsExpired(b, now) && Releases(b.status) ==> out == (b, CannotConfirm(b.status))
    ensures !IsExpired(b, now) && !Releases(b.status) ==>
      out == (b.(status := Confirmed, expiresAt := None), ConfirmedOk)
  {
    if IsExpired(b, now) then (PreSave(b.(status := Expired), false, now), HoldExpired)
    else if b.status == Cancelled || b.status == Expired then (b, CannotConfirm(b.status))
    else (PreSave(b.(status := Confirmed, expiresAt := None), false, now), ConfirmedOk)
  }

  method ConfirmBooking(store: BookingStore, bookingId: BookingId, now: int) returns (reply: ConfirmReply)
    modifies store
    ensures bookingId >= |old(store.bookings)| ==> reply == BookingNotFound && store.bookings == old(store.bookings)
    ensures bookingId < |old(store.bookings)| ==>
      var (b, rep) := ConfirmTransition(old(store.bookings)[bookingId], now);
      reply == rep && store.bookings == old(store.bookings)[bookingId := b]
    ensures old(store.Valid()) ==> store.Valid()
  {
    if bookingId >= |store.bookings| {
      return BookingNotFound;
    }
    var booking := store.bookings[bookingId];
    if IsExpired(booking, now) {
      store.Save(bookingId, booking.(status := Expired), now);
      return HoldExpired;
    }
    if booking.status == Cancelled || booking.status == Expired {
      return CannotConfirm(booking.status);
    }
    store.Save(bookingId, booking.(status := Confirmed, expiresAt := None), now);
    reply := ConfirmedOk;
  }

  /** `cancelBooking`: an unknown id changes nothing; any status becomes cancelled. */
  method CancelBooking(store: BookingStore, bookingId: BookingId, now: int) returns (found: bool)
    modifies store
    ensures found == (bookingId < |old(store.bookings)|)
    ensures found ==> store.bookings == old(store.bookings)[bookingId := CancelRecord(old(store.bookings)[bookingId], now)]
    ensures !found ==> store.bookings == old(store.bookings)
    ensures old(store.Valid()) ==> store.Valid()
  {
    if bookingId >= |store.bookings| {
      return false;
    }
    store.Save(bookingId, store.bookings[bookingId].(status := Cancelled), now);
    found := true;
  }

  // ------------------------------------------------------------ properties

  /** A lapsed hold that is "confirmed" ends expired and keeps its deadline. */
  lemma ConfirmingLapsedHoldKeepsDeadline(b: Booking, now: int)
    requires IsExpired(b, now)
    ensures ConfirmTransition(b, now).0.status == Expired
    ensures ConfirmTransition(b, now).0.expiresAt == b.expiresAt && b.expiresAt.Some?
  {
  }

  /** Neither confirm nor cancel ever leaves a booking pending_payment. */
  lemma NoTransitionBackToPending(b: Booking, now: int)
    ensures ConfirmTransition(b, now).0.status != PendingPayment
    ensures CancelRecord(b, now).status != PendingPayment
  {
  }

  /** Confirming twice is confirming once. */
  lemma ConfirmIdempotent(b: Booking, now: int, later: int)
    requires ConfirmTransition(b, now).1 == ConfirmedOk
    ensures ConfirmTransition(ConfirmTransition(b, now).0, later) == (ConfirmTransition(b, now).0, ConfirmedOk)
  {
  }

  /** Cancel succeeds from every status, confirmed and expired included. */
  lemma CancelFromAnyStatus(b: Booking, now: int)
    ensures CancelRecord(b, now).status == Cancelled
    ensures CancelRecord(b, now) == b.(status := Cancelled, expiresAt := None)
  {
  }

  /** Confirm and cancel keep a booking well formed. */
  lemma TransitionsWellFormed(b: Booking, now: int)
    requires WellFormed(b)
    ensures WellFormed(ConfirmTransition(b, now).0)
    ensures WellFormed(CancelRecord(b, now))
  {
  }
}

=== FILE: booking_model.dfy ===
/**
 * The booking record and its store (models/booking.js): the status enumeration,
 * the `expiresAt` default and pre-save hook, the `isExpired` check and the
 * `expireOldBookings` sweep.
 *
 * Booking dates are whole day numbers; `createdAt`, `expiresAt` and `now` are
 * millisecond timestamps. The store keeps bookings in insertion order and a
 * booking's id is its index.
 */
module BookingModel {
  import opened Common

  type ListingId = nat
  type UserId = nat
  type BookingId = nat

  const HOUR_MS: int := 60 * 60 * 1000
  /** How long an unpaid hold lasts: 24 hours. */
  const HOLD_MS: int := 24 * HOUR_MS

  datatype Status = PendingPayment | Confirmed | Cancelled | Expired

  /** The string stored in the document for each status. */
  function StatusName(s: Status): (name: string)
    ensures name in {"pending_payment", "confirmed", "cancelled", "expired"}
  {
    match s
    case PendingPayment => "pending_payment"
    case Confirmed => "confirmed"
    case Cancelled => "cancelled"
    case Expired => "expired"
  }

  lemma StatusNamesDistinct(a: Status, b: Status)
    ensures StatusName(a) == StatusName(b) <==> a == b
  {
  }

  datatype Booking = Booking(
    listing: ListingId,
    user: UserId,
    checkIn: int,
    checkOut: int,
    guests: int,
    totalPrice: real,
    status: Status,
    stripeSessionId: Option<string>,
    stripePaymentIntentId: Option<string>,
    createdAt: int,
    expiresAt: Option<int>)

  /** A status that no longer holds its dates. */
  predicate Releases(s: Status) {
    s == Cancelled || s == Expired
  }

  /**
   * A booking document built with the schema defaults: `status` defaults to
   * pending_payment, `createdAt` to now, and `expiresAt` to now + 24h when the
   * status is pending_payment and to null otherwise.
   */
  function NewDocument(listing: ListingId, user: UserId, checkIn: int, checkOut: int, guests: int,
                       totalPrice: real, status: Option<Status>, now: int): (b: Booking)
    ensures status.None? ==> b.status == PendingPayment
    ensures status.Some? ==> b.status == status.value
    ensures b.expiresAt == if b.status == PendingPayment then Some(now + HOLD_MS) else None
    ensures b.createdAt == now && b.stripeSessionId.None? && b.stripePaymentIntentId.None?
  {
    var st := if status.Some? then status.value else PendingPayment;
    Booking(listing, user, checkIn, checkOut, guests, totalPrice, st, None, None, now,
            if st == PendingPayment then Some(now + HOLD_MS) else None)
  }

  /**
   * The pre-save hook: a new pending_payment booking gets `expiresAt = now + 24h`;
   * any save of a confirmed or cancelled booking clears `expiresAt`; every other
   * save (an expired booking included) keeps it.
   */
  function PreSave(b: Booking, isNew: bool, now: int): (r: Booking)
    ensures r == b.(expiresAt := r.expiresAt)
    ensures isNew && b.status == PendingPayment ==> r.expiresAt == Some(now + HOLD_MS)
    ensures b.status == Confirmed || b.status == Cancelled ==> r.expiresAt.None?
    ensures b.status == Expired || (b.status == PendingPayment && !isNew) ==> r == b
  {
    if isNew && b.status == PendingPayment then b.(expiresAt := Some(now + HOLD_MS))
    else if b.status == Confirmed || b.status == Cancelled then b.(expiresAt := None)
    else b
  }

  /**
   * `booking.status = "cancelled"` followed by `save()`, as both cancel paths do:
   * cancelled from any status, and the hook clears the deadline.
   */
  function CancelRecord(b: Booking, now: int): (r: Booking)
    ensures r.status == Cancelled && r.expiresAt.None?
    ensures r == b.(status := Cancelled, expiresAt := None)
  {
    PreSave(b.(status := Cancelled), false, now)
  }

  /** `booking.isExpired()`: an unpaid hold whose deadline has strictly passed. */
  predicate IsExpired(b: Booking, now: int) {
    b.status == PendingPayment && b.expiresAt.Some? && now > b.expiresAt.value
  }

  /** The filter of `expireOldBookings`: `{status: "pending_payment", expiresAt: {$lt: now}}`. */
  predicate SweepMatches(b: Booking, now: int) {
    StatusName(b.status) == "pending_payment" && b.expiresAt.Some? && b.expiresAt.value < now
  }

  /** The update of `expireOldBookings`: `{status: "expired", expiresAt: null}`. */
  function ExpireRecord(b: Booking): (r: Booking)
    ensures r.status == Expired && r.expiresAt.None?
  {
    b.(status := Expired, expiresAt := None)
  }

  function SweepOne(b: Booking, now: int): Booking {
    if SweepMatches(b, now) then ExpireRecord(b) else b
  }

  /** The store after `expireOldBookings(now)`. */
  function Swept(s: seq<Booking>, now: int): (r: seq<Booking>)
    ensures |r| == |s|
    ensures forall i :: 0 <= i < |s| ==> r[i] == SweepOne(s[i], now)
  {
    seq(|s|, i requires 0 <= i < |s| => SweepOne(s[i], now))
  }

  /** The number of documents the sweep matches, which is its `modifiedCount`. */
  function CountMatches(s: seq<Booking>, now: int): (n: nat)
    ensures n <= |s|
  {
    if s == [] then 0
    else CountMatches(s[..|s| - 1], now) + (if SweepMatches(s[|s| - 1], now) then 1 else 0)
  }

  /**
   * Per-record invariant kept by every operation of the application: dates in
   * order, at least one guest, an unpaid hold has a deadline, a confirmed or
   * cancelled booking has none. An expired booking may keep its deadline.
   */
  ghost predicate WellFormed(b: Booking) {
    && b.checkIn < b.checkOut
    && b.guests >= 1
    && (b.status == PendingPayment ==> b.expiresAt.Some?)
    && (b.status == Confirmed || b.status == Cancelled ==> b.expiresAt.None?)
  }

  ghost predicate AllWellFormed(s: seq<Booking>) {
    forall i :: 0 <= i < |s| ==> WellFormed(s[i])
  }

  // ------------------------------------------------------------ properties

  /** The query filter and `isExpired` pick out the same bookings. */
  lemma SweepMatchesIsIsExpired(b: Booking, now: int)
    ensures SweepMatches(b, now) <==> IsExpired(b, now)
  {
  }

  /** The sweep changes exactly the matching bookings, and only their status and deadline. */
  lemma SweptChangesExactlyMatches(s: seq<Booking>, now: int, i: nat)
    requires i < |s|
    ensures Swept(s, now)[i] != s[i] <==> SweepMatches(s[i], now)
    ensures Swept(s, now)[i] == s[i].(status := Swept(s, now)[i].status, expiresAt := Swept(s, now)[i].expiresAt)
  {
  }

  /** Nothing the sweep leaves behind matches it again at the same `now`. */
  lemma {:induction false} SweptHasNoMatches(s: seq<Booking>, now: int)
    ensures CountMatches(Swept(s, now), now) == 0
  {
    if s != [] {
      var t := Swept(s, now);
      assert t[..|t| - 1] == Swept(s[..|s| - 1], now);
      SweptHasNoMatches(s[..|s| - 1], now);
    }
  }

  /** A second sweep with the same `now` changes nothing and reports 0. */
  lemma SweepIdempotent(s: seq<Booking>, now: int)
    ensures Swept(Swept(s, now), now) == Swept(s, now)
    ensures CountMatches(Swept(s, now), now) == 0
  {
    SweptHasNoMatches(s, now);
  }

  /** After a sweep at `now`, no booking `isExpired` at that same `now`. */
  lemma NoneExpiredAfterSweep(s: seq<Booking>, now: int)
    ensures forall i :: 0 <= i < |s| ==> !IsExpired(Swept(s, now)[i], now)
  {
  }

  /** A count of zero means the sweep left the store as it was. */
  lemma {:induction false} ZeroCountMeansUnchanged(s: seq<Booking>, now: int)
    requires CountMatches(s, now) == 0
    ensures Swept(s, now) == s
  {
    if s != [] {
      ZeroCountMeansUnchanged(s[..|s| - 1], now);
      assert Swept(s[..|s| - 1], now) == s[..|s| - 1];
      assert Swept(s, now)[..|s| - 1] == Swept(s[..|s| - 1], now);
    }
  }

  /** The sweep keeps every booking well formed. */
  lemma SweptWellFormed(s: seq<Booking>, now: int)
    requires AllWellFormed(s)
    ensures AllWellFormed(Swept(s, now))
  {
  }

  /**
   * What a record must already satisfy for the hook to make it well formed:
   * dates in order, a guest, and a deadline on an unpaid hold that is not new
   * (the hook sets a new one's and clears a confirmed or cancelled one's).
   */
  ghost predicate Saveable(b: Booking, isNew: bool) {
    && b.checkIn < b.checkOut && b.guests >= 1
    && (b.status == PendingPayment && !isNew ==> b.expiresAt.Some?)
  }

  /** Saving keeps a well-formed booking well formed, whatever status was assigned before the save. */
  lemma PreSaveWellFormed(b: Booking, isNew: bool, now: int)
    requires Saveable(b, isNew)
    ensures WellFormed(PreSave(b, isNew, now))
  {
  }

  // ------------------------------------------------------------ the store

  /** The bookings collection. */
  class BookingStore {
    var bookings: seq<Booking>

    ghost predicate Valid()
      reads this
    {
      AllWellFormed(bookings)
    }

    constructor ()
      ensures bookings == [] && Valid()
    {
      bookings := [];
    }

    /** `save()` of a new document: the hook runs with `isNew`, the document is appended. */
    method Insert(b: Booking, now: int) returns (id: BookingId)
      modifies this
      ensures id == |old(bookings)|
      ensures bookings == old(bookings) + [PreSave(b, true, now)]
      ensures old(Valid()) && Saveable(b, true) ==> Valid()
    {
      id := |bookings|;
      bookings := bookings + [PreSave(b, true, now)];
    }

    /** `save()` of a loaded document: the hook runs, the record at `id` is replaced. */
    method Save(id: BookingId, b: Booking, now: int)
      requires id < |bookings|
      modifies this
      ensures bookings == old(bookings)[id := PreSave(b, false, now)]
      ensures old(Valid()) && Saveable(b, false) ==> Valid()
    {
      bookings := bookings[id := PreSave(b, false, now)];
    }

    /**
     * `Booking.expireOldBookings()`: every pending_payment booking whose
     * deadline is before `now` becomes expired with no deadline; the result is
     * the number of bookings changed.
     */
    method ExpireOldBookings(now: int) returns (count: nat)
      modifies this
      ensures bookings == Swept(old(bookings), now)
      ensures count == CountMatches(old(bookings), now)
      ensures old(Valid()) ==> Valid()
    {
      ghost var s := bookings;
      count := 0;
      var i := 0;
      while i < |bookings|
        invariant 0 <= i <= |bookings| == |s|
        invariant forall k :: 0 <= k < i ==> bookings[k] == SweepOne(s[k], now)
        invariant forall k :: i <= k < |s| ==> bookings[k] == s[k]
        invariant count == CountMatches(s[..i], now)
      {
        assert s[..i + 1][..i] == s[..i];
        if SweepMatches(bookings[i], now) {
          bookings := bookings[i := ExpireRecord(bookings[i])];
          count := count + 1;
        }
        i := i + 1;
      }
      assert s[..i] == s;
      assert AllWellFormed(s) ==> AllWellFormed(Swept(s, now)) by {
        if AllWellFormed(s) {
          SweptWellFormed(s, now);
        }
      }
    }
  }
}

=== FILE: common.dfy ===
/**
 * Helpers shared by the modules of this model: optional values and results,
 * and the few string operations of JavaScript the application relies on
 * (`slice`, `toLowerCase`, `trim`, `startsWith`, `includes`, `toString`).
 */
module Common {

  datatype Option<T> = None | Some(value: T)

  datatype Result<T, E> = Success(value: T) | Failure(error: E)

  /** `s.slice(0, n)` for a non-negative `n`: the first `n` elements, or all of them. */
  function Take<T>(s: seq<T>, n: nat): (r: seq<T>)
    ensures |r| == if n < |s| then n else |s|
    ensures r == s[..|r|]
  {
    if n < |s| then s[..n] else s
  }

  /** The position `Array.prototype.slice` uses for an argument `k` on a sequence of length `n`: negative counts from the end. */
  function SliceIndex(n: nat, k: int): (i: nat)
    ensures i <= n
  {
    if k < 0 then (if n + k > 0 then n + k else 0)
    else if k < n then k else n
  }

  /** `s.slice(start, end)`. */
  function Slice<T>(s: seq<T>, start: int, end: int): (r: seq<T>)
    ensures |r| <= |s|
    ensures start == 0 ==> r == s[..|r|]
    ensures start == 0 && end >= 0 ==> |r| == if end < |s| then end else |s|
  {
    var a := SliceIndex(|s|, start);
    var b := SliceIndex(|s|, end);
    if a < b then s[a..b] else []
  }

  /** `s.reverse()`. */
  function Reverse<T>(s: seq<T>): (r: seq<T>)
    ensures |r| == |s|
    ensures forall i :: 0 <= i < |s| ==> r[i] == s[|s| - 1 - i]
  {
    seq(|s|, i requires 0 <= i < |s| => s[|s| - 1 - i])
  }

  /** The number of elements of `s` that satisfy `p`. */
  function CountWhere<T>(s: seq<T>, p: T -> bool): (n: nat)
    ensures n <= |s|
  {
    if s == [] then 0 else CountWhere(s[..|s| - 1], p) + (if p(s[|s| - 1]) then 1 else 0)
  }

  predicate NoDuplicates<T(==)>(s: seq<T>) {
    forall i, j :: 0 <= i < j < |s| ==> s[i] != s[j]
  }

  /** `s.indexOf(x)` for a value that occurs: its first position. */
  function IndexOf<T(==)>(s: seq<T>, x: T): (i: nat)
    requires x in s
    ensures i < |s| && s[i] == x
    ensures forall k :: 0 <= k < i ==> s[k] != x
  {
    if s[0] == x then 0 else 1 + IndexOf(s[1..], x)
  }

  /** A value that occurs in a prefix has its first position there. */
  lemma IndexOfInPrefix<T>(p: seq<T>, q: seq<T>, x: T)
    requires x in p
    ensures IndexOf(p + q, x) == IndexOf(p, x)
  {
    assert (p + q)[IndexOf(p, x)] == x;
  }

  /** The values of `r` occur in `s`, in the order of their first positions there. */
  predicate InFirstOccurrenceOrder<T(==)>(r: seq<T>, s: seq<T>) {
    && (forall i :: 0 <= i < |r| ==> r[i] in s)
    && (forall i, j :: 0 <= i < j < |r| ==> IndexOf(s, r[i]) < IndexOf(s, r[j]))
  }

  /** Values listed in first-occurrence order of `p` stay so when `p` is extended. */
  lemma InOrderExtends<T>(r: seq<T>, p: seq<T>, q: seq<T>)
    requires InFirstOccurrenceOrder(r, p)
    ensures InFirstOccurrenceOrder(r, p + q)
  {
    forall i | 0 <= i < |r| ensures IndexOf(p + q, r[i]) == IndexOf(p, r[i]) {
      IndexOfInPrefix(p, q, r[i]);
    }
  }

  /** First-occurrence order carries over through an intermediate list. */
  lemma InOrderCompose<T>(r: seq<T>, d: seq<T>, s: seq<T>)
    requires InFirstOccurrenceOrder(r, d) && InFirstOccurrenceOrder(d, s)
    ensures InFirstOccurrenceOrder(r, s)
  {
    forall i | 0 <= i < |r| ensures r[i] in s {
      assert d[IndexOf(d, r[i])] == r[i];
    }
    forall i, j | 0 <= i < j < |r| ensures IndexOf(s, r[i]) < IndexOf(s, r[j]) {
      assert d[IndexOf(d, r[i])] == r[i] && d[IndexOf(d, r[j])] == r[j];
    }
  }

  /** Appending a value that first occurs at the end of `p + [x]` keeps the order. */
  lemma InOrderAppendNew<T>(r: seq<T>, p: seq<T>, x: T)
    requires InFirstOccurrenceOrder(r, p) && x !in p
    ensures InFirstOccurrenceOrder(r + [x], p + [x])
  {
    InOrderExtends(r, p, [x]);
    var r', s := r + [x], p + [x];
    assert IndexOf(s, x) == |p|;
    forall i, j | 0 <= i < j < |r'| ensures IndexOf(s, r'[i]) < IndexOf(s, r'[j]) {
      if j == |r| {
        assert r'[i] == r[i] && r[i] in p;
        IndexOfInPrefix(p, [x], r[i]);
      }
    }
  }

  // ---------------------------------------------------------------- characters

  predicate IsAsciiUpper(c: char) { 'A' <= c <= 'Z' }

  predicate IsAsciiDigit(c: char) { '0' <= c <= '9' }

  /** `\w` of a JavaScript regular expression: `[A-Za-z0-9_]`. */
  predicate IsWordChar(c: char) {
    'a' <= c <= 'z' || 'A' <= c <= 'Z' || IsAsciiDigit(c) || c == '_'
  }

  /** `toLowerCase` on one character, for the ASCII range. */
  function LowerChar(c: char): (r: char)
    ensures !IsAsciiUpper(r)
    ensures IsAsciiUpper(c) ==> r as int == c as int + 32
    ensures !IsAsciiUpper(c) ==> r == c
  {
    if IsAsciiUpper(c) then (c as int + 32) as char else c
  }

  function Lower(s: string): (r: string)
    ensures |r| == |s|
    ensures forall i :: 0 <= i < |s| ==> r[i] == LowerChar(s[i])
  {
    seq(|s|, i requires 0 <= i < |s| => LowerChar(s[i]))
  }

  /** The characters `String.prototype.trim` removes: WhiteSpace and LineTerminator of ECMAScript. */
  predicate IsJsWhitespace(c: char) {
    c == '\t' || c == '\n' || c == '\U{000B}' || c == '\U{000C}' || c == '\r' || c == ' '
    || c == '\U{00A0}' || c == '\U{1680}' || ('\U{2000}' <= c <= '\U{200A}')
    || c == '\U{2028}' || c == '\U{2029}' || c == '\U{202F}' || c == '\U{205F}'
    || c == '\U{3000}' || c == '\U{FEFF}'
  }

  function TrimStart(s: string): (r: string)
    ensures |r| <= |s| && r == s[|s| - |r|..]
    ensures r == [] || !IsJsWhitespace(r[0])
    ensures forall i :: 0 <= i < |s| - |r| ==> IsJsWhitespace(s[i])
  {
    if |s| > 0 && IsJsWhitespace(s[0]) then TrimStart(s[1..]) else s
  }

  function TrimEnd(s: string): (r: string)
    ensures |r| <= |s| && r == s[..|r|]
    ensures r == [] || !IsJsWhitespace(r[|r| - 1])
    ensures forall i :: |r| <= i < |s| ==> IsJsWhitespace(s[i])
  {
    if |s| > 0 && IsJsWhitespace(s[|s| - 1]) then TrimEnd(s[..|s| - 1]) else s
  }

  /**
   * `s.trim()`: the text between the leading and the trailing whitespace, which
   * is all that is removed; none is left at either end.
   */
  function Trim(s: string): (r: string)
    ensures |r| <= |s|
    ensures r == [] || (!IsJsWhitespace(r[0]) && !IsJsWhitespace(r[|r| - 1]))
    ensures TrimmedFrom(s, r, |s| - |TrimStart(s)|)
  {
    TrimSplits(s);
    TrimEnd(TrimStart(s))
  }

  /**
   * `r` is the slice of `s` that starts at `k`, and every character of `s`
   * outside that slice is whitespace.
   */
  ghost predicate TrimmedFrom(s: string, r: string, k: nat) {
    && k + |r| <= |s| && r == s[k..k + |r|]
    && (forall i :: 0 <= i < k ==> IsJsWhitespace(s[i]))
    && (forall i :: k + |r| <= i < |s| ==> IsJsWhitespace(s[i]))
  }

  lemma TrimSplits(s: string)
    ensures TrimmedFrom(s, TrimEnd(TrimStart(s)), |s| - |TrimStart(s)|)
  {
    TrimIsSlice(s);
    TrimDropsTrailingWhitespace(s);
  }

  /** Cutting the leading and then the trailing whitespace leaves a slice of `s`. */
  lemma TrimIsSlice(s: string)
    ensures var t := TrimStart(s); var k := |s| - |t|; var r := TrimEnd(t);
            k + |r| <= |s| && r == s[k..k + |r|]
  {
    var t := TrimStart(s);
    SliceOfSuffix(s, |s| - |t|, |TrimEnd(t)|);
  }

  /** Everything after that slice is whitespace. */
  lemma TrimDropsTrailingWhitespace(s: string)
    ensures var t := TrimStart(s); var k := |s| - |t|; var r := TrimEnd(t);
            forall i :: k + |r| <= i < |s| ==> IsJsWhitespace(s[i])
  {
    var t := TrimStart(s);
    var k := |s| - |t|;
    var r := TrimEnd(t);
    forall i | k + |r| <= i < |s| ensures IsJsWhitespace(s[i]) {
      assert s[i] == t[i - k];
    }
  }

  lemma SliceOfSuffix<T>(s: seq<T>, k: nat, m: nat)
    requires k + m <= |s|
    ensures s[k..][..m] == s[k..k + m]
  {
  }

  /** True when every character of `s` is whitespace, which is when `s.trim() === ""`. */
  lemma {:induction false} TrimEmptyIffBlank(s: string)
    ensures Trim(s) == [] <==> forall i :: 0 <= i < |s| ==> IsJsWhitespace(s[i])
  {
    var t := TrimStart(s);
    if Trim(s) != [] {
      assert Trim(s)[0] == t[0] == s[|s| - |t|];
    }
  }

  /** A possibly missing string that JavaScript treats as true: present and not empty. */
  predicate Truthy(s: Option<string>) {
    s.Some? && s.value != ""
  }

  predicate IsPrefix(p: string, s: string) {
    |p| <= |s| && s[..|p|] == p
  }

  /** `s.includes(sub)`. */
  predicate Contains(s: string, sub: string) {
    exists i :: 0 <= i <= |s| && IsPrefix(sub, s[i..])
  }

  // ---------------------------------------------------------------- numbers

  /** `Math.ceil`: the least integer not below `x`. */
  function Ceil(x: real): (r: int)
    ensures r as real - 1.0 < x <= r as real
  {
    -((-x).Floor)
  }

  /** `n.toString()` for a natural number: its decimal digits, most significant first. */
  function DecimalString(n: nat): (r: string)
    ensures |r| >= 1
    ensures forall i :: 0 <= i < |r| ==> IsAsciiDigit(r[i])
  {
    if n < 10 then [('0' as int + n) as char]
    else DecimalString(n / 10) + [('0' as int + n % 10) as char]
  }

  /** The value a string of decimal digits denotes; inverse of `DecimalString`. */
  function DigitsValue(s: string): int
  {
    if s == [] then 0 else DigitsValue(s[..|s| - 1]) * 10 + (s[|s| - 1] as int - '0' as int)
  }

  lemma {:induction false} DecimalStringRoundTrip(n: nat)
    ensures DigitsValue(DecimalString(n)) == n
  {
    if n >= 10 {
      var r := DecimalString(n);
      assert r[..|r| - 1] == DecimalString(n / 10);
      DecimalStringRoundTrip(n / 10);
    }
  }

  /** A number with `k + 1` decimal digits, that is in `10^k .. 10^(k+1) - 1`, prints as `k + 1` characters. */
  lemma {:induction false} DecimalStringLength(n: nat, k: nat)
    requires Pow10(k) <= n < 10 * Pow10(k)
    ensures |DecimalString(n)| == k + 1
  {
    if k > 0 {
      DecimalStringLength(n / 10, k - 1);
    }
  }

  function Pow10(k: nat): (p: nat)
    ensures p >= 1
  {
    if k == 0 then 1 else 10 * Pow10(k - 1)
  }
}

=== FILE: host.dfy ===
/**
 * The host application (controllers/host.js): the verification gate of the
 * form and the submission, which replaces the host sub-document with a pending
 * application and makes the user a host.
 */
module HostApplication {
  import opened Common
  import opened UserModel
  import Middleware

  datatype HostReply = NotVerified | NoFile | UserNotFound | Submitted | ShowForm

  /** Where each reply sends the browser. */
  function ReplyTarget(r: HostReply): (path: string)
    ensures r == NotVerified ==> path == "/dashboard"
    ensures r == NoFile || r == UserNotFound ==> path == "/apply"
  {
    match r
    case NotVerified => "/dashboard"
    case NoFile => "/apply"
    case UserNotFound => "/apply"
    case Submitted => "/listings"
    case ShowForm => "hosts/apply.ejs"
  }

  /** `renderApplyForm`: only a user with a verified email sees the form. */
  function RenderApplyForm(isEmailVerified: bool): (r: HostReply)
    ensures r == ShowForm <==> isEmailVerified
    ensures r != ShowForm ==> r == NotVerified
  {
    if !isEmailVerified then NotVerified else ShowForm
  }

  /** The uploaded profile photo: its storage path and file name. */
  datatype UploadedFile = UploadedFile(path: string, filename: string)

  /**
   * The new host sub-document: the given details, the photo, status pending,
   * applied now; the sub-document defaults leave `isHost` and `isVerified`
   * false and no approval date.
   */
  function Application(fullName: string, phone: string, aadhaar: string, file: UploadedFile, now: int): (h: HostInfo)
    ensures h.status == Pending && !h.isHost && !h.isVerified
    ensures h.appliedAt == Some(now) && h.approvedAt.None?
    ensures h.fullName == Some(fullName) && h.phone == Some(phone) && h.aadhaar == Some(aadhaar)
    ensures h.avatar == Some(Avatar(file.path, file.filename))
  {
    HostInfo(false, Pending, Some(now), None, Some(fullName), Some(phone), Some(aadhaar),
             Some(Avatar(file.path, file.filename)), false)
  }

  /**
   * `submitApplication`. `sessionVerified` is the logged-in user's
   * `isEmailVerified`; `u` is the user record loaded again by id (`null` when
   * it is gone). An unverified user or a missing file changes nothing.
   */
  method SubmitApplication(sessionVerified: bool, u: UserAccount?, fullName: string, phone: string, aadhaar: string,
                           file: Option<UploadedFile>, now: int) returns (reply: HostReply)
    modifies u
    ensures !sessionVerified ==> reply == NotVerified
    ensures sessionVerified && file.None? ==> reply == NoFile
    ensures sessionVerified && file.Some? && u == null ==> reply == UserNotFound
    ensures reply == Submitted <==> sessionVerified && file.Some? && u != null
    ensures reply != Submitted && u != null ==> unchanged(u)
    ensures reply == Submitted ==>
      && u.host == Application(fullName, phone, aadhaar, file.value, now)
      && u.role == Host
    ensures u != null ==> unchanged(u`username, u`email, u`wishlist, u`isEmailVerified, u`password)
    ensures u != null ==> unchanged(u`resetCode, u`resetCodeExpires, u`emailVerificationToken, u`emailVerificationExpires)
  {
    if !sessionVerified {
      return NotVerified;
    }
    if file.None? {
      return NoFile;
    }
    if u == null {
      return UserNotFound;
    }
    u.host := Application(fullName, phone, aadhaar, file.value, now);
    u.role := Host;
    reply := Submitted;
  }

  /** After a submission the applicant may not apply again until the application is rejected. */
  lemma SubmittedCannotReapply(id: UserId, fullName: string, phone: string, aadhaar: string, file: UploadedFile, now: int)
    ensures var h := Application(fullName, phone, aadhaar, file, now);
            Middleware.CanApplyAsHost(Middleware.Requester(id, Host, h.status)) != Middleware.Next
    ensures Middleware.CanApplyAsHost(Middleware.Requester(id, Host, Rejected)) == Middleware.Next
  {
  }
}

=== FILE: jwt_helper.dfy ===
/**
 * The one-time-code timing helpers (utils/jwtHelper.js): the resend cooldown
 * and the six-digit code. Timestamps are milliseconds; the division by 1000
 * is exact (real) division, as in JavaScript up to floating-point rounding.
 */
module JwtHelper {
  import opened Common

  /** `RESEND_COOLDOWN`, in seconds. */
  const RESEND_COOLDOWN: int := 60
  /** `OTP_EXPIRY`, in seconds. */
  const OTP_EXPIRY: int := 10 * 60

  /** The seconds since the code was issued, `(now - lastIssuedAt) / 1000`. */
  function SecondsSince(lastIssuedAt: int, now: int): real {
    (now - lastIssuedAt) as real / 1000.0
  }

  /** `canResendOTP`: at least a minute has passed since the last code. */
  function CanResendOTP(lastIssuedAt: int, now: int): (ok: bool)
    ensures ok <==> now - lastIssuedAt >= RESEND_COOLDOWN * 1000
  {
    SecondsSince(lastIssuedAt, now) >= RESEND_COOLDOWN as real
  }

  /** `getRemainingCooldown`: whole seconds left, rounded up, never negative. */
  function GetRemainingCooldown(lastIssuedAt: int, now: int): (secs: nat)
    ensures secs == 0 <==> CanResendOTP(lastIssuedAt, now)
    ensures lastIssuedAt <= now ==> secs <= RESEND_COOLDOWN
    ensures secs > 0 ==> (secs - 1) as real < RESEND_COOLDOWN as real - SecondsSince(lastIssuedAt, now) <= secs as real
  {
    var remaining := RESEND_COOLDOWN as real - SecondsSince(lastIssuedAt, now);
    var c := Ceil(remaining);
    if c < 0 then 0 else c
  }

  /** `Math.ceil` is monotone. */
  lemma CeilMonotone(x: real, y: real)
    requires x <= y
    ensures Ceil(x) <= Ceil(y)
  {
  }

  /** As time passes the remaining cooldown never grows. */
  lemma CooldownNonIncreasing(lastIssuedAt: int, now: int, later: int)
    requires now <= later
    ensures GetRemainingCooldown(lastIssuedAt, later) <= GetRemainingCooldown(lastIssuedAt, now)
  {
    var a := RESEND_COOLDOWN as real - SecondsSince(lastIssuedAt, later);
    var b := RESEND_COOLDOWN as real - SecondsSince(lastIssuedAt, now);
    assert (later - lastIssuedAt) as real >= (now - lastIssuedAt) as real;
    assert a <= b;
    CeilMonotone(a, b);
  }

  /**
   * `generateOTP`: `Math.floor(100000 + Math.random() * 900000).toString()`.
   * `random` is the draw of `Math.random()`, in [0, 1).
   */
  function GenerateOTP(random: real): (code: string)
    requires 0.0 <= random < 1.0
    ensures |code| == 6
    ensures forall i :: 0 <= i < |code| ==> IsAsciiDigit(code[i])
    ensures 100000 <= DigitsValue(code) <= 999999
  {
    var n := OtpValue(random);
    DecimalStringLength(n, 5);
    DecimalStringRoundTrip(n);
    DecimalString(n)
  }

  /** The number behind the code: in 100000 .. 999999. */
  function OtpValue(random: real): (n: nat)
    requires 0.0 <= random < 1.0
    ensures 100000 <= n <= 999999
  {
    assert random * 900000.0 < 900000.0;
    (100000.0 + random * 900000.0).Floor
  }
}

=== FILE: listing_controller.dfy ===
/**
 * The listing index and edit form (controllers/listing.js): the search
 * query is escaped into a regular expression that matches listings whose
 * title, location or country starts with it, ignoring case; the category
 * filter is an equality; every listing found gets its average rating; the
 * edit form shows a resized preview of the image by rewriting its URL.
 * The database query is modelled as a filter over the listings in store
 * order.
 */
module ListingController {
  import opened Common
  import Review

  // ---------------------------------------------------------------- regex escape

  /** The characters the escape protects: `. * + ? ^ $ { } ( ) | [ ] \`. */
  predicate IsRegexSpecial(c: char) {
    c == '.' || c == '*' || c == '+' || c == '?' || c == '^' || c == '$' || c == '{' || c == '}'
    || c == '(' || c == ')' || c == '|' || c == '[' || c == ']' || c == '\\'
  }

  /** `q.replace(/[.*+?^${}()|[\]\\]/g, "\\$&")`: a backslash before each special character. */
  function Escape(q: string): (r: string)
    ensures |r| >= |q|
  {
    if q == [] then []
    else if IsRegexSpecial(q[0]) then ['\\', q[0]] + Escape(q[1..])
    else [q[0]] + Escape(q[1..])
  }

  /**
   * The characters a regular-expression source made only of literals and
   * escaped special characters matches, one after the other; `None` when it
   * holds a bare special character or an escape of anything else, whose
   * meaning this model does not describe.
   */
  function Literal(src: string): (r: Option<string>)
    ensures r.Some? ==> |r.value| <= |src|
  {
    if src == [] then Some([])
    else if src[0] == '\\' then
      if |src| >= 2 && IsRegexSpecial(src[1]) then
        var rest := Literal(src[2..]);
        if rest.Some? then Some([src[1]] + rest.value) else None
      else None
    else if IsRegexSpecial(src[0]) then None
    else
      var rest := Literal(src[1..]);
      if rest.Some? then Some([src[0]] + rest.value) else None
  }

  /** The escaped query is read back as exactly the query: it matches `q` literally. */
  lemma {:induction false} EscapeIsLiteral(q: string)
    ensures Literal(Escape(q)) == Some(q)
  {
    if q != [] {
      EscapeIsLiteral(q[1..]);
      var e := Escape(q);
      if IsRegexSpecial(q[0]) {
        assert e[0] == '\\' && e[1] == q[0] && e[2..] == Escape(q[1..]);
      } else {
        assert e[0] == q[0] && e[1..] == Escape(q[1..]);
      }
      assert [q[0]] + q[1..] == q;
    }
  }

  /** A query without special characters is left as it is. */
  lemma {:induction false} EscapePlainUnchanged(q: string)
    requires forall i :: 0 <= i < |q| ==> !IsRegexSpecial(q[i])
    ensures Escape(q) == q
  {
    if q != [] {
      EscapePlainUnchanged(q[1..]);
    }
  }

  /** Two queries with the same escape are the same query. */
  lemma EscapeInjective(q1: string, q2: string)
    requires Escape(q1) == Escape(q2)
    ensures q1 == q2
  {
    EscapeIsLiteral(q1);
    EscapeIsLiteral(q2);
  }

  /** `new RegExp("^" + src, "i")` tested on `s`, for a literal source. */
  predicate PrefixRegexMatches(src: string, s: string) {
    Literal(src).Some? && IsPrefix(Lower(Literal(src).value), Lower(s))
  }

  /** `s` starts with `q`, ignoring case. */
  predicate StartsWithIgnoringCase(s: string, q: string) {
    IsPrefix(Lower(q), Lower(s))
  }

  // ---------------------------------------------------------------- the index query

  datatype Listing = Listing(title: string, location: string, country: string, category: string,
                             ratings: seq<real>, avgRating: real)

  /** The query `index` sends: the `$or` of three prefix expressions, and a category. */
  datatype IndexFilter = IndexFilter(pattern: Option<string>, category: Option<string>)

  /** The filter of `index`: each part only when its parameter is truthy. */
  function BuildIndexFilter(q: Option<string>, category: Option<string>): (f: IndexFilter)
    ensures f.pattern.Some? <==> Truthy(q)
    ensures f.pattern.Some? ==> Literal(f.pattern.value) == Some(q.value)
    ensures f.category.Some? <==> Truthy(category)
    ensures f.category.Some? ==> f.category == category
  {
    var pattern := if Truthy(q) then Some(Escape(q.value)) else None;
    EscapeIsLiteral(if Truthy(q) then q.value else []);
    IndexFilter(pattern, if Truthy(category) then category else None)
  }

  /** Whether the database returns `l` for the filter `f`. */
  predicate Selects(f: IndexFilter, l: Listing) {
    && (f.pattern.Some? ==>
          PrefixRegexMatches(f.pattern.value, l.title) || PrefixRegexMatches(f.pattern.value, l.location)
          || PrefixRegexMatches(f.pattern.value, l.country))
    && (f.category.Some? ==> l.category == f.category.value)
  }

  /**
   * A listing is found exactly when, for a truthy `q`, its title, location
   * or country starts with `q` ignoring case, and, for a truthy category,
   * its category is that one; special characters in `q` match themselves.
   */
  lemma SelectsIff(q: Option<string>, category: Option<string>, l: Listing)
    ensures Selects(BuildIndexFilter(q, category), l) <==>
      && (Truthy(q) ==> StartsWithIgnoringCase(l.title, q.value) || StartsWithIgnoringCase(l.location, q.value)
                        || StartsWithIgnoringCase(l.country, q.value))
      && (Truthy(category) ==> l.category == category.value)
  {
  }

  /** `Listing.find(filter)`: the selected listings, in store order. */
  function Find(all: seq<Listing>, f: IndexFilter): (found: seq<Listing>)
    ensures |found| <= |all|
    ensures forall l :: l in found <==> l in all && Selects(f, l)
  {
    if all == [] then []
    else
      var init := Find(all[..|all| - 1], f);
      assert all == all[..|all| - 1] + [all[|all| - 1]];
      if Selects(f, all[|all| - 1]) then init + [all[|all| - 1]] else init
  }

  /**
   * `index`: the listings found, each with `avgRating` set to the average of
   * its reviews' ratings; nothing else about them changes.
   */
  method Index(all: seq<Listing>, q: Option<string>, category: Option<string>) returns (shown: seq<Listing>)
    ensures |shown| == |Find(all, BuildIndexFilter(q, category))|
    ensures forall i :: 0 <= i < |shown| ==>
      shown[i] == Find(all, BuildIndexFilter(q, category))[i].(avgRating := Review.GetAvgRating(Some(shown[i].ratings)))
  {
    var found := Find(all, BuildIndexFilter(q, category));
    shown := found;
    for i := 0 to |found|
      invariant |shown| == |found|
      invariant forall j :: 0 <= j < i ==> shown[j] == found[j].(avgRating := Review.GetAvgRating(Some(found[j].ratings)))
      invariant forall j :: i <= j < |found| ==> shown[j] == found[j]
    {
      shown := shown[i := shown[i].(avgRating := Review.GetAvgRating(Some(shown[i].ratings)))];
    }
  }

  /** Every listing shown is a listing of the store the query selects, with a rating average in 1..5 when its ratings are. */
  lemma ShownListingsAreSelected(all: seq<Listing>, q: Option<string>, category: Option<string>, shown: seq<Listing>, i: int)
    requires |shown| == |Find(all, BuildIndexFilter(q, category))|
    requires forall k :: 0 <= k < |shown| ==>
      shown[k] == Find(all, BuildIndexFilter(q, category))[k].(avgRating := Review.GetAvgRating(Some(shown[k].ratings)))
    requires 0 <= i < |shown|
    ensures shown[i].(avgRating := Find(all, BuildIndexFilter(q, category))[i].avgRating) in all
    ensures Selects(BuildIndexFilter(q, category), shown[i])
    ensures shown[i].ratings != [] && (forall k :: 0 <= k < |shown[i].ratings| ==> 1.0 <= shown[i].ratings[k] <= 5.0)
            ==> 1.0 <= shown[i].avgRating <= 5.0
  {
    var found := Find(all, BuildIndexFilter(q, category));
    assert found[i] in found;
    assert shown[i].(avgRating := found[i].avgRating) == found[i];
    if shown[i].ratings != [] && (forall k :: 0 <= k < |shown[i].ratings| ==> 1.0 <= shown[i].ratings[k] <= 5.0) {
      Review.AvgInRange(shown[i].ratings);
    }
  }

  // ---------------------------------------------------------------- image preview

  const UPLOAD: string := "/upload"
  const RESIZED_UPLOAD: string := "/upload/w_250,f_auto,q_auto"

  /** The first position where `sub` occurs in `s`, as `indexOf` finds it. */
  function FindSubstring(s: string, sub: string): (r: Option<nat>)
    ensures r.Some? ==> r.value + |sub| <= |s| && IsPrefix(sub, s[r.value..])
    ensures r.Some? ==> forall k :: 0 <= k < r.value ==> !IsPrefix(sub, s[k..])
    ensures r.None? ==> forall k :: 0 <= k <= |s| ==> !IsPrefix(sub, s[k..])
    decreases |s|
  {
    if IsPrefix(sub, s) then Some(0)
    else if s == [] then None
    else
      var rest := FindSubstring(s[1..], sub);
      assert forall k :: 1 <= k <= |s| ==> s[k..] == s[1..][k - 1..];
      if rest.Some? then Some(rest.value + 1) else None
  }

  /** `url.replace("/upload", "/upload/w_250,f_auto,q_auto")`: only the first occurrence is rewritten. */
  function PreviewUrl(url: string): (r: string)
    ensures FindSubstring(url, UPLOAD).None? ==> r == url
    ensures FindSubstring(url, UPLOAD).Some? ==>
      var i := FindSubstring(url, UPLOAD).value;
      r == url[..i] + RESIZED_UPLOAD + url[i + |UPLOAD|..]
  {
    var i := FindSubstring(url, UPLOAD);
    if i.None? then url else url[..i.value] + RESIZED_UPLOAD + url[i.value + |UPLOAD|..]
  }

  /** The resize transformation the preview inserts after "/upload". */
  const TRANSFORMATION: string := "/w_250,f_auto,q_auto"

  /** `r` is `url` with the transformation inserted at position `j`. */
  predicate InsertedAt(url: string, r: string, j: nat) {
    j <= |url| && r == url[..j] + TRANSFORMATION + url[j..]
  }

  /** Replacing an occurrence of "/upload" at `i` inserts the transformation right after it. */
  lemma SpliceInsertsTransformation(url: string, i: nat)
    requires i + |UPLOAD| <= |url| && IsPrefix(UPLOAD, url[i..])
    ensures InsertedAt(url, url[..i] + RESIZED_UPLOAD + url[i + |UPLOAD|..], i + |UPLOAD|)
  {
    var j := i + |UPLOAD|;
    assert url[i..j] == UPLOAD;
    assert RESIZED_UPLOAD == UPLOAD + TRANSFORMATION;
    assert url[..j] == url[..i] + UPLOAD;
  }

  /**
   * The preview differs from the URL only by the transformation inserted
   * right after its first "/upload"; a URL without "/upload" is shown as it is.
   */
  lemma PreviewInsertsTransformation(url: string)
    ensures FindSubstring(url, UPLOAD).None? ==> PreviewUrl(url) == url
    ensures FindSubstring(url, UPLOAD).Some? ==> InsertedAt(url, PreviewUrl(url), FindSubstring(url, UPLOAD).value + |UPLOAD|)
  {
    var found := FindSubstring(url, UPLOAD);
    if found.Some? {
      SpliceInsertsTransformation(url, found.value);
    }
  }

  /** Cutting the inserted transformation out again gives the URL back. */
  lemma RemovingTransformationRestores(url: string, r: string, j: nat)
    requires InsertedAt(url, r, j)
    ensures |r| == |url| + |TRANSFORMATION|
    ensures r[..j] == url[..j] && r[j..j + |TRANSFORMATION|] == TRANSFORMATION
    ensures r[..j] + r[j + |TRANSFORMATION|..] == url
  {
    assert r[j + |TRANSFORMATION|..] == url[j..];
    assert url == url[..j] + url[j..];
  }

  /** The first "/upload" of the example URL is at position 1. */
  lemma ExampleIndex()
    ensures FindSubstring("v/upload/a/upload", UPLOAD) == Some(1)
  {
    var url := "v/upload/a/upload";
    assert !IsPrefix(UPLOAD, url) by {
      assert url[..|UPLOAD|][0] == 'v';
    }
    assert url[1..] == "/upload/a/upload";
    assert IsPrefix(UPLOAD, url[1..]) by {
      assert url[1..][..|UPLOAD|] == UPLOAD;
    }
    assert FindSubstring(url[1..], UPLOAD) == Some(0);
  }

  /** Of two "/upload" in a URL only the first gets the transformation. */
  lemma PreviewExample()
    ensures PreviewUrl("v/upload/a/upload") == "v" + RESIZED_UPLOAD + "/a/upload"
  {
    var url := "v/upload/a/upload";
    ExampleIndex();
    assert url[..1] == "v";
    assert url[8..] == "/a/upload";
  }
}

=== FILE: middleware.dfy ===
/**
 * Access guards, the stored return URL and the upload checks (middleware.js).
 * Each guard is a decision on the request: continue (`next()`), redirect, or
 * fail with an HTTP error. `Fail(500)` also stands for the guards that read a
 * property of a document that is missing: their async handlers have no
 * `try`, so the rejected promise ends the request with an error, taken here
 * to be a 500 from the error handler.
 */
module Middleware {
  import opened Common
  import opened UserModel

  datatype Guard = Next | Redirect(to: string) | Fail(status: int)

  /** The authenticated user as the guards see it. */
  datatype Requester = Requester(id: UserId, role: Role, hostStatus: HostStatus)

  /**
   * `checkBookingOwnership`: the booking exists and is the requester's, or the
   * requester is an admin. Any failure of the lookup (a bad id, a booking whose
   * user is gone) is caught and redirects like a refusal.
   */
  function CheckBookingOwnership(bookingUser: Option<UserId>, lookupFailed: bool, req: Requester): (g: Guard)
    ensures g == Next <==> !lookupFailed && bookingUser.Some? && (bookingUser.value == req.id || req.role == Admin)
    ensures g != Next ==> g == Redirect("/listings")
  {
    if lookupFailed then Redirect("/listings")
    else if bookingUser.None? then Redirect("/listings")
    else if bookingUser.value != req.id && req.role != Admin then Redirect("/listings")
    else Next
  }

  /** `requireRole(...allowedRoles)`: logged in, and with one of the allowed roles. */
  function RequireRole(allowedRoles: seq<Role>, user: Option<Requester>): (g: Guard)
    ensures user.None? ==> g == Redirect("/login")
    ensures user.Some? && user.value.role !in allowedRoles ==> g == Redirect("/")
    ensures g == Next <==> user.Some? && user.value.role in allowedRoles
  {
    if user.None? then Redirect("/login")
    else if user.value.role !in allowedRoles then Redirect("/")
    else Next
  }

  /**
   * `isDocOwner(Model, field)`: the document exists and its owner field is the
   * requester, or the requester is an admin. Nothing catches a failed lookup
   * (a bad id, a missing owner field), so it reaches the error handler.
   */
  function IsDocOwner(docOwner: Option<UserId>, lookupFailed: bool, req: Requester): (g: Guard)
    ensures lookupFailed ==> g == Fail(500)
    ensures g == Next <==> !lookupFailed && docOwner.Some? && (docOwner.value == req.id || req.role == Admin)
    ensures !lookupFailed && g != Next ==> g == Redirect("back")
  {
    if lookupFailed then Fail(500)
    else if docOwner.None? then Redirect("back")
    else if docOwner.value != req.id && req.role != Admin then Redirect("back")
    else Next
  }

  /** `isOwner`: the listing's owner is the current user; no admin bypass; a missing listing crashes. */
  function IsOwner(listingOwner: Option<UserId>, listingPath: string, currUser: UserId): (g: Guard)
    ensures listingOwner.None? ==> g == Fail(500)
    ensures g == Next <==> listingOwner == Some(currUser)
    ensures listingOwner.Some? && listingOwner.value != currUser ==> g == Redirect(listingPath)
  {
    if listingOwner.None? then Fail(500)
    else if listingOwner.value != currUser then Redirect(listingPath)
    else Next
  }

  /** `isHost`: a current user whose role is host. */
  function IsHost(currUser: Option<Requester>): (g: Guard)
    ensures g == Next <==> currUser.Some? && currUser.value.role == Host
    ensures g != Next ==> g == Redirect("/listings")
  {
    if currUser.None? || currUser.value.role != Host then Redirect("/listings") else Next
  }

  /** `isReviewAuthor`: the review's author is the current user; a missing review crashes. */
  function IsReviewAuthor(reviewAuthor: Option<UserId>, listingPath: string, currUser: UserId): (g: Guard)
    ensures g == Next <==> reviewAuthor == Some(currUser)
    ensures reviewAuthor.None? ==> g == Fail(500)
    ensures reviewAuthor.Some? && reviewAuthor.value != currUser ==> g == Redirect(listingPath)
  {
    if reviewAuthor.None? then Fail(500)
    else if reviewAuthor.value != currUser then Redirect(listingPath)
    else Next
  }

  /** `canApplyAsHost`: a plain user, or a host whose application was rejected. */
  function CanApplyAsHost(req: Requester): (g: Guard)
    ensures g == Next <==> req.role == User || (req.role == Host && req.hostStatus == Rejected)
    ensures g != Next ==> g == Redirect("/dashboard")
  {
    if req.role == User then Next
    else if req.role == Host && req.hostStatus == Rejected then Next
    else Redirect("/dashboard")
  }

  /** `isAlreadyReviewed`: blocks when one of the listing's reviews is the requester's; a missing listing crashes. */
  function IsAlreadyReviewed(reviewAuthors: Option<seq<UserId>>, listingPath: string, req: Requester): (g: Guard)
    ensures reviewAuthors.None? ==> g == Fail(500)
    ensures reviewAuthors.Some? ==> (g == Redirect(listingPath) <==> req.id in reviewAuthors.value)
    ensures reviewAuthors.Some? ==> (g == Next <==> req.id !in reviewAuthors.value)
  {
    if reviewAuthors.None? then Fail(500)
    else if exists i :: 0 <= i < |reviewAuthors.value| && reviewAuthors.value[i] == req.id then Redirect(listingPath)
    else Next
  }

  // ------------------------------------------------------------ return URL

  const ExcludedPaths: seq<string> := ["/login", "/signup", "/forgot", "/change-password"]

  /** A stored `redirectUrl` counts only when it is truthy: absent and "" are the same. */
  predicate Stored(url: Option<string>) {
    url.Some? && url.value != ""
  }

  /** `storeRedirectUrl`: the session's `redirectUrl` after the request. */
  function StoreRedirectUrl(httpMethod: string, originalUrl: string, session: Option<string>): (r: Option<string>)
    ensures Stored(session) ==> r == session
    ensures r != session ==> httpMethod == "GET" && originalUrl !in ExcludedPaths && r == Some(originalUrl)
    ensures httpMethod == "GET" && !Stored(session) && originalUrl !in ExcludedPaths ==> r == Some(originalUrl)
  {
    if httpMethod == "GET" && !Stored(session) && originalUrl !in ExcludedPaths then Some(originalUrl)
    else session
  }

  /** Recording twice is recording once. */
  lemma StoreRedirectUrlIdempotent(httpMethod: string, originalUrl: string, session: Option<string>)
    ensures var once := StoreRedirectUrl(httpMethod, originalUrl, session);
            StoreRedirectUrl(httpMethod, originalUrl, once) == once
  {
  }

  /** A login, signup, forgot or change-password page is never recorded. */
  lemma ExcludedPathNeverRecorded(httpMethod: string, i: nat, session: Option<string>)
    requires i < |ExcludedPaths|
    ensures StoreRedirectUrl(httpMethod, ExcludedPaths[i], session) == session
  {
  }

  /** `isLoggedIn`: an anonymous GET records (and overwrites) the return URL; every anonymous request goes to /login. */
  function IsLoggedIn(authenticated: bool, httpMethod: string, originalUrl: string, session: Option<string>): (out: (Guard, Option<string>))
    ensures authenticated ==> out == (Next, session)
    ensures !authenticated ==> out.0 == Redirect("/login")
    ensures !authenticated && httpMethod == "GET" ==> out.1 == Some(originalUrl)
    ensures !authenticated && httpMethod != "GET" ==> out.1 == session
  {
    if authenticated then (Next, session)
    else (Redirect("/login"), if httpMethod == "GET" then Some(originalUrl) else session)
  }

  // ------------------------------------------------------------ uploads

  const AllowedTypes: seq<string> := ["image/jpeg", "image/png", "image/jpg"]

  /** `fileFilter`: accepts exactly the three image types. */
  function FileFilter(mimetype: string): (accepted: bool)
    ensures accepted <==> mimetype == "image/jpeg" || mimetype == "image/png" || mimetype == "image/jpg"
  {
    mimetype in AllowedTypes
  }

  /** `checkRequiredFile`: a file must be present and non-empty. `fileSize` is `None` when no file came. */
  function CheckRequiredFile(fileSize: Option<nat>): (g: Guard)
    ensures g == Next <==> fileSize.Some? && fileSize.value != 0
    ensures g != Next ==> g == Fail(400)
  {
    if fileSize.None? || fileSize.value == 0 then Fail(400) else Next
  }

  /** `checkOptionalFile`: only a present empty file is refused. */
  function CheckOptionalFile(fileSize: Option<nat>): (g: Guard)
    ensures g == Fail(400) <==> fileSize == Some(0)
    ensures g != Fail(400) ==> g == Next
  {
    if fileSize.Some? && fileSize.value == 0 then Fail(400) else Next
  }

  // ------------------------------------------------------------ relations between guards

  /** `isOwner` is `isDocOwner` without the admin bypass. */
  lemma IsOwnerIsDocOwnerWithoutAdmin(owner: Option<UserId>, path: string, req: Requester)
    ensures IsOwner(owner, path, req.id) == Next ==> IsDocOwner(owner, false, req) == Next
    ensures IsDocOwner(owner, false, req) == Next && req.role != Admin ==> IsOwner(owner, path, req.id) == Next
  {
  }

  /** An admin passes the booking and document ownership guards but may not apply as host. */
  lemma AdminBypassesOwnershipNotApplication(bookingUser: UserId, req: Requester)
    requires req.role == Admin
    ensures CheckBookingOwnership(Some(bookingUser), false, req) == Next
    ensures IsDocOwner(Some(bookingUser), false, req) == Next
    ensures CanApplyAsHost(req) != Next
  {
  }

  /** Whatever passes the required-file check passes the optional one. */
  lemma RequiredFileCheckIsStricter(fileSize: Option<nat>)
    ensures CheckRequiredFile(fileSize) == Next ==> CheckOptionalFile(fileSize) == Next
    ensures CheckOptionalFile(fileSize) == Next && fileSize.Some? ==> CheckRequiredFile(fileSize) == Next
  {
  }
}

=== FILE: payment.dfy ===
/**
 * Checkout and payment callback (controllers/payment.js): request validation,
 * nights and price, the lazy sweep, the date-conflict query, the pending hold
 * and its payment session, the webhook, and the cancel page.
 *
 * The payment provider is an oracle: the session it creates (or its failure)
 * and the outcome of signature verification are parameters.
 */
module PaymentController {
  import opened Common
  import opened BookingModel

  const MAX_GUESTS: int := 6
  const MAX_NIGHTS: int := 14

  /** The fields of the checkout request body; an absent or falsy field is `None`. */
  datatype CheckoutRequest = CheckoutRequest(
    listingId: Option<ListingId>,
    checkIn: Option<int>,
    checkOut: Option<int>,
    guests: Option<int>)

  /** The part of a listing the checkout reads. */
  datatype Listing = Listing(price: real, title: string)

  datatype CheckoutError =
    | MissingFields
    | GuestsOutOfRange
    | ListingNotFound
    | CheckOutNotAfterCheckIn
    | StayTooLong
    | DatesUnavailable
    | SessionFailed

  /** The HTTP status each checkout error is answered with. */
  function ErrorStatus(e: CheckoutError): (code: int)
    ensures code == 404 <==> e == ListingNotFound
    ensures code == 500 <==> e == SessionFailed
  {
    match e
    case ListingNotFound => 404
    case SessionFailed => 500
    case _ => 400
  }

  /** What a validated request books. */
  datatype Plan = Plan(listing: ListingId, checkIn: int, checkOut: int, guests: int, nights: int, totalPrice: real)

  /** Number of nights between two day numbers (`Math.ceil` of whole days is exact). */
  function Nights(checkIn: int, checkOut: int): int {
    checkOut - checkIn
  }

  /** `!guests` is true for an absent value and for 0. */
  predicate AnyMissing(req: CheckoutRequest) {
    req.checkIn.None? || req.checkOut.None? || req.guests.None? || req.guests == Some(0) || req.listingId.None?
  }

  /**
   * The checks of `createCheckoutSession` that run before anything is written,
   * in the order the handler makes them, and the price of a valid stay.
   */
  function CheckoutPlan(req: CheckoutRequest, catalog: map<ListingId, Listing>): (r: Result<Plan, CheckoutError>)
    ensures r.Success? <==>
      && !AnyMissing(req)
      && 1 <= req.guests.value <= MAX_GUESTS
      && req.listingId.value in catalog
      && 1 <= Nights(req.checkIn.value, req.checkOut.value) <= MAX_NIGHTS
    ensures r.Success? ==>
      && r.value.listing == req.listingId.value
      && r.value.checkIn == req.checkIn.value && r.value.checkOut == req.checkOut.value
      && r.value.guests == req.guests.value
      && r.value.nights == req.checkOut.value - req.checkIn.value
      && r.value.totalPrice == catalog[r.value.listing].price * r.value.nights as real
    ensures r == Failure(MissingFields) <==> AnyMissing(req)
    ensures r == Failure(GuestsOutOfRange) <==> !AnyMissing(req) && !(1 <= req.guests.value <= MAX_GUESTS)
    ensures r == Failure(ListingNotFound) <==>
      !AnyMissing(req) && 1 <= req.guests.value <= MAX_GUESTS && req.listingId.value !in catalog
    ensures r == Failure(CheckOutNotAfterCheckIn) <==>
      && !AnyMissing(req) && 1 <= req.guests.value <= MAX_GUESTS && req.listingId.value in catalog
      && req.checkOut.value - req.checkIn.value < 1
    ensures r == Failure(StayTooLong) <==>
      && !AnyMissing(req) && 1 <= req.guests.value <= MAX_GUESTS && req.listingId.value in catalog
      && req.checkOut.value - req.checkIn.value > MAX_NIGHTS
    ensures r.Failure? ==> r.error != DatesUnavailable && r.error != SessionFailed
  {
    if AnyMissing(req) then Failure(MissingFields)
    else if req.guests.value < 1 || req.guests.value > MAX_GUESTS then Failure(GuestsOutOfRange)
    else if req.listingId.value !in catalog then Failure(ListingNotFound)
    else
      var nights := Nights(req.checkIn.value, req.checkOut.value);
      if nights < 1 then Failure(CheckOutNotAfterCheckIn)
      else if nights > MAX_NIGHTS then Failure(StayTooLong)
      else Success(Plan(req.listingId.value, req.checkIn.value, req.checkOut.value, req.guests.value,
                        nights, catalog[req.listingId.value].price * nights as real))
  }

  /** `Math.round(totalPrice * 100)`: the line-item amount in paise (halves round up). */
  function UnitAmount(totalPrice: real): (paise: int)
    ensures paise as real - 0.5 <= totalPrice * 100.0 < paise as real + 0.5
  {
    (totalPrice * 100.0 + 0.5).Floor
  }

  lemma UnitAmountOfWholeRupees(rupees: int)
    ensures UnitAmount(rupees as real) == rupees * 100
  {
  }

  // ------------------------------------------------------------ conflicts

  /**
   * The conflict query as written: a booking of the same listing, neither
   * cancelled nor expired, that starts in `[checkIn, checkOut)` or ends in
   * `(checkIn, checkOut]`.
   */
  predicate ConflictsWith(b: Booking, listing: ListingId, checkIn: int, checkOut: int) {
    && b.listing == listing
    && !Releases(b.status)
    && ((checkIn <= b.checkIn < checkOut) || (checkIn < b.checkOut <= checkOut))
  }

  predicate HasConflict(s: seq<Booking>, listing: ListingId, checkIn: int, checkOut: int) {
    exists i :: 0 <= i < |s| && ConflictsWith(s[i], listing, checkIn, checkOut)
  }

  /** Half-open overlap of an active booking with `[checkIn, checkOut)`: what the query is meant to find. */
  predicate Overlaps(b: Booking, listing: ListingId, checkIn: int, checkOut: int) {
    && b.listing == listing
    && !Releases(b.status)
    && b.checkIn < checkOut && checkIn < b.checkOut
  }

  predicate HasOverlap(s: seq<Booking>, listing: ListingId, checkIn: int, checkOut: int) {
    exists i :: 0 <= i < |s| && Overlaps(s[i], listing, checkIn, checkOut)
  }

  /** A reported conflict is a real overlap. */
  lemma ConflictImpliesOverlap(b: Booking, listing: ListingId, checkIn: int, checkOut: int)
    requires b.checkIn < b.checkOut && checkIn < checkOut
    requires ConflictsWith(b, listing, checkIn, checkOut)
    ensures Overlaps(b, listing, checkIn, checkOut)
  {
  }

  /** The query finds exactly the overlaps in which the existing stay does not strictly contain the new one. */
  lemma ConflictIffOverlapWithoutContainment(b: Booking, listing: ListingId, checkIn: int, checkOut: int)
    requires b.checkIn < b.checkOut && checkIn < checkOut
    ensures ConflictsWith(b, listing, checkIn, checkOut)
        <==> Overlaps(b, listing, checkIn, checkOut) && !(b.checkIn < checkIn && checkOut < b.checkOut)
  {
  }

  /** Back-to-back stays never conflict, under either rule. */
  lemma BackToBackNeverConflicts(b: Booking, listing: ListingId, checkIn: int, checkOut: int)
    requires b.checkIn < b.checkOut && checkIn < checkOut
    requires b.checkOut == checkIn || b.checkIn == checkOut
    ensures !ConflictsWith(b, listing, checkIn, checkOut)
    ensures !Overlaps(b, listing, checkIn, checkOut)
  {
  }

  /** An active stay on days 1..10 is not found by a request for days 3..5, though it overlaps it. */
  lemma ContainmentIsMissed()
    ensures var b := Booking(7, 1, 1, 10, 2, 9000.0, Confirmed, Some("cs_1"), Some("pi_1"), 0, None);
            Overlaps(b, 7, 3, 5) && !ConflictsWith(b, 7, 3, 5)
  {
  }

  /** An expired or cancelled hold never blocks, and the sweep makes every lapsed hold expired. */
  lemma LapsedHoldNeverBlocks(s: seq<Booking>, now: int, i: nat, listing: ListingId, checkIn: int, checkOut: int)
    requires i < |s| && IsExpired(s[i], now)
    ensures !ConflictsWith(Swept(s, now)[i], listing, checkIn, checkOut)
    ensures !Overlaps(Swept(s, now)[i], listing, checkIn, checkOut)
  {
  }

  // ------------------------------------------------------------ checkout

  /** The session the provider returns. */
  datatype Session = Session(id: string, url: string)

  /** What the handler asks the provider for: one line item and the correlation metadata. */
  datatype SessionRequest = SessionRequest(unitAmount: int, quantity: nat, bookingId: BookingId, userId: UserId, listingId: ListingId)

  /** The hold a successful checkout leaves in the store. */
  function Hold(p: Plan, user: UserId, now: int, sessionId: Option<string>): (b: Booking)
    ensures b.status == PendingPayment && b.expiresAt == Some(now + HOLD_MS)
    ensures b.totalPrice == p.totalPrice && b.stripeSessionId == sessionId
  {
    Booking(p.listing, user, p.checkIn, p.checkOut, p.guests, p.totalPrice, PendingPayment,
            sessionId, None, now, Some(now + HOLD_MS))
  }

  /**
   * `createCheckoutSession`. Invalid requests change nothing. Otherwise the
   * lapsed holds are swept; a conflict is refused; else one pending hold with
   * the computed price is appended, a session is requested for it, and the
   * session id is saved on it. A provider failure leaves the hold without a
   * session id, to lapse after 24 hours.
   */
  method CreateCheckoutSession(store: BookingStore, catalog: map<ListingId, Listing>, user: UserId,
                               req: CheckoutRequest, now: int, session: Option<Session>)
    returns (r: Result<string, CheckoutError>, sent: Option<SessionRequest>)
    modifies store
    ensures CheckoutPlan(req, catalog).Failure? ==>
      && store.bookings == old(store.bookings)
      && r == Failure(CheckoutPlan(req, catalog).error) && sent.None?
    ensures CheckoutPlan(req, catalog).Success? ==>
      var p := CheckoutPlan(req, catalog).value;
      var swept := Swept(old(store.bookings), now);
      if HasConflict(swept, p.listing, p.checkIn, p.checkOut) then
        store.bookings == swept && r == Failure(DatesUnavailable) && sent.None?
      else
        && store.bookings == swept + [Hold(p, user, now, if session.Some? then Some(session.value.id) else None)]
        && sent == Some(SessionRequest(UnitAmount(p.totalPrice), 1, |swept|, user, p.listing))
        && r == (if session.Some? then Success(session.value.url) else Failure(SessionFailed))
    ensures old(store.Valid()) ==> store.Valid()
  {
    var plan := CheckoutPlan(req, catalog);
    if plan.Failure? {
      return Failure(plan.error), None;
    }
    var p := plan.value;
    var _ := store.ExpireOldBookings(now);
    if HasConflict(store.bookings, p.listing, p.checkIn, p.checkOut) {
      return Failure(DatesUnavailable), None;
    }
    var draft := NewDocument(p.listing, user, p.checkIn, p.checkOut, p.guests, p.totalPrice, Some(PendingPayment), now);
    var id := store.Insert(draft, now);
    sent := Some(SessionRequest(UnitAmount(p.totalPrice), 1, id, user, p.listing));
    if session.None? {
      return Failure(SessionFailed), sent;
    }
    var withSession := store.bookings[id].(stripeSessionId := Some(session.value.id));
    store.Save(id, withSession, now);
    r := Success(session.value.url);
  }

  /** A valid plan yields a well-formed hold. */
  lemma PlannedHoldIsWellFormed(req: CheckoutRequest, catalog: map<ListingId, Listing>, user: UserId, now: int, sid: Option<string>)
    requires CheckoutPlan(req, catalog).Success?
    ensures WellFormed(Hold(CheckoutPlan(req, catalog).value, user, now, sid))
    ensures 1 <= Hold(CheckoutPlan(req, catalog).value, user, now, sid).guests <= MAX_GUESTS
  {
  }

  /** Three nights at 1000 a night cost 3000, that is 300000 paise. */
  lemma ThreeNightsExample()
    ensures var r := CheckoutPlan(CheckoutRequest(Some(1), Some(100), Some(103), Some(2)), map[1 := Listing(1000.0, "Villa")]);
            r.Success? && r.value.nights == 3 && r.value.totalPrice == 3000.0 && UnitAmount(r.value.totalPrice) == 300000
  {
  }

  /** A 20-night request is refused before anything is written. */
  lemma TwentyNightsRefused()
    ensures CheckoutPlan(CheckoutRequest(Some(1), Some(100), Some(120), Some(2)), map[1 := Listing(1000.0, "Villa")])
         == Failure(StayTooLong)
  {
  }

  // ------------------------------------------------------------ webhook

  const COMPLETED_EVENT: string := "checkout.session.completed"

  /** The verified event: its type and the completed session's id and payment intent. */
  datatype WebhookEvent = WebhookEvent(eventType: string, sessionId: string, paymentIntent: string)

  datatype WebhookReply = BadSignature | Received | BookingNotFound

  /** The HTTP status of each webhook reply. */
  function WebhookStatus(r: WebhookReply): (code: int)
    ensures code == 400 <==> r == BadSignature
    ensures code == 404 <==> r == BookingNotFound
    ensures code == 200 <==> r == Received
  {
    match r
    case BadSignature => 400
    case Received => 200
    case BookingNotFound => 404
  }

  /** `Booking.findOne({stripeSessionId})`: the first booking, in store order, with that session id. */
  function FindBySession(s: seq<Booking>, sid: string): (r: Option<BookingId>)
    ensures r.Some? ==> r.value < |s| && s[r.value].stripeSessionId == Some(sid)
    ensures r.Some? ==> forall k :: 0 <= k < r.value ==> s[k].stripeSessionId != Some(sid)
    ensures r.None? ==> forall k :: 0 <= k < |s| ==> s[k].stripeSessionId != Some(sid)
  {
    if s == [] then None
    else
      var r := FindBySession(s[..|s| - 1], sid);
      if r.Some? then r
      else if s[|s| - 1].stripeSessionId == Some(sid) then Some(|s| - 1)
      else None
  }

  /** The webhook's assignments and save: confirmed, payment intent recorded, no deadline. */
  function ConfirmPaid(b: Booking, paymentIntent: string, now: int): (r: Booking)
    ensures r.status == Confirmed && r.expiresAt.None? && r.stripePaymentIntentId == Some(paymentIntent)
    ensures r == b.(status := Confirmed, stripePaymentIntentId := Some(paymentIntent), expiresAt := None)
  {
    PreSave(b.(status := Confirmed, stripePaymentIntentId := Some(paymentIntent), expiresAt := None), false, now)
  }

  /** The reply and the new store of one webhook delivery. */
  function WebhookEffect(s: seq<Booking>, signatureOk: bool, e: WebhookEvent, now: int): (out: (WebhookReply, seq<Booking>))
    ensures |out.1| == |s|
    ensures out.0 == BadSignature <==> !signatureOk
    ensures out.0 != Received ==> out.1 == s
  {
    if !signatureOk then (BadSignature, s)
    else if e.eventType != COMPLETED_EVENT then (Received, s)
    else
      match FindBySession(s, e.sessionId)
      case None => (BookingNotFound, s)
      case Some(i) =>
        if s[i].status == Confirmed then (Received, s)
        else (Received, s[i := ConfirmPaid(s[i], e.paymentIntent, now)])
  }

  /** `stripeWebhook`. The confirmation e-mail step always fails and is swallowed, so it has no effect. */
  method StripeWebhook(store: BookingStore, signatureOk: bool, e: WebhookEvent, now: int) returns (reply: WebhookReply)
    modifies store
    ensures (reply, store.bookings) == WebhookEffect(old(store.bookings), signatureOk, e, now)
    ensures old(store.Valid()) ==> store.Valid()
  {
    if !signatureOk {
      return BadSignature;
    }
    if e.eventType == COMPLETED_EVENT {
      var found := FindBySession(store.bookings, e.sessionId);
      if found.None? {
        return BookingNotFound;
      }
      var id := found.value;
      if store.bookings[id].status == Confirmed {
        return Received;
      }
      var b := store.bookings[id].(status := Confirmed, stripePaymentIntentId := Some(e.paymentIntent), expiresAt := None);
      store.Save(id, b, now);
    }
    reply := Received;
  }

  /** A bad signature or another event type leaves the store as it was. */
  lemma WebhookIgnoresUnverifiedAndOtherEvents(s: seq<Booking>, signatureOk: bool, e: WebhookEvent, now: int)
    requires !signatureOk || e.eventType != COMPLETED_EVENT
    ensures WebhookEffect(s, signatureOk, e, now).1 == s
    ensures WebhookEffect(s, signatureOk, e, now).0 == if signatureOk then Received else BadSignature
  {
  }

  /** A completed session that no booking carries is answered 404 and changes nothing. */
  lemma WebhookUnknownSession(s: seq<Booking>, e: WebhookEvent, now: int)
    requires e.eventType == COMPLETED_EVENT && FindBySession(s, e.sessionId).None?
    ensures WebhookEffect(s, true, e, now) == (BookingNotFound, s)
    ensures forall k :: 0 <= k < |s| ==> s[k].stripeSessionId != Some(e.sessionId)
  {
  }

  /** A completed session whose booking is already confirmed is acknowledged and changes nothing. */
  lemma WebhookAlreadyConfirmed(s: seq<Booking>, e: WebhookEvent, now: int)
    requires e.eventType == COMPLETED_EVENT && FindBySession(s, e.sessionId).Some?
    requires s[FindBySession(s, e.sessionId).value].status == Confirmed
    ensures WebhookEffect(s, true, e, now) == (Received, s)
  {
  }

  /**
   * A completed session confirms its booking from any status but confirmed,
   * cancelled and expired included, acknowledges the event, and touches no
   * other booking.
   */
  lemma WebhookConfirmsAnyUnconfirmed(s: seq<Booking>, e: WebhookEvent, now: int)
    requires e.eventType == COMPLETED_EVENT && FindBySession(s, e.sessionId).Some?
    ensures WebhookEffect(s, true, e, now).0 == Received
    ensures var i := FindBySession(s, e.sessionId).value;
            var t := WebhookEffect(s, true, e, now).1;
            && t[i].status == Confirmed
            && (s[i].status != Confirmed ==> t[i].expiresAt.None? && t[i].stripePaymentIntentId == Some(e.paymentIntent))
            && (forall k :: 0 <= k < |s| && k != i ==> t[k] == s[k])
  {
  }

  /** Delivering the same event twice has the effect and the reply of delivering it once. */
  lemma WebhookIdempotent(s: seq<Booking>, signatureOk: bool, e: WebhookEvent, now: int, later: int)
    ensures var (r1, s1) := WebhookEffect(s, signatureOk, e, now);
            WebhookEffect(s1, signatureOk, e, later) == (r1, s1)
  {
    var (r1, s1) := WebhookEffect(s, signatureOk, e, now);
    if signatureOk && e.eventType == COMPLETED_EVENT && FindBySession(s, e.sessionId).Some? {
      var i := FindBySession(s, e.sessionId).value;
      FindBySessionUnchangedBySameId(s, s1, e.sessionId);
      assert FindBySession(s1, e.sessionId) == Some(i);
    }
  }

  /** Lookup by session id sees only session ids. */
  lemma {:induction false} FindBySessionUnchangedBySameId(s: seq<Booking>, t: seq<Booking>, sid: string)
    requires |s| == |t|
    requires forall k :: 0 <= k < |s| ==> s[k].stripeSessionId == t[k].stripeSessionId
    ensures FindBySession(s, sid) == FindBySession(t, sid)
  {
    if s != [] {
      FindBySessionUnchangedBySameId(s[..|s| - 1], t[..|t| - 1], sid);
    }
  }

  /** The webhook keeps every booking well formed. */
  lemma WebhookWellFormed(s: seq<Booking>, signatureOk: bool, e: WebhookEvent, now: int)
    requires AllWellFormed(s)
    ensures AllWellFormed(WebhookEffect(s, signatureOk, e, now).1)
  {
  }

  // ------------------------------------------------------------ cancel page

  /** `paymentCancel`: an unknown id changes nothing; otherwise the booking is cancelled, whatever its status. */
  method PaymentCancel(store: BookingStore, bookingId: BookingId, now: int) returns (found: bool)
    modifies store
    ensures found == (bookingId < |old(store.bookings)|)
    ensures found ==> store.bookings == old(store.bookings)[bookingId := CancelRecord(old(store.bookings)[bookingId], now)]
    ensures !found ==> store.bookings == old(store.bookings)
    ensures old(store.Valid()) ==> store.Valid()
  {
    if bookingId >= |store.bookings| {
      return false;
    }
    store.Save(bookingId, store.bookings[bookingId].(status := Cancelled), now);
    found := true;
  }
}

=== FILE: review.dfy ===
/**
 * Rating aggregation (utils/review.js): the average rating and the star
 * breakdown of a listing's reviews. Ratings are JavaScript numbers, modelled
 * as reals; `None` is a `null` or `undefined` review list.
 */
module Review {
  import opened Common

  /** `reviews.reduce((sum, r) => sum + r.rating, 0)`: summed from the left. */
  function Sum(ratings: seq<real>): real {
    if ratings == [] then 0.0 else Sum(ratings[..|ratings| - 1]) + ratings[|ratings| - 1]
  }

  /** `getAvgRating`: 0 for no reviews, otherwise the mean rating. */
  function GetAvgRating(reviews: Option<seq<real>>): (avg: real)
    ensures reviews.None? || reviews.value == [] ==> avg == 0.0
    ensures reviews.Some? && reviews.value != [] ==> avg * |reviews.value| as real == Sum(reviews.value)
  {
    if reviews.None? || |reviews.value| == 0 then 0.0
    else Sum(reviews.value) / |reviews.value| as real
  }

  /** Bounds on each rating bound the sum. */
  lemma {:induction false} SumBounds(ratings: seq<real>, lo: real, hi: real)
    requires forall i :: 0 <= i < |ratings| ==> lo <= ratings[i] <= hi
    ensures |ratings| as real * lo <= Sum(ratings) <= |ratings| as real * hi
  {
    if ratings != [] {
      SumBounds(ratings[..|ratings| - 1], lo, hi);
    }
  }

  /** When every rating lies in 1..5, so does the average. */
  lemma AvgInRange(ratings: seq<real>)
    requires ratings != []
    requires forall i :: 0 <= i < |ratings| ==> 1.0 <= ratings[i] <= 5.0
    ensures 1.0 <= GetAvgRating(Some(ratings)) <= 5.0
  {
    SumBounds(ratings, 1.0, 5.0);
    MeanBounds(Sum(ratings), |ratings| as real, 1.0, 5.0);
  }

  /** Dividing a total that lies between `n * lo` and `n * hi` by `n` gives a value between `lo` and `hi`. */
  lemma MeanBounds(total: real, n: real, lo: real, hi: real)
    requires n > 0.0 && n * lo <= total <= n * hi
    ensures lo <= total / n <= hi
  {
    var m := total / n;
    assert m * n == total;
    assert (m - lo) * n == total - n * lo;
    assert (hi - m) * n == n * hi - total;
  }

  /** Three reviews of 5, 4 and 3 stars average 4. */
  lemma AvgExample()
    ensures GetAvgRating(Some([5.0, 4.0, 3.0])) == 4.0
  {
    assert [5.0, 4.0, 3.0][..2] == [5.0, 4.0];
    assert [5.0, 4.0][..1] == [5.0];
    assert [5.0][..0] == [];
  }

  /** The number of reviews whose rating is exactly `star`. */
  function CountRating(ratings: seq<real>, star: int): (n: nat)
    ensures n <= |ratings|
  {
    if ratings == [] then 0
    else CountRating(ratings[..|ratings| - 1], star) + (if ratings[|ratings| - 1] == star as real then 1 else 0)
  }

  /** A rating the breakdown has a key for: a whole number of stars from 1 to 5. */
  predicate IsStar(r: real) {
    r == 1.0 || r == 2.0 || r == 3.0 || r == 4.0 || r == 5.0
  }

  function CountStars(ratings: seq<real>): (n: nat)
    ensures n <= |ratings|
  {
    if ratings == [] then 0
    else CountStars(ratings[..|ratings| - 1]) + (if IsStar(ratings[|ratings| - 1]) then 1 else 0)
  }

  /**
   * `getStarBreakdown`: keys 1 to 5, all zero for a missing list; each review
   * whose rating is one of the keys adds one to it, any other rating is ignored.
   */
  method GetStarBreakdown(reviews: Option<seq<real>>) returns (breakdown: map<int, nat>)
    ensures breakdown.Keys == {1, 2, 3, 4, 5}
    ensures reviews.None? ==> forall k :: k in breakdown ==> breakdown[k] == 0
    ensures reviews.Some? ==> forall k :: k in breakdown ==> breakdown[k] == CountRating(reviews.value, k)
  {
    breakdown := map[5 := 0, 4 := 0, 3 := 0, 2 := 0, 1 := 0];
    if reviews.None? {
      return;
    }
    var rs := reviews.value;
    for i := 0 to |rs|
      invariant breakdown.Keys == {1, 2, 3, 4, 5}
      invariant forall k :: k in breakdown ==> breakdown[k] == CountRating(rs[..i], k)
    {
      assert rs[..i + 1][..i] == rs[..i];
      var r := rs[i];
      if r == 1.0 || r == 2.0 || r == 3.0 || r == 4.0 || r == 5.0 {
        var k := r.Floor;
        breakdown := breakdown[k := breakdown[k] + 1];
      }
    }
    assert rs[..|rs|] == rs;
  }

  /** The five counts add up to the number of reviews with a whole-star rating. */
  lemma {:induction false} BreakdownAddsUp(ratings: seq<real>)
    ensures CountRating(ratings, 1) + CountRating(ratings, 2) + CountRating(ratings, 3)
            + CountRating(ratings, 4) + CountRating(ratings, 5) == CountStars(ratings)
  {
    if ratings != [] {
      BreakdownAddsUp(ratings[..|ratings| - 1]);
    }
  }

  /** Ratings 5, 5, 4, 3, 1 break down as 2, 1, 1, 0, 1. */
  lemma BreakdownExample()
    ensures var rs := [5.0, 5.0, 4.0, 3.0, 1.0];
            CountRating(rs, 5) == 2 && CountRating(rs, 4) == 1 && CountRating(rs, 3) == 1
            && CountRating(rs, 2) == 0 && CountRating(rs, 1) == 1
  {
    var rs := [5.0, 5.0, 4.0, 3.0, 1.0];
    assert rs[..1][..0] == [];
    assert forall k :: CountRating(rs[..1], k) == (if k == 5 then 1 else 0);
    assert rs[..2][..1] == rs[..1];
    assert forall k :: CountRating(rs[..2], k) == (if k == 5 then 2 else 0);
    assert rs[..3][..2] == rs[..2];
    assert forall k :: CountRating(rs[..3], k) == (if k == 5 then 2 else if k == 4 then 1 else 0);
    assert rs[..4][..3] == rs[..3];
    assert forall k :: CountRating(rs[..4], k) == (if k == 5 then 2 else if k == 4 || k == 3 then 1 else 0);
    assert rs[..4] == rs[..|rs| - 1];
  }
}

=== FILE: schema.dfy ===
/**
 * The Joi request validators of schema.js, as functions from a submitted
 * form to the first error Joi reports (`None` when `error` is undefined).
 * Joi checks the keys in the order the schema declares them; the middleware
 * asks for every error (`abortEarly: false`) and joins their messages, and
 * the model keeps the first of them, so a form passes or fails exactly as in
 * the application. An error is named by the key and Joi's error type.
 *
 * A form field is `None` when the key is missing. Strings are strings and
 * numbers are reals: Joi's conversion of other types is not modelled.
 * Whether an address passes `string().email()` is a parameter.
 */
module Schema {
  import opened Common
  import JwtHelper

  /** The key that failed and Joi's error type (`any.required`, `string.min`, ...). */
  datatype SchemaError = Invalid(key: string, rule: string)

  /** `categoryList` of utils/constants.js. */
  const Categories: seq<string> := [
    "Hotel", "Beach", "Lakefront", "Resort", "Villa",
    "Apartment", "Homestay", "Terrain", "Cottage", "Ski Resort"
  ]

  /** `facilitiesList` of utils/constants.js. */
  const Facilities: seq<string> := [
    "Free Wi-Fi", "Air Conditioning", "Hot Water", "TV", "Security Cameras",
    "Parking", "Breakfast Included", "Restaurant Onsite", "Room Service",
    "Swimming Pool", "Pet Allowed", "Wheelchair Accessible", "Fire Safety"
  ]

  const DAY_MS: int := 24 * 60 * 60 * 1000

  // ---------------------------------------------------------------- shared rules

  /** `Joi.string().required()`: missing is `any.required`, the empty string `string.empty`. */
  function RequiredString(key: string, v: Option<string>): (r: Option<SchemaError>)
    ensures r.None? <==> v.Some? && v.value != ""
    ensures r.Some? ==> r.value.key == key
  {
    if v.None? then Some(Invalid(key, "any.required"))
    else if v.value == "" then Some(Invalid(key, "string.empty"))
    else None
  }

  /** `Joi.string().min(lo).max(hi).required()` (`hi` is `None` when there is no maximum). */
  function BoundedString(key: string, v: Option<string>, lo: nat, hi: Option<nat>): (r: Option<SchemaError>)
    requires lo > 0
    ensures r.None? <==> v.Some? && lo <= |v.value| && (hi.None? || |v.value| <= hi.value)
    ensures r.Some? ==> r.value.key == key
  {
    if RequiredString(key, v).Some? then RequiredString(key, v)
    else if |v.value| < lo then Some(Invalid(key, "string.min"))
    else if hi.Some? && |v.value| > hi.value then Some(Invalid(key, "string.max"))
    else None
  }

  /** A string of exactly `n` ASCII digits: `/^[0-9]{n}$/`, and `/^\d{n}$/`, since JavaScript's `\d` is ASCII. */
  predicate AllDigits(s: string, n: nat) {
    |s| == n && forall i :: 0 <= i < |s| ==> IsAsciiDigit(s[i])
  }

  /** `Joi.string().pattern(/^[0-9]{n}$/).required()`. */
  function DigitString(key: string, v: Option<string>, n: nat): (r: Option<SchemaError>)
    requires n > 0
    ensures r.None? <==> v.Some? && AllDigits(v.value, n)
    ensures r.Some? ==> r.value.key == key
  {
    if RequiredString(key, v).Some? then RequiredString(key, v)
    else if !AllDigits(v.value, n) then Some(Invalid(key, "string.pattern.base"))
    else None
  }

  /** `confirm: Joi.any().valid(Joi.ref("password")).required()`. */
  function Confirm(confirm: Option<string>, password: string): (r: Option<SchemaError>)
    ensures r.None? <==> confirm == Some(password)
  {
    if confirm.None? then Some(Invalid("confirm", "any.required"))
    else if confirm.value != password then Some(Invalid("confirm", "any.only"))
    else None
  }

  /** The first error of two checks taken in order. */
  function Then(first: Option<SchemaError>, second: Option<SchemaError>): (r: Option<SchemaError>)
    ensures r.None? <==> first.None? && second.None?
    ensures first.Some? ==> r == first
    ensures first.None? ==> r == second
  {
    if first.Some? then first else second
  }

  // ---------------------------------------------------------------- bookingSchema

  datatype BookingForm = BookingForm(checkIn: Option<int>, checkOut: Option<int>, guests: Option<real>, dateRange: Option<string>)

  /**
   * The check-in rule: the check-in date, at midnight, is not before
   * tomorrow's midnight. Times are milliseconds and days are counted from
   * midnight of day 0, in a single time zone.
   */
  function CheckInRule(checkIn: Option<int>, now: int): (r: Option<SchemaError>)
    ensures r.None? <==> checkIn.Some? && checkIn.value / DAY_MS >= now / DAY_MS + 1
  {
    if checkIn.None? then Some(Invalid("checkIn", "any.required"))
    else if checkIn.value / DAY_MS < now / DAY_MS + 1 then Some(Invalid("checkIn", "date.min"))
    else None
  }

  /** `Joi.number().integer().min(1).max(6).required()`, the rules in their declared order. */
  function GuestsRule(guests: Option<real>): (r: Option<SchemaError>)
    ensures r.None? <==> guests.Some? && guests.value.Floor as real == guests.value && 1.0 <= guests.value <= 6.0
  {
    if guests.None? then Some(Invalid("guests", "any.required"))
    else if guests.value.Floor as real != guests.value then Some(Invalid("guests", "number.integer"))
    else if guests.value < 1.0 then Some(Invalid("guests", "number.min"))
    else if guests.value > 6.0 then Some(Invalid("guests", "number.max"))
    else None
  }

  /** `bookingSchema` at time `now`. */
  function ValidateBooking(f: BookingForm, now: int): (r: Option<SchemaError>)
    ensures r.None? <==>
      && f.checkIn.Some? && f.checkIn.value / DAY_MS > now / DAY_MS
      && f.checkOut.Some? && f.checkOut.value > f.checkIn.value
      && f.guests.Some? && f.guests.value.Floor as real == f.guests.value && 1.0 <= f.guests.value <= 6.0
      && (f.dateRange.None? || f.dateRange.value != "")
    ensures r == Some(Invalid("checkIn", "date.min")) <==> f.checkIn.Some? && f.checkIn.value / DAY_MS <= now / DAY_MS
  {
    var checkOut :=
      if CheckInRule(f.checkIn, now).Some? then None
      else if f.checkOut.None? then Some(Invalid("checkOut", "any.required"))
      else if f.checkOut.value <= f.checkIn.value then Some(Invalid("checkOut", "date.greater"))
      else None;
    var dateRange := if f.dateRange.Some? then RequiredString("dateRange", f.dateRange) else None;
    Then(CheckInRule(f.checkIn, now), Then(checkOut, Then(GuestsRule(f.guests), dateRange)))
  }

  /** A booking that passes starts on a later day than today and lasts a positive time. */
  lemma ValidBookingIsInTheFuture(f: BookingForm, now: int)
    requires ValidateBooking(f, now).None?
    ensures f.checkIn.value > now
    ensures f.checkOut.value > now
  {
    var d := now / DAY_MS;
    assert now < (d + 1) * DAY_MS;
    assert (d + 1) * DAY_MS <= (f.checkIn.value / DAY_MS) * DAY_MS <= f.checkIn.value;
  }

  // ---------------------------------------------------------------- reviewSchema

  datatype ReviewForm = ReviewForm(rating: Option<real>, comment: Option<string>)

  /** `reviewSchema`; a missing `review` object is `None`. */
  function ValidateReview(review: Option<ReviewForm>): (r: Option<SchemaError>)
    ensures r.None? <==>
      review.Some? && review.value.rating.Some? && 1.0 <= review.value.rating.value <= 5.0
      && review.value.comment.Some? && review.value.comment.value != ""
  {
    if review.None? then Some(Invalid("review", "any.required"))
    else
      var rating :=
        if review.value.rating.None? then Some(Invalid("review.rating", "any.required"))
        else if review.value.rating.value < 1.0 then Some(Invalid("review.rating", "number.min"))
        else if review.value.rating.value > 5.0 then Some(Invalid("review.rating", "number.max"))
        else None;
      Then(rating, RequiredString("review.comment", review.value.comment))
  }

  // ---------------------------------------------------------------- listingSchema

  /** `facilities` as submitted: an array of values, or a single value. */
  datatype FacilitiesInput = Many(items: seq<string>) | One(item: string)

  datatype ListingForm = ListingForm(
    title: Option<string>, description: Option<string>, category: Option<string>,
    facilities: Option<FacilitiesInput>, price: Option<real>,
    location: Option<string>, country: Option<string>)

  /** `Joi.string().valid(...list).required()`. */
  function OneOf(key: string, v: Option<string>, list: seq<string>): (r: Option<SchemaError>)
    ensures r.None? <==> v.Some? && v.value in list
  {
    if v.None? then Some(Invalid(key, "any.required"))
    else if v.value !in list then Some(Invalid(key, "any.only"))
    else None
  }

  /** The two alternatives of `facilities`: a non-empty array of listed facilities, or one listed facility. */
  function FacilitiesRule(v: Option<FacilitiesInput>): (r: Option<SchemaError>)
    ensures r.None? <==> (v.Some? &&
      match v.value
      case Many(items) => items != [] && forall i :: 0 <= i < |items| ==> items[i] in Facilities
      case One(item) => item in Facilities)
  {
    if v.None? then Some(Invalid("listing.facilities", "any.required"))
    else match v.value
      case Many(items) =>
        if items != [] && forall i :: 0 <= i < |items| ==> items[i] in Facilities then None
        else Some(Invalid("listing.facilities", "alternatives.match"))
      case One(item) =>
        if item in Facilities then None else Some(Invalid("listing.facilities", "alternatives.match"))
  }

  /** `listingSchema`; a missing `listing` object is `None`. */
  function ValidateListing(listing: Option<ListingForm>): (r: Option<SchemaError>)
    ensures r.None? <==> (listing.Some? &&
      var l := listing.value;
      && l.title.Some? && l.title.value != "" && l.description.Some? && l.description.value != ""
      && l.category.Some? && l.category.value in Categories
      && FacilitiesRule(l.facilities).None?
      && l.price.Some? && l.price.value >= 0.0
      && l.location.Some? && l.location.value != "" && l.country.Some? && l.country.value != "")
  {
    if listing.None? then Some(Invalid("listing", "any.required"))
    else
      var l := listing.value;
      var price :=
        if l.price.None? then Some(Invalid("listing.price", "any.required"))
        else if l.price.value < 0.0 then Some(Invalid("listing.price", "number.min"))
        else None;
      Then(RequiredString("listing.title", l.title),
      Then(RequiredString("listing.description", l.description),
      Then(OneOf("listing.category", l.category, Categories),
      Then(FacilitiesRule(l.facilities),
      Then(price,
      Then(RequiredString("listing.location", l.location),
           RequiredString("listing.country", l.country)))))))
  }

  // ---------------------------------------------------------------- resetPasswordSchema

  datatype ResetForm = ResetForm(username: Option<string>, email: Option<string>, code: Option<string>,
                                 password: Option<string>, confirm: Option<string>)

  /** `Joi.string().email().required()`; `wellFormed` says whether the address passes Joi's email rule. */
  function EmailRule(email: Option<string>, wellFormed: bool): (r: Option<SchemaError>)
    ensures r.None? <==> email.Some? && email.value != "" && wellFormed
  {
    if RequiredString("email", email).Some? then RequiredString("email", email)
    else if !wellFormed then Some(Invalid("email", "string.email"))
    else None
  }

  /** `resetPasswordSchema`. */
  function ValidateReset(f: ResetForm, emailWellFormed: bool): (r: Option<SchemaError>)
    ensures r.None? <==>
      && f.username.Some? && f.username.value != ""
      && f.email.Some? && f.email.value != "" && emailWellFormed
      && f.code.Some? && AllDigits(f.code.value, 6)
      && f.password.Some? && |f.password.value| >= 6
      && f.confirm == f.password
    ensures r == Some(Invalid("code", "string.pattern.base")) ==>
      f.code.Some? && f.code.value != "" && !AllDigits(f.code.value, 6)
  {
    var confirm := if f.password.Some? then Confirm(f.confirm, f.password.value) else None;
    Then(RequiredString("username", f.username),
    Then(EmailRule(f.email, emailWellFormed),
    Then(DigitString("code", f.code, 6),
    Then(BoundedString("password", f.password, 6, None), confirm))))
  }

  /** A string of `n` decimal digits denotes a number below `10^n`. */
  lemma {:induction false} DigitsValueBound(s: string, n: nat)
    requires AllDigits(s, n)
    ensures 0 <= DigitsValue(s) < Pow10(n)
  {
    if n > 0 {
      DigitsValueBound(s[..n - 1], n - 1);
    }
  }

  /** A code the reset schema accepts denotes a number from 0 to 999999. */
  lemma ValidCodeIsSixDigitNumber(f: ResetForm, emailWellFormed: bool)
    requires ValidateReset(f, emailWellFormed).None?
    ensures 0 <= DigitsValue(f.code.value) <= 999999
  {
    DigitsValueBound(f.code.value, 6);
  }

  /** Every code `generateOTP` produces has the form the reset schema demands. */
  lemma GeneratedCodePassesPattern(random: real)
    requires 0.0 <= random < 1.0
    ensures DigitString("code", Some(JwtHelper.GenerateOTP(random)), 6).None?
  {
  }

  // ---------------------------------------------------------------- signupSchema and updatePasswordSchema

  datatype SignupForm = SignupForm(username: Option<string>, email: Option<string>,
                                   password: Option<string>, confirm: Option<string>)

  /** `signupSchema`. */
  function ValidateSignup(f: SignupForm, emailWellFormed: bool): (r: Option<SchemaError>)
    ensures r.None? <==>
      && f.username.Some? && 3 <= |f.username.value| <= 20
      && f.email.Some? && f.email.value != "" && emailWellFormed
      && f.password.Some? && |f.password.value| >= 6
      && f.confirm == f.password
    ensures r == Some(Invalid("confirm", "any.only")) <==>
      && f.username.Some? && 3 <= |f.username.value| <= 20
      && f.email.Some? && f.email.value != "" && emailWellFormed
      && f.password.Some? && |f.password.value| >= 6
      && f.confirm.Some? && f.confirm != f.password
  {
    var confirm := if f.password.Some? then Confirm(f.confirm, f.password.value) else None;
    Then(BoundedString("username", f.username, 3, Some(20)),
    Then(EmailRule(f.email, emailWellFormed),
    Then(BoundedString("password", f.password, 6, None), confirm)))
  }

  datatype UpdatePasswordForm = UpdatePasswordForm(currentPassword: Option<string>, password: Option<string>, confirm: Option<string>)

  /** `updatePasswordSchema`. */
  function ValidateUpdatePassword(f: UpdatePasswordForm): (r: Option<SchemaError>)
    ensures r.None? <==>
      f.currentPassword.Some? && f.currentPassword.value != ""
      && f.password.Some? && |f.password.value| >= 6 && f.confirm == f.password
  {
    var confirm := if f.password.Some? then Confirm(f.confirm, f.password.value) else None;
    Then(RequiredString("currentPassword", f.currentPassword), Then(BoundedString("password", f.password, 6, None), confirm))
  }

  // ---------------------------------------------------------------- hostApplicationSchema

  datatype HostApplicationForm = HostApplicationForm(fullName: Option<string>, phone: Option<string>, aadhaar: Option<string>)

  /** `hostApplicationSchema`. */
  function ValidateHostApplication(f: HostApplicationForm): (r: Option<SchemaError>)
    ensures r.None? <==>
      && f.fullName.Some? && 2 <= |f.fullName.value| <= 50
      && f.phone.Some? && AllDigits(f.phone.value, 10)
      && f.aadhaar.Some? && AllDigits(f.aadhaar.value, 12)
  {
    Then(BoundedString("fullName", f.fullName, 2, Some(50)),
    Then(DigitString("phone", f.phone, 10), DigitString("aadhaar", f.aadhaar, 12)))
  }

  // ---------------------------------------------------------------- the forms of the test suite

  /** The listing the test suite accepts. */
  lemma ValidListingAccepted()
    ensures ValidateListing(Some(ListingForm(
      Some("Test Hotel"), Some("A beautiful test hotel"), Some("Hotel"),
      Some(Many(["Free Wi-Fi", "Swimming Pool"])), Some(1000.0),
      Some("Test City, Test State"), Some("Test Country")))).None?
  {
  }

  /** The listing the test suite rejects: an empty title, and the first error is the title's. */
  lemma InvalidListingRejected()
    ensures ValidateListing(Some(ListingForm(Some(""), None, None, None, Some(-100.0), None, None)))
            == Some(Invalid("listing.title", "string.empty"))
  {
  }

  /** The review the test suite accepts. */
  lemma ValidReviewAccepted()
    ensures ValidateReview(Some(ReviewForm(Some(4.0), Some("Great place to stay!")))).None?
  {
  }

  /** The signup the test suite accepts, its address being well formed. */
  lemma ValidSignupAccepted()
    ensures ValidateSignup(SignupForm(Some("testuser"), Some("test@example.com"), Some("password123"), Some("password123")), true).None?
  {
  }
}

=== FILE: search_analytics.dfy ===
/**
 * The search-analytics counters (utils/searchAnalytics.js): total searches,
 * a count per normalised query, a bounded queue of queries without results
 * and a per-day trend record, with the getters over them.
 *
 * Days are integer day numbers and timestamps milliseconds, both passed in.
 * `popularQueries` keeps the object's entries in insertion order.
 */
module SearchAnalytics {
  import opened Common

  /** The no-results queue keeps at most this many entries. */
  const NO_RESULTS_CAP: nat := 100

  datatype QueryCount = QueryCount(query: string, count: nat)
  datatype NoResult = NoResult(query: string, timestamp: int, category: Option<string>, location: Option<string>)
  datatype Trend = Trend(count: nat, queries: seq<string>)

  const ZeroTrend: Trend := Trend(0, [])

  // ------------------------------------------------------------ popular queries

  /** The count recorded for `q`, or 0 when there is no entry. */
  function CountOf(p: seq<QueryCount>, q: string): nat {
    if p == [] then 0 else if p[0].query == q then p[0].count else CountOf(p[1..], q)
  }

  function Total(p: seq<QueryCount>): nat {
    if p == [] then 0 else p[0].count + Total(p[1..])
  }

  predicate HasKey(p: seq<QueryCount>, q: string) {
    exists i :: 0 <= i < |p| && p[i].query == q
  }

  /** An object has each key once. */
  predicate UniqueKeys(p: seq<QueryCount>) {
    forall i, j :: 0 <= i < j < |p| ==> p[i].query != p[j].query
  }

  /**
   * `popularQueries[q]` created at 0 when missing, then incremented: one more
   * for `q`, every other count the same, a new key goes at the end.
   */
  function Bump(p: seq<QueryCount>, q: string): seq<QueryCount> {
    if p == [] then [QueryCount(q, 1)]
    else if p[0].query == q then [p[0].(count := p[0].count + 1)] + p[1..]
    else [p[0]] + Bump(p[1..], q)
  }

  /** Bumping adds one to the count of `q` and to the total, and leaves every other count alone. */
  lemma {:induction false} BumpCounts(p: seq<QueryCount>, q: string)
    ensures CountOf(Bump(p, q), q) == CountOf(p, q) + 1
    ensures forall k :: k != q ==> CountOf(Bump(p, q), k) == CountOf(p, k)
    ensures Total(Bump(p, q)) == Total(p) + 1
  {
    if p != [] {
      var r := Bump(p, q);
      if p[0].query == q {
        assert r[1..] == p[1..];
      } else {
        BumpCounts(p[1..], q);
        assert r[0] == p[0] && r[1..] == Bump(p[1..], q);
      }
    }
  }

  /**
   * Bumping adds `q` to the keys, keeps them unique, and appends a new entry
   * with count 1 at the end when `q` had none.
   */
  lemma {:induction false} BumpKeys(p: seq<QueryCount>, q: string)
    ensures forall k :: HasKey(Bump(p, q), k) <==> HasKey(p, k) || k == q
    ensures UniqueKeys(p) ==> UniqueKeys(Bump(p, q))
    ensures !HasKey(p, q) ==> Bump(p, q) == p + [QueryCount(q, 1)]
  {
    if p == [] {
      assert HasKey([QueryCount(q, 1)], q) by {
        assert [QueryCount(q, 1)][0].query == q;
      }
    } else {
      assert p == [p[0]] + p[1..];
      HasKeyCons(p[0], p[1..]);
      if p[0].query == q {
        HasKeyCons(p[0].(count := p[0].count + 1), p[1..]);
      } else {
        var rest := Bump(p[1..], q);
        BumpKeys(p[1..], q);
        HasKeyCons(p[0], rest);
        UniqueKeysTail(p);
        UniqueKeysCons(p[0], rest);
      }
    }
  }

  lemma HasKeyCons(x: QueryCount, s: seq<QueryCount>)
    ensures forall k :: HasKey([x] + s, k) <==> x.query == k || HasKey(s, k)
  {
    forall k ensures HasKey([x] + s, k) <==> x.query == k || HasKey(s, k) {
      if HasKey(s, k) {
        var i :| 0 <= i < |s| && s[i].query == k;
        assert ([x] + s)[i + 1] == s[i];
      }
      if x.query == k {
        assert ([x] + s)[0] == x;
      }
      if HasKey([x] + s, k) && x.query != k {
        var i :| 0 <= i < |[x] + s| && ([x] + s)[i].query == k;
        assert s[i - 1] == ([x] + s)[i];
      }
    }
  }

  lemma UniqueKeysTail(p: seq<QueryCount>)
    requires p != []
    ensures UniqueKeys(p) ==> UniqueKeys(p[1..]) && !HasKey(p[1..], p[0].query)
  {
  }

  lemma UniqueKeysCons(x: QueryCount, s: seq<QueryCount>)
    ensures UniqueKeys(s) && !HasKey(s, x.query) ==> UniqueKeys([x] + s)
  {
    if UniqueKeys(s) && !HasKey(s, x.query) {
      var r := [x] + s;
      forall i, j | 0 <= i < j < |r| ensures r[i].query != r[j].query {
        if i == 0 {
          assert r[j] == s[j - 1];
        }
      }
    }
  }

  // ------------------------------------------------------------ stable sort by count

  predicate SortedByCount(s: seq<QueryCount>) {
    forall i, j :: 0 <= i < j < |s| ==> s[i].count >= s[j].count
  }

  /** Inserts `x` after every entry with a count at least as large: the stable place. */
  function InsertByCount(sorted: seq<QueryCount>, x: QueryCount): (r: seq<QueryCount>)
    ensures multiset(r) == multiset(sorted) + multiset{x}
    ensures |r| == |sorted| + 1
  {
    if sorted == [] then [x]
    else if sorted[0].count >= x.count then
      assert sorted == [sorted[0]] + sorted[1..];
      [sorted[0]] + InsertByCount(sorted[1..], x)
    else
      [x] + sorted
  }

  /** Inserting into a sorted sequence keeps it sorted. */
  lemma {:induction false} InsertKeepsSorted(sorted: seq<QueryCount>, x: QueryCount)
    requires SortedByCount(sorted)
    ensures SortedByCount(InsertByCount(sorted, x))
  {
    if sorted != [] && sorted[0].count >= x.count {
      var rest := InsertByCount(sorted[1..], x);
      InsertKeepsSorted(sorted[1..], x);
      var r := [sorted[0]] + rest;
      forall j | 0 < j < |r| ensures r[0].count >= r[j].count {
        assert r[j] == rest[j - 1];
        assert r[j] in multiset(rest);
        assert r[j] in sorted[1..] || r[j] == x;
      }
    }
  }

  /**
   * A prefix of a sorted list is sorted, holds elements of the list, and no
   * entry left out of it has a larger count than an entry kept.
   */
  lemma SortedPrefix(s: seq<QueryCount>, n: nat)
    requires n <= |s| && SortedByCount(s)
    ensures SortedByCount(s[..n])
    ensures multiset(s[..n]) <= multiset(s)
    ensures forall x, y :: x in multiset(s) - multiset(s[..n]) && y in s[..n] ==> x.count <= y.count
  {
    assert s == s[..n] + s[n..];
    assert multiset(s) == multiset(s[..n]) + multiset(s[n..]);
    forall x, y | x in multiset(s) - multiset(s[..n]) && y in s[..n]
      ensures x.count <= y.count
    {
      assert x in multiset(s[n..]);
      var m :| n <= m < |s| && s[m] == x;
      var i :| 0 <= i < n && s[i] == y;
    }
  }

  /** `sort(([, a], [, b]) => b - a)`: most counted first, ties in their original order. */
  function SortByCount(s: seq<QueryCount>): (r: seq<QueryCount>)
    ensures multiset(r) == multiset(s)
    ensures |r| == |s|
    ensures SortedByCount(r)
  {
    if s == [] then []
    else
      assert s == s[..|s| - 1] + [s[|s| - 1]];
      InsertKeepsSorted(SortByCount(s[..|s| - 1]), s[|s| - 1]);
      InsertByCount(SortByCount(s[..|s| - 1]), s[|s| - 1])
  }

  // ------------------------------------------------------------ the analytics object

  /**
   * The invariant of the analytics state: each query has one entry, the counts
   * add up to the number of searches, the queue is bounded, and each day's
   * count is the number of its queries.
   */
  ghost predicate AnalyticsInvariant(total: nat, popular: seq<QueryCount>, noResults: seq<NoResult>, trends: map<int, Trend>) {
    && UniqueKeys(popular)
    && Total(popular) == total
    && |noResults| <= NO_RESULTS_CAP
    && forall d :: d in trends ==> trends[d].count == |trends[d].queries|
  }

  /** Logging a query keeps the invariant, whether or not it joins the no-results queue. */
  lemma LogKeepsInvariant(total: nat, popular: seq<QueryCount>, noResults: seq<NoResult>, trends: map<int, Trend>,
                          q: string, today: int, entry: Option<NoResult>)
    requires AnalyticsInvariant(total, popular, noResults, trends)
    ensures AnalyticsInvariant(total + 1, Bump(popular, q),
                               if entry.Some? then KeepLast(noResults + [entry.value]) else noResults,
                               trends[today := TrendBump(trends, today, q)])
  {
    BumpCounts(popular, q);
    BumpKeys(popular, q);
    TrendBumpKeepsCounts(trends, today, q);
  }

  class Analytics {
    var totalSearches: nat
    var popularQueries: seq<QueryCount>
    var noResultsQueries: seq<NoResult>
    var searchTrends: map<int, Trend>

    /** Kept by every update. */
    ghost predicate Valid()
      reads this
    {
      AnalyticsInvariant(totalSearches, popularQueries, noResultsQueries, searchTrends)
    }

    /** The constructor's initial analytics: nothing recorded. */
    constructor ()
      ensures totalSearches == 0 && popularQueries == [] && noResultsQueries == [] && searchTrends == map[]
      ensures Valid()
    {
      totalSearches := 0;
      popularQueries := [];
      noResultsQueries := [];
      searchTrends := map[];
    }

    /**
     * `logSearch`. A missing or blank query changes nothing. Otherwise the
     * trimmed, lower-cased query is counted; with no results it joins the
     * queue, of which the last 100 entries are kept; and today's trend counts it.
     */
    method LogSearch(query: Option<string>, resultCount: int, category: Option<string>, location: Option<string>,
                     today: int, now: int)
      modifies this
      ensures Blank(query) ==> unchanged(this)
      ensures !Blank(query) ==>
        var q := Normalize(query.value);
        && totalSearches == old(totalSearches) + 1
        && popularQueries == Bump(old(popularQueries), q)
        && noResultsQueries == (if resultCount == 0
                                then KeepLast(old(noResultsQueries) + [NoResult(q, now, category, location)])
                                else old(noResultsQueries))
        && searchTrends == old(searchTrends)[today := TrendBump(old(searchTrends), today, q)]
      ensures old(Valid()) ==> Valid()
    {
      if Blank(query) {
        return;
      }
      var q := Normalize(query.value);
      var entry := if resultCount == 0 then Some(NoResult(q, now, category, location)) else None;
      assert Valid() ==> AnalyticsInvariant(totalSearches + 1, Bump(popularQueries, q),
                                            if entry.Some? then KeepLast(noResultsQueries + [entry.value]) else noResultsQueries,
                                            searchTrends[today := TrendBump(searchTrends, today, q)]) by {
        if Valid() {
          LogKeepsInvariant(totalSearches, popularQueries, noResultsQueries, searchTrends, q, today, entry);
        }
      }
      totalSearches := totalSearches + 1;
      popularQueries := Bump(popularQueries, q);
      if entry.Some? {
        noResultsQueries := KeepLast(noResultsQueries + [entry.value]);
      }
      searchTrends := searchTrends[today := TrendBump(searchTrends, today, q)];
    }

    /** `getPopularSearches(limit)`: the entries sorted by count, cut with `slice(0, limit)`. */
    function GetPopularSearches(limit: int): (r: seq<QueryCount>)
      reads this
      ensures limit >= 0 ==> |r| == if limit < |popularQueries| then limit else |popularQueries|
      ensures SortedByCount(r)
      ensures multiset(r) <= multiset(popularQueries)
      ensures forall x, y :: x in multiset(popularQueries) - multiset(r) && y in r ==> x.count <= y.count
    {
      var sorted := SortByCount(popularQueries);
      var r := Slice(sorted, 0, limit);
      SortedPrefix(sorted, |r|);
      r
    }

    /** `getNoResultsQueries(limit)` as written: `slice(-limit).reverse()`. */
    function GetNoResultsQueries(limit: int): (r: seq<NoResult>)
      reads this
      ensures limit > 0 ==> |r| == if limit < |noResultsQueries| then limit else |noResultsQueries|
      ensures limit > 0 ==> forall i :: 0 <= i < |r| ==> r[i] == noResultsQueries[|noResultsQueries| - 1 - i]
    {
      Reverse(Slice(noResultsQueries, -limit, |noResultsQueries|))
    }

    /**
     * `getSearchTrends(days)`: one entry for each of the `days` days ending
     * today, the recorded trend or a zero record.
     */
    method GetSearchTrends(days: int, today: int) returns (trends: map<int, Trend>)
      ensures forall d :: d in trends <==> today - days < d <= today
      ensures forall d :: d in trends ==> trends[d] == if d in searchTrends then searchTrends[d] else ZeroTrend
    {
      trends := map[];
      var i := 0;
      while i < days
        invariant 0 <= i <= if days > 0 then days else 0
        invariant forall d :: d in trends <==> today - i < d <= today
        invariant forall d :: d in trends ==> trends[d] == if d in searchTrends then searchTrends[d] else ZeroTrend
      {
        var date := today - i;
        trends := trends[date := if date in searchTrends then searchTrends[date] else ZeroTrend];
        i := i + 1;
      }
    }

    /**
     * `getSuggestions(query)`: at most five recorded queries related to the
     * lower-cased query, most popular first, none left out more popular.
     */
    function GetSuggestions(query: string): (r: seq<string>)
      reads this
      ensures r == TopRelated(popularQueries, Lower(query))
      ensures |r| <= 5
      ensures forall i :: 0 <= i < |r| ==> Related(r[i], Lower(query)) && HasKey(popularQueries, r[i])
      ensures Valid() ==> forall i, j :: 0 <= i < j < |r| ==> CountOf(popularQueries, r[i]) >= CountOf(popularQueries, r[j])
      ensures Valid() ==>
        forall k :: 0 <= k < |popularQueries| && Related(popularQueries[k].query, Lower(query)) && popularQueries[k].query !in r ==>
          |r| == 5 && forall i :: 0 <= i < |r| ==> CountOf(popularQueries, r[i]) >= popularQueries[k].count
    {
      var q := Lower(query);
      TopRelatedAreRelated(popularQueries, q);
      if UniqueKeys(popularQueries) then
        TopRelatedAreMostPopular(popularQueries, q);
        TopRelated(popularQueries, q)
      else
        TopRelated(popularQueries, q)
    }
  }

  /** The keys of a list of entries, in order. */
  function Queries(s: seq<QueryCount>): (r: seq<string>)
    ensures |r| == |s|
    ensures forall i :: 0 <= i < |s| ==> r[i] == s[i].query
  {
    seq(|s|, i requires 0 <= i < |s| => s[i].query)
  }

  /** The related entries, most popular first (ties in key order). */
  function RankedRelated(p: seq<QueryCount>, q: string): seq<QueryCount> {
    SortByCount(RelatedEntries(p, q))
  }

  /** The suggestions for the lower-cased query `q`: the first five related keys by popularity. */
  function TopRelated(p: seq<QueryCount>, q: string): (r: seq<string>)
    ensures |r| <= 5
  {
    Queries(Take(RankedRelated(p, q), 5))
  }

  // ------------------------------------------------------------ helpers of the class

  /** `!query || query.trim() === ""`. */
  predicate Blank(query: Option<string>) {
    query.None? || Trim(query.value) == []
  }

  /** `query.trim().toLowerCase()`. */
  function Normalize(query: string): (r: string)
    ensures |r| <= |query|
  {
    Lower(Trim(query))
  }

  /** `slice(-100)` once the queue is longer than 100: the newest 100 entries. */
  function KeepLast(s: seq<NoResult>): (r: seq<NoResult>)
    ensures |r| <= NO_RESULTS_CAP
    ensures |s| <= NO_RESULTS_CAP ==> r == s
    ensures |s| > NO_RESULTS_CAP ==> |r| == NO_RESULTS_CAP && s == s[..|s| - NO_RESULTS_CAP] + r
  {
    if |s| > NO_RESULTS_CAP then s[|s| - NO_RESULTS_CAP..] else s
  }

  /** Today's trend after one more search for `q`: created empty when missing, counted once, `q` appended. */
  function TrendBump(trends: map<int, Trend>, today: int, q: string): (t: Trend)
    ensures var before := if today in trends then trends[today] else ZeroTrend;
            t.count == before.count + 1 && t.queries == before.queries + [q]
  {
    var before := if today in trends then trends[today] else ZeroTrend;
    Trend(before.count + 1, before.queries + [q])
  }

  /** Counting one more search for today keeps every day's count equal to its number of queries. */
  lemma TrendBumpKeepsCounts(trends: map<int, Trend>, today: int, q: string)
    ensures (forall d :: d in trends ==> trends[d].count == |trends[d].queries|) ==>
              var after := trends[today := TrendBump(trends, today, q)];
              forall d :: d in after ==> after[d].count == |after[d].queries|
  {
  }

  /** `popularQuery.includes(q) || q.includes(popularQuery)`. */
  predicate Related(popularQuery: string, q: string) {
    Contains(popularQuery, q) || Contains(q, popularQuery)
  }

  /** The entries of `p` whose key is related to `q`, in key order. */
  function RelatedEntries(p: seq<QueryCount>, q: string): (r: seq<QueryCount>)
    ensures forall x :: x in r <==> x in p && Related(x.query, q)
  {
    if p == [] then []
    else
      var rest := RelatedEntries(p[1..], q);
      assert forall x :: x in p <==> x == p[0] || x in p[1..];
      if Related(p[0].query, q) then [p[0]] + rest else rest
  }

  // ------------------------------------------------------------ properties

  /** A second log of the same query adds two to its count and two to the total. */
  lemma LogTwiceCountsTwice(p: seq<QueryCount>, q: string)
    ensures CountOf(Bump(Bump(p, q), q), q) == CountOf(p, q) + 2
    ensures Total(Bump(Bump(p, q), q)) == Total(p) + 2
  {
    BumpCounts(p, q);
    BumpCounts(Bump(p, q), q);
  }

  /** The queue's newest entry is always the last query that found nothing. */
  lemma KeepLastKeepsNewest(s: seq<NoResult>, e: NoResult)
    ensures var r := KeepLast(s + [e]); |r| > 0 && r[|r| - 1] == e
  {
  }

  /** Asked for more than are recorded, the popular searches are all the entries, reordered. */
  lemma PopularSearchesArePermutation(p: seq<QueryCount>, limit: int)
    requires limit >= |p|
    ensures multiset(Slice(SortByCount(p), 0, limit)) == multiset(p)
  {
    assert Slice(SortByCount(p), 0, limit) == SortByCount(p);
  }

  /** As written, a limit of 0 gives every entry, not none: `slice(-0)` is `slice(0)`. */
  lemma NoResultsLimitZeroReturnsAll(a: Analytics)
    ensures a.GetNoResultsQueries(0) == Reverse(a.noResultsQueries)
    ensures |a.GetNoResultsQueries(0)| == |a.noResultsQueries|
  {
    assert Slice(a.noResultsQueries, -0, |a.noResultsQueries|) == a.noResultsQueries;
  }

  /** The newest `limit` queries without results, newest first; none for a limit of 0 or less. */
  function NewestNoResults(s: seq<NoResult>, limit: int): (r: seq<NoResult>)
    ensures |r| == if limit <= 0 then 0 else if limit < |s| then limit else |s|
    ensures forall i :: 0 <= i < |r| ==> r[i] == s[|s| - 1 - i]
  {
    if limit <= 0 then [] else Reverse(Slice(s, -limit, |s|))
  }

  /** For every positive limit the intended getter and the written one agree. */
  lemma NewestNoResultsAgreesForPositiveLimits(a: Analytics, limit: int)
    requires limit > 0
    ensures NewestNoResults(a.noResultsQueries, limit) == a.GetNoResultsQueries(limit)
  {
  }

  /** In a popularity object each entry holds the count of its key. */
  lemma {:induction false} CountOfEntry(p: seq<QueryCount>, x: QueryCount)
    requires UniqueKeys(p) && x in p
    ensures CountOf(p, x.query) == x.count
  {
    if p[0] != x {
      UniqueKeysTail(p);
      CountOfEntry(p[1..], x);
      assert p[0].query != x.query by {
        var k :| 1 <= k < |p| && p[k] == x;
      }
    }
  }

  /** Each ranked entry is an entry of `p` related to `q`. */
  lemma RankedMember(p: seq<QueryCount>, q: string, i: nat)
    requires i < |RankedRelated(p, q)|
    ensures RankedRelated(p, q)[i] in p && Related(RankedRelated(p, q)[i].query, q)
  {
    var ranked := RankedRelated(p, q);
    assert ranked[i] in multiset(ranked);
  }

  /** Every suggestion is a popular query that contains `q` or is contained in it. */
  lemma TopRelatedAreRelated(p: seq<QueryCount>, q: string)
    ensures var r := TopRelated(p, q);
            forall i :: 0 <= i < |r| ==> Related(r[i], q) && HasKey(p, r[i])
  {
    var ranked := RankedRelated(p, q);
    var r := TopRelated(p, q);
    forall i | 0 <= i < |r| ensures Related(r[i], q) && HasKey(p, r[i]) {
      RankedMember(p, q, i);
      var k :| 0 <= k < |p| && p[k] == ranked[i];
    }
  }

  /** Each suggestion is the key of the ranked entry at its position, and its count is that entry's. */
  lemma TopRelatedCounts(p: seq<QueryCount>, q: string)
    requires UniqueKeys(p)
    ensures var r := TopRelated(p, q);
            var ranked := RankedRelated(p, q);
            && |r| == (if |ranked| < 5 then |ranked| else 5)
            && forall i :: 0 <= i < |r| ==> r[i] == ranked[i].query && CountOf(p, r[i]) == ranked[i].count
  {
    var ranked := RankedRelated(p, q);
    var r := TopRelated(p, q);
    forall i | 0 <= i < |r| ensures CountOf(p, r[i]) == ranked[i].count {
      RankedMember(p, q, i);
      CountOfEntry(p, ranked[i]);
    }
  }

  /** A related entry whose key is not suggested is ranked after the suggestions. */
  lemma LeftOutRankedLater(p: seq<QueryCount>, q: string, k: nat)
    requires UniqueKeys(p)
    requires k < |p| && Related(p[k].query, q) && p[k].query !in TopRelated(p, q)
    ensures exists m :: |TopRelated(p, q)| <= m < |RankedRelated(p, q)| && RankedRelated(p, q)[m] == p[k]
  {
    var ranked := RankedRelated(p, q);
    var r := TopRelated(p, q);
    TopRelatedCounts(p, q);
    assert p[k] in RelatedEntries(p, q);
    assert p[k] in multiset(ranked);
    var m :| 0 <= m < |ranked| && ranked[m] == p[k];
    assert m >= |r| by {
      assert forall i :: 0 <= i < |r| ==> r[i] == ranked[i].query;
    }
  }

  /**
   * The suggestions are the most popular related queries: in order of
   * decreasing count, and a related query left out has a count no larger than
   * any of the five shown.
   */
  lemma TopRelatedAreMostPopular(p: seq<QueryCount>, q: string)
    requires UniqueKeys(p)
    ensures var r := TopRelated(p, q);
            forall i, j :: 0 <= i < j < |r| ==> CountOf(p, r[i]) >= CountOf(p, r[j])
    ensures var r := TopRelated(p, q);
            forall k :: 0 <= k < |p| && Related(p[k].query, q) && p[k].query !in r ==>
              |r| == 5 && forall i :: 0 <= i < |r| ==> CountOf(p, r[i]) >= p[k].count
  {
    var ranked := RankedRelated(p, q);
    var r := TopRelated(p, q);
    TopRelatedCounts(p, q);
    forall k | 0 <= k < |p| && Related(p[k].query, q) && p[k].query !in r
      ensures |r| == 5 && forall i :: 0 <= i < |r| ==> CountOf(p, r[i]) >= p[k].count
    {
      LeftOutRankedLater(p, q, k);
      var m :| |r| <= m < |ranked| && ranked[m] == p[k];
    }
  }
}

=== FILE: search_route.dfy ===
/**
 * The `/api/search` and `/api/search/suggestions` routes (routes/search.js):
 * how the query parameters become a filter and a sort order, the pagination
 * arithmetic, the minimum-rating filter and the merge of suggestions.
 *
 * A string parameter is `None` when absent; the empty string is kept, since
 * it is falsy. A price parameter is `Some(n)` when it was a non-empty string
 * and `n` is what `parseInt` made of it. The database answers (the page of
 * listings, the count, the `distinct` lists) are parameters.
 */
module SearchRoute {
  import opened Common
  import Review

  // ------------------------------------------------------------ filter

  datatype Filter = Filter(
    text: Option<string>,
    category: Option<string>,
    priceMin: Option<int>,
    priceMax: Option<int>,
    location: Option<string>,
    country: Option<string>,
    facilities: Option<seq<string>>)

  /**
   * The filter, built field by field: text search on the trimmed query when it
   * is not blank; the category unless it is "all"; each price bound that was
   * given; location and country as case-insensitive patterns of their trimmed
   * values; the facilities list as given. A single form value reaches the
   * handler wrapped in a list of one, and an empty one as `None`.
   */
  method BuildFilter(q: Option<string>, category: Option<string>, minPrice: Option<int>, maxPrice: Option<int>,
                     location: Option<string>, country: Option<string>, facilities: Option<seq<string>>)
    returns (filter: Filter)
    ensures filter.text.Some? <==> Truthy(q) && Trim(q.value) != []
    ensures filter.text.Some? ==> filter.text.value == Trim(q.value)
    ensures filter.category.Some? <==> Truthy(category) && category.value != "all"
    ensures filter.category.Some? ==> filter.category == category
    ensures filter.priceMin == minPrice && filter.priceMax == maxPrice
    ensures filter.location.Some? <==> Truthy(location)
    ensures filter.location.Some? ==> filter.location.value == Trim(location.value)
    ensures filter.country.Some? <==> Truthy(country)
    ensures filter.country.Some? ==> filter.country.value == Trim(country.value)
    ensures filter.facilities == facilities
  {
    var text, cat, priceMin, priceMax, loc, ctry, fac := None, None, None, None, None, None, None;
    if Truthy(q) && Trim(q.value) != [] {
      text := Some(Trim(q.value));
    }
    assert text.Some? <==> Truthy(q) && Trim(q.value) != [];
    if Truthy(category) && category.value != "all" {
      cat := category;
    }
    assert cat.Some? <==> Truthy(category) && category.value != "all";
    if minPrice.Some? || maxPrice.Some? {
      if minPrice.Some? {
        priceMin := minPrice;
      }
      if maxPrice.Some? {
        priceMax := maxPrice;
      }
    }
    if Truthy(location) {
      loc := Some(Trim(location.value));
    }
    assert loc.Some? <==> Truthy(location);
    if Truthy(country) {
      ctry := Some(Trim(country.value));
    }
    assert ctry.Some? <==> Truthy(country);
    if facilities.Some? {
      fac := facilities;
    }
    filter := Filter(text, cat, priceMin, priceMax, loc, ctry, fac);
  }

  // ------------------------------------------------------------ sort

  /** One key of the sort object, in the object's key order. */
  datatype SortKey = TextScore | Price(direction: int) | Newest

  /**
   * The sort object: relevance first when there is a text query, then price
   * ascending or descending, or `_id` descending for "newest" and, without a
   * text query, for anything else.
   */
  method BuildSort(q: Option<string>, sortBy: Option<string>) returns (sort: seq<SortKey>)
    ensures sortBy == Some("price_low") ==> sort == TextFirst(q) + [Price(1)]
    ensures sortBy == Some("price_high") ==> sort == TextFirst(q) + [Price(-1)]
    ensures sortBy == Some("newest") ==> sort == TextFirst(q) + [Newest]
    ensures sortBy != Some("price_low") && sortBy != Some("price_high") && sortBy != Some("newest") ==>
              sort == if TextFirst(q) == [] then [Newest] else TextFirst(q)
    ensures |sort| >= 1
  {
    sort := [];
    var hasText := Truthy(q) && Trim(q.value) != [];
    if hasText {
      sort := sort + [TextScore];
    }
    assert sort == TextFirst(q);
    if sortBy == Some("price_low") {
      sort := sort + [Price(1)];
    } else if sortBy == Some("price_high") {
      sort := sort + [Price(-1)];
    } else if sortBy == Some("newest") {
      sort := sort + [Newest];
    } else if sort == [] {
      sort := sort + [Newest];
    }
  }

  /** The relevance key that leads the sort exactly when there is a text query. */
  function TextFirst(q: Option<string>): (keys: seq<SortKey>)
    ensures keys == [TextScore] <==> Truthy(q) && Trim(q.value) != []
    ensures keys == [] <==> !(Truthy(q) && Trim(q.value) != [])
  {
    if Truthy(q) && Trim(q.value) != [] then [TextScore] else []
  }

  // ------------------------------------------------------------ pagination

  /** A JavaScript number as `Math.ceil(total / limit)` can produce it. */
  datatype PageCount = Finite(pages: int) | Infinity | NaN

  /** `Math.ceil(totalCount / limitNum)`: a division by zero gives Infinity, or NaN for 0 / 0. */
  function TotalPages(total: nat, limit: int): (p: PageCount)
    ensures limit != 0 ==> p.Finite?
    ensures limit > 0 ==> p.pages >= 0 && (p.pages - 1) * limit < total <= p.pages * limit
    ensures limit == 0 ==> p == if total == 0 then NaN else Infinity
  {
    if limit == 0 then (if total == 0 then NaN else Infinity)
    else
      CeilDivBounds(total, limit);
      Finite(Ceil(total as real / limit as real))
  }

  lemma CeilDivBounds(total: nat, limit: int)
    requires limit != 0
    ensures var p := Ceil(total as real / limit as real);
            limit > 0 ==> p >= 0 && (p - 1) * limit < total <= p * limit
  {
    if limit > 0 {
      var p := Ceil(total as real / limit as real);
      QuotientBounds(total as real, limit as real, (p - 1) as real, p as real);
      MulAsReal(p - 1, limit);
      MulAsReal(p, limit);
    }
  }

  /** A quotient strictly above `a` and at most `b` puts the dividend between `a * l` and `b * l`. */
  lemma QuotientBounds(t: real, l: real, a: real, b: real)
    requires l > 0.0 && a < t / l <= b
    ensures a * l < t <= b * l
  {
    var x := t / l;
    assert x * l == t;
    assert (x - a) * l > 0.0 by {
      PositiveProduct(x - a, l);
    }
    assert (b - x) * l >= 0.0 by {
      NonNegativeProduct(b - x, l);
    }
  }

  lemma PositiveProduct(a: real, b: real)
    requires a > 0.0 && b > 0.0
    ensures a * b > 0.0
  {
  }

  lemma NonNegativeProduct(a: real, b: real)
    requires a >= 0.0 && b > 0.0
    ensures a * b >= 0.0
  {
  }

  /** Multiplying integers and then converting agrees with converting and then multiplying. */
  lemma {:induction false} MulAsReal(a: int, b: nat)
    ensures (a * b) as real == a as real * b as real
  {
    if b > 0 {
      MulAsReal(a, b - 1);
      assert a * b == a * (b - 1) + a;
      assert a as real * b as real == a as real * (b - 1) as real + a as real;
    }
  }

  /** `pageNum < totalPages`: Infinity is above every page, NaN compares false. */
  predicate Below(page: int, p: PageCount) {
    match p
    case Finite(n) => page < n
    case Infinity => true
    case NaN => false
  }

  datatype Pagination = Pagination(skip: int, totalPages: PageCount, hasNext: bool, hasPrev: bool)

  /** The pagination block of the answer. */
  function Paginate(total: nat, page: int, limit: int): (r: Pagination)
    ensures r.skip == (page - 1) * limit
    ensures r.totalPages == TotalPages(total, limit)
    ensures r.hasNext <==> Below(page, TotalPages(total, limit))
    ensures r.hasPrev <==> page > 1
  {
    var pages := TotalPages(total, limit);
    Pagination((page - 1) * limit, pages, Below(page, pages), page > 1)
  }

  /** With a positive page size there is a next page exactly when this page does not reach the last item. */
  lemma HasNextIffMoreItems(total: nat, page: int, limit: int)
    requires limit > 0
    ensures Paginate(total, page, limit).hasNext <==> page * limit < total
  {
    var p := TotalPages(total, limit).pages;
    if page < p {
      assert page <= p - 1;
      assert page * limit <= (p - 1) * limit;
    } else {
      assert p * limit <= page * limit;
    }
  }

  /** A page past the end starts at or after the last item, and the first page has no previous one. */
  lemma SkipPastEnd(total: nat, page: int, limit: int)
    requires limit > 0 && page >= 1
    ensures !Paginate(total, page, limit).hasNext ==> Paginate(total, page, limit).skip + limit >= total
    ensures Paginate(total, 1, limit).skip == 0 && !Paginate(total, 1, limit).hasPrev
  {
    HasNextIffMoreItems(total, page, limit);
  }

  // ------------------------------------------------------------ minimum rating

  /** A listing of the page: its id and the ratings of its reviews. */
  datatype Hit = Hit(id: nat, ratings: seq<real>)
  datatype Processed = Processed(id: nat, avgRating: real, reviewCount: nat)

  function AvgOf(h: Hit): real {
    Review.GetAvgRating(Some(h.ratings))
  }

  /**
   * The processed page: each listing with its average rating, dropping those
   * below `minRating` when one is set (`None` also stands for a value that
   * does not parse, which never drops anything).
   */
  function ProcessHits(hits: seq<Hit>, minRating: Option<real>): (r: seq<Processed>)
    ensures |r| <= |hits|
    ensures minRating.None? ==> |r| == |hits|
    ensures forall k :: 0 <= k < |r| ==> exists i :: 0 <= i < |hits| && r[k] == Processed(hits[i].id, AvgOf(hits[i]), |hits[i].ratings|)
    ensures minRating.Some? ==> forall k :: 0 <= k < |r| ==> r[k].avgRating >= minRating.value
    ensures forall i :: 0 <= i < |hits| && (minRating.None? || AvgOf(hits[i]) >= minRating.value) ==>
              Processed(hits[i].id, AvgOf(hits[i]), |hits[i].ratings|) in r
  {
    if hits == [] then []
    else
      var init := ProcessHits(hits[..|hits| - 1], minRating);
      var h := hits[|hits| - 1];
      assert forall i :: 0 <= i < |hits| - 1 ==> hits[..|hits| - 1][i] == hits[i];
      if minRating.Some? && AvgOf(h) < minRating.value then init
      else init + [Processed(h.id, AvgOf(h), |h.ratings|)]
  }

  /** What one hit contributes to the processed list: its result, unless it is filtered out. */
  function ProcessOne(h: Hit, minRating: Option<real>): seq<Processed> {
    if minRating.Some? && AvgOf(h) < minRating.value then [] else [Processed(h.id, AvgOf(h), |h.ratings|)]
  }

  /** The hits' contributions concatenated in the order of the hits. */
  function ProcessEach(hits: seq<Hit>, minRating: Option<real>): seq<Processed> {
    if hits == [] then [] else ProcessEach(hits[..|hits| - 1], minRating) + ProcessOne(hits[|hits| - 1], minRating)
  }

  /** `ProcessHits` is each hit's contribution, in the order of the hits. */
  lemma {:induction false} ProcessHitsIsProcessEach(hits: seq<Hit>, minRating: Option<real>)
    ensures ProcessHits(hits, minRating) == ProcessEach(hits, minRating)
  {
    if hits != [] {
      ProcessHitsIsProcessEach(hits[..|hits| - 1], minRating);
    }
  }

  lemma {:induction false} ProcessEachAppend(a: seq<Hit>, b: seq<Hit>, minRating: Option<real>)
    ensures ProcessEach(a + b, minRating) == ProcessEach(a, minRating) + ProcessEach(b, minRating)
  {
    if b != [] {
      var b' := b[..|b| - 1];
      ProcessEachAppend(a, b', minRating);
      assert (a + b)[..|a + b| - 1] == a + b';
    } else {
      assert a + b == a;
    }
  }

  /** Processing distributes over concatenation: the survivors keep the order of the hits. */
  lemma ProcessHitsAppend(a: seq<Hit>, b: seq<Hit>, minRating: Option<real>)
    ensures ProcessHits(a + b, minRating) == ProcessHits(a, minRating) + ProcessHits(b, minRating)
  {
    ProcessHitsIsProcessEach(a + b, minRating);
    ProcessHitsIsProcessEach(a, minRating);
    ProcessHitsIsProcessEach(b, minRating);
    ProcessEachAppend(a, b, minRating);
  }

  // ------------------------------------------------------------ suggestions

  /** `[...new Set(s)]`: each value once, in the order of first occurrence. */
  function Dedup(s: seq<string>): (r: seq<string>)
    ensures NoDuplicates(r)
    ensures forall x :: x in r <==> x in s
    ensures InFirstOccurrenceOrder(r, s)
    ensures |r| <= |s|
  {
    if s == [] then []
    else
      var init := Dedup(s[..|s| - 1]);
      var last := s[|s| - 1];
      assert s == s[..|s| - 1] + [last];
      if last in init then
        InOrderExtends(init, s[..|s| - 1], [last]);
        init
      else
        InOrderAppendNew(init, s[..|s| - 1], last);
        init + [last]
  }

  /** `suggestion.toLowerCase().includes(query.toLowerCase())`, kept in order. */
  function FilterContaining(s: seq<string>, query: string): (r: seq<string>)
    ensures forall x :: x in r <==> x in s && Contains(Lower(x), Lower(query))
    ensures NoDuplicates(s) ==> NoDuplicates(r) && InFirstOccurrenceOrder(r, s)
    ensures |r| <= |s|
  {
    if s == [] then []
    else
      var init := FilterContaining(s[..|s| - 1], query);
      var last := s[|s| - 1];
      assert s == s[..|s| - 1] + [last];
      assert NoDuplicates(s) ==> NoDuplicates(s[..|s| - 1]) && last !in s[..|s| - 1];
      if Contains(Lower(last), Lower(query)) then
        assert NoDuplicates(s) ==> InFirstOccurrenceOrder(init + [last], s) by {
          if NoDuplicates(s) {
            InOrderAppendNew(init, s[..|s| - 1], last);
          }
        }
        init + [last]
      else
        assert NoDuplicates(s) ==> InFirstOccurrenceOrder(init, s) by {
          if NoDuplicates(s) {
            InOrderExtends(init, s[..|s| - 1], [last]);
          }
        }
        init
  }

  /** The filter distributes over concatenation: it keeps each part's matches, in order. */
  lemma {:induction false} FilterContainingAppend(a: seq<string>, b: seq<string>, query: string)
    ensures FilterContaining(a + b, query) == FilterContaining(a, query) + FilterContaining(b, query)
  {
    if b != [] {
      var b' := b[..|b| - 1];
      FilterContainingAppend(a, b', query);
      assert (a + b)[..|a + b| - 1] == a + b';
    } else {
      assert a + b == a;
    }
  }

  /** The candidates, in order: three titles, three locations, two countries, two facilities. */
  function Candidates(titles: seq<string>, locations: seq<string>, countries: seq<string>, facilities: seq<string>): (c: seq<string>)
    ensures |c| <= 10
  {
    Take(titles, 3) + Take(locations, 3) + Take(countries, 2) + Take(facilities, 2)
  }

  /**
   * `/api/search/suggestions`. Nothing for a missing query or one shorter than
   * two characters once trimmed, nor when the lookups fail (`lookupFailed`,
   * which includes a query that is not a valid regular expression); otherwise
   * the distinct candidates containing the trimmed query, at most eight.
   */
  function Suggestions(q: Option<string>, lookupFailed: bool, titles: seq<string>, locations: seq<string>,
                       countries: seq<string>, facilities: seq<string>): (r: seq<string>)
    ensures !Truthy(q) || |Trim(q.value)| < 2 || lookupFailed ==> r == []
    ensures |r| <= 8
    ensures NoDuplicates(r)
    ensures r != [] ==> forall x :: x in r ==>
              x in Candidates(titles, locations, countries, facilities) && Contains(Lower(x), Lower(Trim(q.value)))
    ensures Truthy(q) && |Trim(q.value)| >= 2 && !lookupFailed ==>
              var c := Candidates(titles, locations, countries, facilities);
              && InFirstOccurrenceOrder(r, c)
              && forall x :: x in c && Contains(Lower(x), Lower(Trim(q.value))) && x !in r ==>
                   |r| == 8 && forall i :: 0 <= i < |r| ==> IndexOf(c, r[i]) < IndexOf(c, x)
  {
    if !Truthy(q) || |Trim(q.value)| < 2 || lookupFailed then []
    else
      var query := Trim(q.value);
      var c := Candidates(titles, locations, countries, facilities);
      var kept := FilterContaining(Dedup(c), query);
      TakeKeepsDistinct(kept, 8);
      FirstMatches(c, query);
      Take(kept, 8)
  }

  /**
   * The suggestions are the first eight distinct candidates that contain the
   * query, in the order the candidates first list them: a matching candidate
   * left out comes after all eight.
   */
  lemma FirstMatches(c: seq<string>, query: string)
    ensures var r := Take(FilterContaining(Dedup(c), query), 8);
            && InFirstOccurrenceOrder(r, c)
            && forall x :: x in c && Contains(Lower(x), Lower(query)) && x !in r ==>
                 |r| == 8 && forall i :: 0 <= i < |r| ==> IndexOf(c, r[i]) < IndexOf(c, x)
  {
    var d := Dedup(c);
    var kept := FilterContaining(d, query);
    InOrderCompose(kept, d, c);
    PrefixComesFirst(kept, c, 8);
  }

  /** A prefix of a list in first-occurrence order keeps the order, and what it leaves out comes later. */
  lemma PrefixComesFirst(s: seq<string>, c: seq<string>, n: nat)
    requires InFirstOccurrenceOrder(s, c)
    ensures InFirstOccurrenceOrder(Take(s, n), c)
    ensures forall x :: x in s && x !in Take(s, n) ==>
              |Take(s, n)| == n && forall i :: 0 <= i < |Take(s, n)| ==> IndexOf(c, Take(s, n)[i]) < IndexOf(c, x)
  {
    var r := Take(s, n);
    assert forall i :: 0 <= i < |r| ==> r[i] == s[i];
    forall x | x in s && x !in r
      ensures |r| == n && forall i :: 0 <= i < |r| ==> IndexOf(c, r[i]) < IndexOf(c, x)
    {
      var m := IndexOf(s, x);
      assert m >= |r|;
    }
  }

  /** A prefix holds only values of the list, and no duplicate when the list has none. */
  lemma TakeKeepsDistinct(s: seq<string>, n: nat)
    ensures forall x :: x in Take(s, n) ==> x in s
    ensures NoDuplicates(s) ==> NoDuplicates(Take(s, n))
  {
    var r := Take(s, n);
    assert forall i :: 0 <= i < |r| ==> r[i] == s[i];
  }

  /** A value repeated across the lists is suggested once, at its first place. */
  lemma DedupKeepsFirst(s: seq<string>, x: string)
    requires x in s
    ensures Dedup(s + [x]) == Dedup(s)
  {
    assert (s + [x])[..|s + [x]| - 1] == s;
  }
}

=== FILE: search_synonyms.dfy ===
/**
 * Query expansion with synonyms (utils/searchSynonyms.js): for every key of
 * the table, in table order, that occurs as a whole word in the lower-cased
 * query, the key's synonyms are appended to the query.
 */
module SearchSynonyms {
  import opened Common

  datatype Entry = Entry(key: string, synonyms: seq<string>)

  /** The `synonyms` table, in its key order. */
  const Table: seq<Entry> := [
    Entry("wifi", ["wi-fi", "internet", "wireless", "broadband"]),
    Entry("pool", ["swimming pool", "pool area", "swimming"]),
    Entry("ac", ["air conditioning", "air conditioner", "cooling", "a/c"]),
    Entry("cheap", ["budget", "affordable", "inexpensive", "economical"]),
    Entry("luxury", ["premium", "deluxe", "5-star", "upscale", "high-end"]),
    Entry("beach", ["seaside", "coastal", "oceanfront", "beachfront"]),
    Entry("mountain", ["hills", "highland", "mountainous", "hill station"]),
    Entry("city", ["urban", "downtown", "metropolitan"]),
    Entry("parking", ["car park", "parking lot", "parking space"]),
    Entry("gym", ["fitness", "fitness center", "workout", "exercise"]),
    Entry("breakfast", ["morning meal", "complimentary breakfast"]),
    Entry("pet", ["pet-friendly", "pets allowed", "dog-friendly"]),
    Entry("spa", ["wellness", "massage", "relaxation"]),
    Entry("garden", ["lawn", "outdoor space", "green area"]),
    Entry("terrace", ["balcony", "rooftop", "deck"])
  ]

  /** `words.join(sep)`. */
  function Join(words: seq<string>, sep: string): (r: string)
    ensures words != [] && words[0] != [] ==> r != []
  {
    if words == [] then []
    else if |words| == 1 then words[0]
    else
      var init := Join(words[..|words| - 1], sep);
      assert words[..|words| - 1][0] == words[0];
      init + sep + words[|words| - 1]
  }

  /**
   * `/\bkey\b/` matches at position `i`: the key is there, and neither the
   * character before nor the one after is a word character.
   */
  predicate WholeWordAt(s: string, key: string, i: nat) {
    && i + |key| <= |s|
    && IsPrefix(key, s[i..])
    && (i == 0 || !IsWordChar(s[i - 1]))
    && (i + |key| == |s| || !IsWordChar(s[i + |key|]))
  }

  /** `new RegExp("\\b" + key + "\\b", "i").test(s)` for a lower-case key on a lower-cased `s`. */
  predicate ContainsWord(s: string, key: string) {
    exists i: nat :: i <= |s| && WholeWordAt(s, key, i)
  }

  /** The text one table entry appends: a space, then its synonyms joined by spaces. */
  function Addition(e: Entry): string {
    " " + Join(e.synonyms, " ")
  }

  lemma AdditionNonEmpty(e: Entry)
    ensures |Addition(e)| > 0
  {
  }

  /** What the first `n` entries of the table append for the lower-cased query `lower`. */
  function Expansion(lower: string, n: nat): (r: string)
    requires n <= |Table|
  {
    if n == 0 then []
    else Expansion(lower, n - 1) + (if ContainsWord(lower, Table[n - 1].key) then Addition(Table[n - 1]) else [])
  }

  /**
   * `expandQuery`. A falsy query (missing or empty) is returned as it is;
   * otherwise each matching key's synonyms are appended in table order. Keys
   * are tested against the lower-cased original, never against what has
   * been appended.
   */
  method ExpandQuery(query: Option<string>) returns (r: Option<string>)
    ensures query.None? || query.value == [] ==> r == query
    ensures query.Some? && query.value != [] ==> r == Some(query.value + Expansion(Lower(query.value), |Table|))
  {
    if query.None? || query.value == [] {
      return query;
    }
    var expanded := query.value;
    var lowerQuery := Lower(query.value);
    for k := 0 to |Table|
      invariant expanded == query.value + Expansion(lowerQuery, k)
    {
      if ContainsWord(lowerQuery, Table[k].key) {
        expanded := expanded + Addition(Table[k]);
      }
    }
    r := Some(expanded);
  }

  /** Nothing is appended exactly when no key occurs as a whole word. */
  lemma {:induction false} ExpansionEmptyIffNoKey(lower: string, n: nat)
    requires n <= |Table|
    ensures Expansion(lower, n) == [] <==> forall k :: 0 <= k < n ==> !ContainsWord(lower, Table[k].key)
  {
    if n > 0 {
      ExpansionEmptyIffNoKey(lower, n - 1);
      AdditionNonEmpty(Table[n - 1]);
    }
  }

  /** The expanded query starts with the original, and equals it when no key matches. */
  lemma ExpandedStartsWithQuery(query: string)
    ensures IsPrefix(query, query + Expansion(Lower(query), |Table|))
    ensures (forall k :: 0 <= k < |Table| ==> !ContainsWord(Lower(query), Table[k].key)) ==>
              query + Expansion(Lower(query), |Table|) == query
  {
    ExpansionEmptyIffNoKey(Lower(query), |Table|);
    assert (query + Expansion(Lower(query), |Table|))[..|query|] == query;
  }

  /** A key inside a longer word does not match: "cheapest" does not expand "cheap". */
  lemma PartialWordDoesNotMatch()
    ensures !ContainsWord("cheapest", "cheap")
  {
    forall i: nat ensures !WholeWordAt("cheapest", "cheap", i) {
      if i == 0 {
        assert IsWordChar("cheapest"[5]);
      } else if i + 5 <= 8 {
        assert !IsPrefix("cheap", "cheapest"[i..]) by {
          assert "cheapest"[i..][0] != 'c';
        }
      }
    }
  }

  /** A whole-word key matches wherever it stands between non-word characters. */
  lemma KeyBetweenSpacesMatches(before: string, key: string, after: string)
    requires key != []
    ensures ContainsWord(before + " " + key + " " + after, key)
  {
    var s := before + " " + key + " " + after;
    var i := |before| + 1;
    assert s[i..][..|key|] == key;
    assert s[i - 1] == ' ' && s[i + |key|] == ' ';
    assert WholeWordAt(s, key, i);
  }
}

=== FILE: user_controller.dfy ===
/**
 * Account guards and the password-reset code (controllers/user.js): `signup`
 * and `update` refusals, `getCode`'s one-minute rate limit and code issue, and
 * `forgot`'s code check. The database lookups (`findOne` by username and
 * email, by email) are parameters: the record found, or whether one exists.
 * `authenticate` is modelled as equality with the stored credential.
 */
module UserController {
  import opened Common
  import opened UserModel
  import Middleware
  import JwtHelper

  /** How long a reset code lives: ten minutes, in milliseconds. */
  const CODE_LIFETIME_MS: int := 10 * 60 * 1000
  /** The rate limit between two codes: one minute, in milliseconds. */
  const RESEND_MS: int := 60 * 1000

  // ------------------------------------------------------------ signup and update

  datatype SignupReply = PasswordMismatch | EmailExists | Registered(redirect: string)

  /** Where a new user is sent: the stored return URL when truthy, else /listings. */
  function AfterSignup(session: Option<string>): (path: string)
    ensures Middleware.Stored(session) ==> path == session.value
    ensures !Middleware.Stored(session) ==> path == "/listings"
  {
    if Middleware.Stored(session) then session.value else "/listings"
  }

  /**
   * `signup`: a password/confirm mismatch or a used email creates nothing;
   * otherwise a new user with the schema defaults is created.
   */
  method Signup(id: UserId, username: string, email: string, password: string, confirm: string,
                emailTaken: bool, session: Option<string>) returns (reply: SignupReply, user: UserAccount?)
    ensures password != confirm ==> reply == PasswordMismatch && user == null
    ensures password == confirm && emailTaken ==> reply == EmailExists && user == null
    ensures password == confirm && !emailTaken ==> reply == Registered(AfterSignup(session)) && user != null
    ensures user != null ==> fresh(user) && user.id == id && user.email == email && user.username == username
    ensures user != null ==> user.password == password && user.role == User && user.host == DefaultHost && user.wishlist == []
    ensures user != null ==> user.isEmailVerified && user.resetCode.None? && user.resetCodeExpires.None?
    ensures user != null ==> user.emailVerificationToken.None? && user.emailVerificationExpires.None?
  {
    if password != confirm {
      return PasswordMismatch, null;
    }
    if emailTaken {
      return EmailExists, null;
    }
    user := new UserAccount(id, username, email, password);
    reply := Registered(AfterSignup(session));
  }

  datatype UpdateReply = WrongCurrentPassword | NewPasswordMismatch | PasswordUpdated

  /** `update`: the current password must match and the two new ones agree; otherwise nothing changes. */
  method Update(u: UserAccount, currentPassword: string, password: string, confirm: string) returns (reply: UpdateReply)
    modifies u
    ensures currentPassword != old(u.password) ==> reply == WrongCurrentPassword
    ensures currentPassword == old(u.password) && password != confirm ==> reply == NewPasswordMismatch
    ensures reply == PasswordUpdated <==> currentPassword == old(u.password) && password == confirm
    ensures reply != PasswordUpdated ==> unchanged(u)
    ensures reply == PasswordUpdated ==> u.password == password
    ensures unchanged(u`username, u`email, u`role, u`host, u`wishlist, u`isEmailVerified)
    ensures unchanged(u`resetCode, u`resetCodeExpires, u`emailVerificationToken, u`emailVerificationExpires)
  {
    if currentPassword != u.password {
      return WrongCurrentPassword;
    }
    if password != confirm {
      return NewPasswordMismatch;
    }
    u.password := password;
    reply := PasswordUpdated;
  }

  // ------------------------------------------------------------ reset code

  /**
   * The rate limit of `getCode`: a (truthy) expiry still in the future whose
   * code was issued, ten minutes before it, less than a minute ago.
   */
  predicate InCooldown(resetCodeExpires: Option<int>, now: int) {
    && resetCodeExpires.Some? && resetCodeExpires.value != 0
    && resetCodeExpires.value > now
    && now - (resetCodeExpires.value - CODE_LIFETIME_MS) < RESEND_MS
  }

  /**
   * For an expiry set by `getCode` at a (positive) time `issued`, the rate
   * limit holds exactly when less than a minute has passed, which is exactly
   * when `canResendOTP` refuses.
   */
  lemma CooldownIsOneMinute(issued: int, now: int)
    requires issued > 0
    ensures InCooldown(Some(issued + CODE_LIFETIME_MS), now) <==> now - issued < RESEND_MS
    ensures InCooldown(Some(issued + CODE_LIFETIME_MS), now) <==> !JwtHelper.CanResendOTP(issued, now)
  {
  }

  datatype CodeReply = UserNotFound | TooManyRequests | CodeIssued(code: string, expiresIn: int)

  /** The HTTP status of each reply of `getCode`. */
  function CodeReplyStatus(r: CodeReply): (status: int)
    ensures status == 200 <==> r.CodeIssued?
  {
    match r
    case UserNotFound => 404
    case TooManyRequests => 429
    case CodeIssued(_, _) => 200
  }

  /**
   * `getCode`. `random` is the draw of `Math.random()`. Outside the rate
   * limit a new six-digit code is stored with an expiry ten minutes from now.
   */
  method GetCode(u: UserAccount?, now: int, random: real) returns (reply: CodeReply)
    requires 0.0 <= random < 1.0
    modifies u
    ensures u == null ==> reply == UserNotFound
    ensures u != null && InCooldown(old(u.resetCodeExpires), now) ==>
      reply == TooManyRequests && unchanged(u)
    ensures u != null && !InCooldown(old(u.resetCodeExpires), now) ==>
      && reply == CodeIssued(JwtHelper.GenerateOTP(random), JwtHelper.OTP_EXPIRY)
      && u.resetCode == Some(reply.code)
      && u.resetCodeExpires == Some(now + CODE_LIFETIME_MS)
    ensures reply.CodeIssued? ==> |reply.code| == 6 && 100000 <= DigitsValue(reply.code) <= 999999
    ensures u != null ==> unchanged(u`username, u`email, u`role, u`host, u`wishlist, u`isEmailVerified, u`password)
    ensures u != null ==> unchanged(u`emailVerificationToken, u`emailVerificationExpires)
  {
    if u == null {
      return UserNotFound;
    }
    if InCooldown(u.resetCodeExpires, now) {
      return TooManyRequests;
    }
    var code := JwtHelper.GenerateOTP(random);
    u.resetCode := Some(code);
    u.resetCodeExpires := Some(now + CODE_LIFETIME_MS);
    reply := CodeIssued(code, JwtHelper.OTP_EXPIRY);
  }

  datatype ForgotReply = AccountNotFound | InvalidCode | CodeExpired | ResetPasswordMismatch | PasswordReset

  /**
   * The checks of `forgot`, in order: a stored truthy code and expiry equal to
   * the supplied code, an expiry not yet passed, and agreeing passwords.
   */
  function ForgotCheck(resetCode: Option<string>, resetCodeExpires: Option<int>, code: Option<string>,
                       password: string, confirm: string, now: int): (r: ForgotReply)
    ensures r == PasswordReset <==>
      && Truthy(resetCode) && resetCodeExpires.Some? && resetCodeExpires.value != 0
      && code == resetCode && now <= resetCodeExpires.value && password == confirm
    ensures r != AccountNotFound
    ensures resetCode.None? ==> r == InvalidCode
  {
    if !Truthy(resetCode) || resetCodeExpires.None? || resetCodeExpires.value == 0 || code != resetCode then InvalidCode
    else if now > resetCodeExpires.value then CodeExpired
    else if password != confirm then ResetPasswordMismatch
    else PasswordReset
  }

  /** `forgot`: on success the password is set and the code and its expiry are cleared; otherwise nothing changes. */
  method Forgot(u: UserAccount?, code: Option<string>, password: string, confirm: string, now: int) returns (reply: ForgotReply)
    modifies u
    ensures u == null ==> reply == AccountNotFound
    ensures u != null ==> reply == ForgotCheck(old(u.resetCode), old(u.resetCodeExpires), code, password, confirm, now)
    ensures u != null && reply == PasswordReset ==>
      u.password == password && u.resetCode.None? && u.resetCodeExpires.None?
    ensures u != null && reply != PasswordReset ==> unchanged(u)
    ensures u != null ==> unchanged(u`username, u`email, u`role, u`host, u`wishlist, u`isEmailVerified)
    ensures u != null ==> unchanged(u`emailVerificationToken, u`emailVerificationExpires)
  {
    if u == null {
      return AccountNotFound;
    }
    reply := ForgotCheck(u.resetCode, u.resetCodeExpires, code, password, confirm, now);
    if reply == PasswordReset {
      u.password := password;
      u.resetCode := None;
      u.resetCodeExpires := None;
    }
  }

  /** A code that reset the password cannot be used again. */
  lemma CodeNotReusable(code: Option<string>, password: string, confirm: string, later: int)
    ensures ForgotCheck(None, None, code, password, confirm, later) == InvalidCode
  {
  }

  /** A code issued at `issued` resets the password for the next ten minutes, and no later. */
  lemma IssuedCodeWorksForTenMinutes(random: real, issued: int, now: int, password: string)
    requires 0.0 <= random < 1.0
    requires issued + CODE_LIFETIME_MS != 0
    ensures var code := JwtHelper.GenerateOTP(random);
            var r := ForgotCheck(Some(code), Some(issued + CODE_LIFETIME_MS), Some(code), password, password, now);
            (r == PasswordReset <==> now <= issued + CODE_LIFETIME_MS)
            && (r != PasswordReset ==> r == CodeExpired)
  {
  }
}

=== FILE: user_model.dfy ===
/**
 * The user record the secondary controllers update in place: role, the
 * host-application sub-document, the wishlist, the verification flag and the
 * password-reset fields. The password is kept as the credential the
 * authentication plugin compares against; its hashing is not modelled.
 */
module UserModel {
  import opened Common

  type UserId = nat
  type ListingId = nat

  datatype Role = User | Host | Admin

  /** `host.status`: "none", "pending", "approved" or "rejected". */
  datatype HostStatus = NoApplication | Pending | Approved | Rejected

  datatype Avatar = Avatar(url: string, filename: string)

  /** The host sub-document. */
  datatype HostInfo = HostInfo(
    isHost: bool,
    status: HostStatus,
    appliedAt: Option<int>,
    approvedAt: Option<int>,
    fullName: Option<string>,
    phone: Option<string>,
    aadhaar: Option<string>,
    avatar: Option<Avatar>,
    isVerified: bool)

  /** The sub-document's defaults: not a host, status "none", not verified. */
  const DefaultHost: HostInfo := HostInfo(false, NoApplication, None, None, None, None, None, None, false)

  class UserAccount {
    const id: UserId
    var username: string
    var email: string
    var role: Role
    var host: HostInfo
    var wishlist: seq<ListingId>
    var isEmailVerified: bool
    var password: string
    var resetCode: Option<string>
    var resetCodeExpires: Option<int>
    var emailVerificationToken: Option<string>
    var emailVerificationExpires: Option<int>

    /** A new user with the schema defaults: role "user", default host, empty wishlist, verified. */
    constructor (id: UserId, username: string, email: string, password: string)
      ensures this.id == id && this.username == username && this.email == email && this.password == password
      ensures role == User && host == DefaultHost && wishlist == [] && isEmailVerified
      ensures resetCode.None? && resetCodeExpires.None?
      ensures emailVerificationToken.None? && emailVerificationExpires.None?
    {
      this.id := id;
      this.username := username;
      this.email := email;
      this.password := password;
      role := User;
      host := DefaultHost;
      wishlist := [];
      isEmailVerified := true;
      resetCode := None;
      resetCodeExpires := None;
      emailVerificationToken := None;
      emailVerificationExpires := None;
    }
  }
}

=== FILE: wishlist.dfy ===
/**
 * Wishlist operations over `user.wishlist` (controllers/wishlist.js): add,
 * remove and toggle. Whether the listing exists is a parameter, the answer of
 * the listing lookup.
 */
module Wishlist {
  import opened Common
  import opened UserModel

  datatype WishlistReply = ListingNotFound | AlreadyInWishlist | Added | Removed

  /** The HTTP status of each reply. */
  function ReplyStatus(r: WishlistReply): (code: int)
    ensures code == 200 <==> r == Added || r == Removed
  {
    match r
    case ListingNotFound => 404
    case AlreadyInWishlist => 400
    case Added => 200
    case Removed => 200
  }

  /** `$pull`: every occurrence of `x` removed, the rest in order. */
  function RemoveAll(s: seq<ListingId>, x: ListingId): (r: seq<ListingId>)
    ensures x !in r
    ensures forall y :: y in r <==> y in s && y != x
    ensures multiset(r) == multiset(s)[x := 0]
    ensures |r| <= |s|
  {
    if s == [] then []
    else
      var init := RemoveAll(s[..|s| - 1], x);
      assert s == s[..|s| - 1] + [s[|s| - 1]];
      if s[|s| - 1] == x then init else init + [s[|s| - 1]]
  }

  /** Pulling from a concatenation pulls from each part: the other ids keep their order. */
  lemma {:induction false} RemoveAllAppend(a: seq<ListingId>, b: seq<ListingId>, x: ListingId)
    ensures RemoveAll(a + b, x) == RemoveAll(a, x) + RemoveAll(b, x)
  {
    if b != [] {
      var b' := b[..|b| - 1];
      RemoveAllAppend(a, b', x);
      assert (a + b)[..|a + b| - 1] == a + b';
    } else {
      assert a + b == a;
    }
  }

  /** Pulling an id that is not there changes nothing. */
  lemma {:induction false} RemoveAllAbsent(s: seq<ListingId>, x: ListingId)
    requires x !in s
    ensures RemoveAll(s, x) == s
  {
    if s != [] {
      RemoveAllAbsent(s[..|s| - 1], x);
      assert s == s[..|s| - 1] + [s[|s| - 1]];
    }
  }

  /** Pulling keeps a duplicate-free list duplicate-free. */
  lemma {:induction false} RemoveAllNoDuplicates(s: seq<ListingId>, x: ListingId)
    requires NoDuplicates(s)
    ensures NoDuplicates(RemoveAll(s, x))
  {
    if s != [] {
      var init := s[..|s| - 1];
      RemoveAllNoDuplicates(init, x);
      var last := s[|s| - 1];
      assert last !in init by {
        assert forall k :: 0 <= k < |init| ==> init[k] == s[k] != s[|s| - 1];
      }
      var r := RemoveAll(init, x);
      if last != x {
        assert last !in r;
        assert RemoveAll(s, x) == r + [last];
      }
    }
  }

  /** The effect of `toggleWishlist` on an existing listing: pull when present, push when absent. */
  function Toggle(w: seq<ListingId>, x: ListingId): (out: (seq<ListingId>, WishlistReply))
    ensures x in w ==> out.1 == Removed && out.0 == RemoveAll(w, x) && x !in out.0
    ensures x !in w ==> out.1 == Added && out.0 == w + [x]
  {
    if x in w then (RemoveAll(w, x), Removed) else (w + [x], Added)
  }

  /** Toggling an absent id twice gives back the original list. */
  lemma ToggleTwiceRestores(w: seq<ListingId>, x: ListingId)
    requires x !in w
    ensures Toggle(Toggle(w, x).0, x) == (w, Removed)
  {
    var once := w + [x];
    assert once[..|once| - 1] == w;
    RemoveAllAbsent(w, x);
  }

  /** Toggling keeps a duplicate-free list duplicate-free. */
  lemma ToggleNoDuplicates(w: seq<ListingId>, x: ListingId)
    requires NoDuplicates(w)
    ensures NoDuplicates(Toggle(w, x).0)
  {
    if x in w {
      RemoveAllNoDuplicates(w, x);
    }
  }

  /** `addToWishlist`: 404 for an unknown listing, 400 when already present, otherwise push at the end. */
  method AddToWishlist(u: UserAccount, listingId: ListingId, listingExists: bool) returns (reply: WishlistReply)
    modifies u
    ensures !listingExists ==> reply == ListingNotFound && u.wishlist == old(u.wishlist)
    ensures listingExists && listingId in old(u.wishlist) ==> reply == AlreadyInWishlist && u.wishlist == old(u.wishlist)
    ensures listingExists && listingId !in old(u.wishlist) ==> reply == Added && u.wishlist == old(u.wishlist) + [listingId]
    ensures NoDuplicates(old(u.wishlist)) ==> NoDuplicates(u.wishlist)
    ensures unchanged(u`username, u`email, u`role, u`host, u`isEmailVerified, u`password)
    ensures unchanged(u`resetCode, u`resetCodeExpires, u`emailVerificationToken, u`emailVerificationExpires)
  {
    if !listingExists {
      return ListingNotFound;
    }
    if listingId in u.wishlist {
      return AlreadyInWishlist;
    }
    u.wishlist := u.wishlist + [listingId];
    reply := Added;
  }

  /** `removeFromWishlist`: pulls every occurrence and succeeds even when there was none. */
  method RemoveFromWishlist(u: UserAccount, listingId: ListingId) returns (reply: WishlistReply)
    modifies u
    ensures reply == Removed
    ensures u.wishlist == RemoveAll(old(u.wishlist), listingId)
    ensures listingId !in old(u.wishlist) ==> u.wishlist == old(u.wishlist)
    ensures NoDuplicates(old(u.wishlist)) ==> NoDuplicates(u.wishlist)
    ensures unchanged(u`username, u`email, u`role, u`host, u`isEmailVerified, u`password)
    ensures unchanged(u`resetCode, u`resetCodeExpires, u`emailVerificationToken, u`emailVerificationExpires)
  {
    if listingId !in u.wishlist {
      RemoveAllAbsent(u.wishlist, listingId);
    }
    if NoDuplicates(u.wishlist) {
      RemoveAllNoDuplicates(u.wishlist, listingId);
    }
    u.wishlist := RemoveAll(u.wishlist, listingId);
    reply := Removed;
  }

  /** `toggleWishlist`: 404 for an unknown listing; otherwise pull when present and push when absent. */
  method ToggleWishlist(u: UserAccount, listingId: ListingId, listingExists: bool) returns (reply: WishlistReply)
    modifies u
    ensures !listingExists ==> reply == ListingNotFound && u.wishlist == old(u.wishlist)
    ensures listingExists ==> (u.wishlist, reply) == Toggle(old(u.wishlist), listingId)
    ensures unchanged(u`username, u`email, u`role, u`host, u`isEmailVerified, u`password)
    ensures unchanged(u`resetCode, u`resetCodeExpires, u`emailVerificationToken, u`emailVerificationExpires)
  {
    if !listingExists {
      return ListingNotFound;
    }
    if listingId in u.wishlist {
      u.wishlist := RemoveAll(u.wishlist, listingId);
      reply := Removed;
    } else {
      u.wishlist := u.wishlist + [listingId];
      reply := Added;
    }
  }
}
